=== FILE: README.md ===
# OCR PDF with two layers: a Dafny model of its core

The system turns an uploaded PDF or image into a searchable PDF. The
page image is kept, and the recognised text is drawn as a hidden layer
over it. It has three parts:

- A Python OCR processor (`src/process.py`). It detects text boxes,
  filters, expands and clamps them to the image, recognises each box, and
  repairs the spacing of the recognised text. It also chooses the output
  name and the processing path from the input's extension.
- A FastAPI backend with two variants (`src/backend/main.py` and
  `src/main.py`). It accepts an upload, names the result `ocr_…`, returns
  a `download_url`, and serves the file. A MongoDB layer
  (`src/backend/database/`) holds Pydantic models with field constraints
  and repositories for users and processed files.
- A React frontend. It includes:
  - an axios instance that adds the bearer token and clears storage on a
    401;
  - an authentication service over `localStorage`;
  - two API clients, one on axios and one on fetch;
  - the file picker and the upload page;
  - the forgot-password dialog and the account menu.

The model is functional. Each source file or component is one Dafny
module of immutable datatypes and pure functions:

| module | source |
|---|---|
| `Roman` | `is_valid_roman_numeral` |
| `Spacing` | `fix_text_spacing` |
| `Boxes` | the box step of `process_recognition` |
| `Pipeline` | `process_file` |
| `Server` | `src/backend/main.py` |
| `LegacyServer` | `src/main.py` |
| `Models` | Pydantic constraints |
| `Repositories` | in-memory collections; generic helpers in `Collection` |
| `Http` | `AxiosConfig.jsx` |
| `AuthService` | `AuthService.jsx` |
| `Api` | `Api.jsx` |
| `FetchApi` | `api.jsx` |
| `FileUpload` | `FileUpload.jsx` |
| `UploadPage` | `Upload.jsx` |
| `ForgotPassword` | `ForgotPassword.jsx` |
| `UserMenu` | `User.jsx` |

Every external call becomes a parameter that says how the call ended:

- the OCR recogniser;
- an HTTP exchange (`Http.Outcome`, `FetchApi.Answer`);
- processing raising or not (`Server.Outcome`);
- the form validators and account services (`Common.Call`).

`localStorage` is a `map<string, string>`. The backend's file system is a
`set<string>` of paths. Each page is a record of its React state, with an
`Enabled` predicate for the events the rendered page offers, a `Step`
function, and a `Consistent` invariant that every enabled step preserves.

Where the code differs from the project's own description of it, the
model follows the code:

- `Login` and `SignUp` go through the axios instance. A 401 answer
  therefore clears the whole store before the service's `catch` runs, so
  "a failed login writes nothing" holds only for failures other than 401.
- The backend declares no history or delete route. The axios client's
  `getFileHistory` and `deleteFile` get a 404.
- The account and recovery forms call `validate…Data`, `forgotPassword`,
  `resetPassword`, `changePassword` and `changeEmail`, but
  `AuthService.jsx` defines none of them. The model takes how each call
  ended as a parameter. A validator that throws does so before the
  handler's `try`, so `loading` stays true.
- `handleClose` in `ForgotPassword.jsx` resets every piece of state
  except `loading`.
- A failed download on the upload page sets `error` while the status
  stays `completed`, and the page shows `error` only in the `error`
  status. A download still in flight after a reset sets `error` on the
  fresh `idle` page.
- A processing run that raises after writing its output still answers
  500, and neither server removes the output, so it stays downloadable.
- `create_user` inserts the document before building the `User` model
  from it. A document the model rejects is therefore stored while the
  call raises, and every later lookup of it raises too. `update_user`
  does not validate, so a patch can leave a user in that state.

## Model

| member | source | states |
|---|---|---|
| Roman.MatchesPatternIff | src/process.py:52 | The deterministic recogniser accepts exactly the strings that split into a thousands group `M{0,4}`, then a hundreds, a tens and a units group of the anchored pattern. |
| Roman.CaseInsensitive | src/process.py:50-53 | A string is a valid numeral exactly when its lower-cased form is, because the check upper-cases first. |
| Roman.AcceptedSamples | src/process.py:50-53 | The empty string, `iv` and `MMMMCMXCIX` are accepted. |
| Roman.RejectedSamples | src/process.py:50-53 | `IIII`, `IL` and `MMMMM` are rejected. |
| Spacing.FixTextSpacing | src/process.py:55-81 | Blank text (empty or only whitespace) is returned as it is. For any text, the sequence of non-whitespace characters of the result equals that of the input: nothing visible is added, dropped or reordered. |
| Spacing.SpaceAfterLeadingNumber | src/process.py:61 | The text changes exactly when it starts with one or two digits, then `.` or `:`, then a non-space. The only change is one space after the separator, and two digits are preferred to one. |
| Spacing.CloseLeadingNumberGap | src/process.py:62 | Closing the gap between a leading number and its separator keeps every visible character in order. |
| Spacing.SpaceAfterLeadingRoman | src/process.py:64-68 | The text changes exactly when a leading run of Roman letters, a separator and a non-space form a valid numeral. Then one space is inserted right after the separator. Visible characters are kept. |
| Spacing.RomanValidHead | src/process.py:64-68 | `IV.` followed by a non-space gets a space after the dot. |
| Spacing.RomanInvalidHead | src/process.py:64-68 | `IIII.` followed by anything is left as it is, because the run is not a valid numeral. |
| Spacing.SpaceAfterLeadingLetter | src/process.py:69 | The text changes exactly when it starts with a letter, a separator and a non-space. Visible characters are kept. |
| Spacing.SpaceAfterLeadingParen | src/process.py:70 | The text changes exactly when it starts with a parenthesised alphanumeric run followed by a non-space. Then one space is inserted after the `)`. |
| Spacing.SpaceAfterLeadingSection | src/process.py:71 | A leading dotted section number gets at most one inserted space, and visible characters are kept. |
| Spacing.SectionEndingInDot | src/process.py:71 | `1.2.` followed by a non-space, non-digit gets a space after the final dot. |
| Spacing.SectionWithoutFinalDot | src/process.py:71 | When `1.2` is not followed by a dot, backtracking matches `1.` only and the space lands between `1.` and `2`. |
| Spacing.MatchAt | src/process.py:72-81 | Any match a global rule finds at a position is replaced by text with the same visible characters, and the replacement is never shorter than the match. |
| Spacing.Substitute | src/process.py:72-81 | One rule applied left to right over non-overlapping matches keeps every visible character and never shortens the text. |
| Spacing.SubstituteAll | src/process.py:72-81 | The ten global rules in sequence keep every visible character and never shorten the text. |
| Spacing.CommaRuleNotIdempotent | src/process.py:74 | On `x,y,z` the comma rule spaces only the first comma, and the result still has a match at the second. The function is therefore not idempotent. |
| Boxes.BoundingBox | src/process.py:131-136 | The box contains every vertex of a non-empty polygon, and each of its four bounds is a coordinate of some vertex. |
| Boxes.BoundingBoxes | src/process.py:131-136 | There are no boxes exactly when some polygon is empty, since `min` of an empty list raises. Otherwise each polygon has exactly its own bounding box. |
| Boxes.ExpandClamp | src/process.py:145-148 | The result lies in `[0,w]×[0,h]`. Each side is either the original side moved out by 5 or the image border. |
| Boxes.FilterDetections | src/process.py:138-152 | The three outputs have equal length. They come from strictly increasing detection indices, with box, score and polygon from the same detection and the box expanded and clamped. Exactly the detections that pass the score and area tests are kept. Every kept box is inside the image, has positive area and scores at least 0.5. |
| Boxes.KeptBoxPassesGuards | src/process.py:158-163 | A kept box never trips the degenerate-box and empty-crop guards of the recognition loop. |
| Boxes.Read | src/process.py:165-172 | A box yields text exactly when the recogniser succeeds, and the text is the recogniser's output after spacing repair. |
| Boxes.RecognitionReversesOrder | src/process.py:154-172 | When every kept box is readable, entry `k` of the recognition pass is the `k`-th box from the end with its own polygon: the visit is in reverse detection order. |
| Boxes.ProcessPage | src/process.py:126-172 | A page fails exactly when some polygon is empty. Otherwise it places at most one text per detection. |
| Pipeline.StripExtension | src/process.py:214 | The root is a prefix of the name. Either it is the whole name, or the name continues with a dot that is the last dot. |
| Pipeline.DefaultOutputName | src/process.py:213-215 | The default name ends in `_ocr.pdf` and has no directory part. |
| Pipeline.DefaultOutputNameOfPath | src/process.py:214-215 | For `dir/stem.ext`, the default name is `stem_ocr.pdf`. |
| Pipeline.ProcessFile | src/process.py:213-222 | The input is accepted exactly when its lower-cased name ends in `.pdf`, `.png`, `.jpg` or `.jpeg`. It takes the PDF path exactly for `.pdf`, and writes to the given output name or else the default. Anything else fails with the format message. |
| Pipeline.SupportedUnderDir | src/process.py:217-219 | Putting a name under a dot-free directory changes neither the supported-extension test nor the PDF test. |
| Server.OutputName | src/backend/main.py:36-38 | The output name starts with `ocr_` and ends with `.pdf`. It is `ocr_` + name when the name already ends in `.pdf` (case-sensitive), and `ocr_` + name + `.pdf` otherwise. |
| Server.OcrPrefixKeepsPdfSuffix | src/backend/main.py:36-38 | Adding `ocr_` does not change whether the name ends in `.pdf`. |
| Server.UpperCasePdfGetsSecondExtension | src/backend/main.py:29-38 | `stem.PDF` is accepted by the case-insensitive check and becomes `ocr_stem.PDF.pdf` under the case-sensitive suffix test. |
| Server.OutputNameHasNoSlash | src/backend/main.py:36-38 | A name without `/` gives an output name without `/`. |
| Server.ProcessUpload | src/backend/main.py:26-66 | An unsupported extension gives 400 with the fixed detail and touches no file. A processing exception gives 500 with `Lỗi xử lý file: ` + its message and removes only the temp input: the output file exists afterwards exactly when it existed before or the failed run had written it. The reply is a success exactly when the extension is supported and processing ends normally. Then its `filename` is the output name, `download_url` is `/download/` + `filename`, the message is the fixed success text, and the files afterwards are the old ones plus the output minus the temp input. |
| Server.FailedRunLeavesOutput | src/backend/main.py:40-66 | A run that raises after writing its output answers 500, yet downloading the output name then succeeds. |
| Server.AcceptedUploadIsDispatched | src/backend/main.py:35-47 | An accepted upload stored under `temp_files/` is also accepted by the processor, which writes exactly `output_files/` + output name. |
| Server.Download | src/backend/main.py:69-81 | A download succeeds exactly when `output_files/` + name exists, and serves that path. Otherwise it is 404 with the fixed detail. |
| Server.DownloadAfterUpload | src/backend/main.py:53-75 | After a successful upload of a name without `/`, the last `/`-segment of `download_url` is the output name, and downloading it succeeds. |
| Server.Route | src/backend/main.py:26-100 | A request reaches a handler exactly when its path is declared (`/process`, `/download/<segment>`, `/`, `/health`) and its method is the declared one. An undeclared path is 404 and a wrong method 405. |
| Server.DownloadRouted | src/backend/main.py:69-75 | `GET /download/` + name reaches the download handler with that name exactly when the name is one non-empty segment. Otherwise it is 404. |
| LegacyServer.OutputName | src/main.py:20 | The older output name is always `ocr_` + name + `.pdf`: it starts with `ocr_`, ends with `.pdf` and is 8 characters longer. |
| LegacyServer.OutputNamesCompared | src/main.py:20 | The two servers' output names agree exactly when the name does not end in `.pdf`. Otherwise the older one has an extra `.pdf`. |
| LegacyServer.PdfUploadGetsDoubleExtension | src/main.py:20 | `stem.pdf` becomes `ocr_stem.pdf.pdf`. |
| LegacyServer.ProcessUpload | src/main.py:14-35 | The older upload gives 400 for an unsupported extension. On an exception it gives 500 with the prefixed message and removes only the temp input, so an output the failed run wrote stays. It succeeds exactly when the extension is supported and processing ends normally. Then `download_url` is `/download/` + its output name, the message is its fixed success text, and the files afterwards are the old ones plus the output minus the temp input. |
| LegacyServer.SameUploadCheck | src/main.py:16-17 | Both servers reject exactly the same uploads with 400. |
| LegacyServer.DownloadAfterUpload | src/main.py:30-42 | After a successful older upload of a name without `/`, the URL's last segment is its output name, and the download succeeds. |
| Models.IsEmailIff | src/backend/database/models.py:49 | The scanning check accepts exactly the language of `^[^@]+@[^@]+\.[^@]+$`: one `@` with text before it, and a later `.` with text on both sides. |
| Models.EmailAccepted | src/backend/database/models.py:49 | `a@b.c` and `a@b.c.d` match the pattern. |
| Models.EmailRejected | src/backend/database/models.py:49 | `@b.c`, `a@b.`, `a@.c` and `a@@b.c` do not. |
| Models.Validate | src/backend/database/models.py:44-91 | The reported fields are exactly the schema's fields that are missing or violate their constraint. A model is built exactly when none are reported. |
| Models.SignUpCredentialsLogIn | src/backend/database/models.py:72-80 | Values that pass `UserSignUp` also pass `UserLogin`. |
| Models.LongUsernameOnlyLogsIn | src/backend/database/models.py:73-79 | A 51-character username passes `UserLogin`, which has no maximum, and is the only field `UserSignUp` reports. |
| Models.PasswordBound | src/backend/database/models.py:50-86 | In every model with a password field, that field is reported exactly when it is shorter than 6 characters. |
| Models.NewUser | src/backend/database/models.py:44-53 | A new user is active, with the given fields. `created_at` and `updated_at` come from two separate clock readings. |
| Models.UserSchemaErrors | src/backend/database/models.py:46-53 | `User` reports its failing fields in declaration order: username, then e-mail, then password. |
| Models.ValidUserIff | src/backend/database/models.py:46-53 | A stored user builds a `User` exactly when its username has 3 to 50 characters, its e-mail matches the pattern, and its password has at least 6 characters. |
| Models.ShortUsernameRejected | src/backend/database/models.py:48 | With a valid e-mail and password, a two-character username is the one field reported. |
| Models.NewProcessedFile | src/backend/database/models.py:56-68 | A new record is `completed`, with no processing time, a download count of 0 and the given fields. |
| Repositories.CreateUser | src/backend/database/repositories.py:14-18 | A duplicate id is rejected, as are a duplicate username or e-mail once the indexes exist, and then nothing is stored. Any other document is appended. The call then returns the user exactly when the `User` model accepts it, and otherwise raises with the fields the model reports, leaving the document stored. The store's invariant is preserved. |
| Repositories.CreateUserIndexes | src/backend/database/repositories.py:48-51 | The call raises exactly when usernames or e-mails are not distinct. The username index exists afterwards when it existed or the usernames are distinct. The e-mail index exists afterwards when it existed or both are distinct, so a failure on e-mails leaves the username index in place. The documents are untouched and consistency is kept. |
| Repositories.CreateUserIndexesIdempotent | src/backend/database/repositories.py:48-51 | Building the indexes a second time after a success changes nothing. |
| Repositories.EmailIndexFailureKeepsUsernameIndex | src/backend/database/repositories.py:14-51 | When only the e-mails clash, index creation raises but keeps the username index. A later sign-up under a taken name then fails and stores nothing, while one under a fresh id and name is stored. |
| Repositories.GetUserByUsername | src/backend/database/repositories.py:20-23 | The answer is "none" exactly when no stored user has the name. A user returned is a stored one with that name that the `User` model accepts. A raise carries the fields the model reports for a stored user with that name, and it cannot happen when every such user is accepted. |
| Repositories.GetUserByEmail | src/backend/database/repositories.py:25-28 | The same for the e-mail. |
| Repositories.GetUserById | src/backend/database/repositories.py:30-33 | The same for the id. |
| Repositories.LookupsAreExact | src/backend/database/repositories.py:20-33 | In a consistent store with both indexes, each lookup by a user's own key finds that user. It returns the user exactly when the model accepts it, and otherwise raises with the reported fields. |
| Repositories.InvalidUserStoredButUnreadable | src/backend/database/repositories.py:14-33 | A sign-up whose document the model rejects raises but stays stored, and every later lookup of that user by name, e-mail or id raises. |
| Repositories.ShortUsernameStored | src/backend/database/repositories.py:14-18 | A user named `ab` is stored into an empty indexed collection, and the call raises on `username` alone. |
| Repositories.UpdateUser | src/backend/database/repositories.py:35-41 | An unknown id changes nothing and answers false. With unique ids the outcome is exactly that of patching the user with the id. The call fails exactly when the patch changes the user and an existing unique index rejects the result. Otherwise the store becomes the patched one and the answer is whether anything changed. |
| Repositories.UpdateUserConsistent | src/backend/database/repositories.py:35-41 | A successful update keeps the store consistent. It answers true exactly when the patch changed the record, as `modified_count > 0` does. |
| Repositories.DeleteUser | src/backend/database/repositories.py:43-46 | The answer is true exactly when the id existed. Then the store loses one document, otherwise it is unchanged. Every user with another id remains and none is added. In a consistent store no user has the id afterwards and the store stays consistent. |
| Repositories.DuplicateUsernameRejected | src/backend/database/repositories.py:14-51 | With the username index, once a user is stored, inserting a second user with the same username fails and leaves the collection as it was. |
| Repositories.PatchedToInvalidUnreadable | src/backend/database/repositories.py:30-41 | `update_user` does not validate. After a patch to a value the model rejects, looking the user up by id raises. |
| Repositories.SortNewestFirst | src/backend/database/repositories.py:66-67 | The sorted list is newest first and is a permutation of the input. |
| Collection.FilterCounts | src/backend/database/repositories.py:66 | A query's filter keeps every matching document as many times as it occurs in the collection, and no document that does not match. |
| Repositories.ByUser | src/backend/database/repositories.py:66 | The filter keeps each of the user's records as often as it occurs, and no other record. |
| Repositories.GetUserFileCount | src/backend/database/repositories.py:110-112 | The count is the number of the user's records, counted with repetition. It is zero exactly when the user has none, and never exceeds the collection's size. |
| Repositories.GetFilesByUser | src/backend/database/repositories.py:64-74 | A negative skip is an error. Otherwise the page holds only that user's records, newest first, and its length follows skip and limit (0 meaning no limit) against the user's count. With no skip and no limit it is a permutation of the user's records. |
| Repositories.NextPageContinues | src/backend/database/repositories.py:64-74 | The page at `skip` of size `n`, followed by the page at `skip + n` of size `m`, is the page at `skip` of size `n + m`. |
| Repositories.DefaultPage | src/backend/database/repositories.py:64 | With the defaults 0 and 20, the page holds 20 of the user's records, or all of them when there are fewer. |
| Repositories.CreateProcessedFile | src/backend/database/repositories.py:58-62 | An insert appends the record unless the id exists, and keeps ids unique. |
| Repositories.GetFileById | src/backend/database/repositories.py:76-79 | The result is absent exactly when no record has the id; otherwise it is the record with it. |
| Repositories.GetFileByFilename | src/backend/database/repositories.py:81-87 | The result matches both the filename and the user. It is absent exactly when no record matches both, so another user's file of the same name is never returned. |
| Repositories.UpdateFile | src/backend/database/repositories.py:89-95 | An unknown id changes nothing and answers false. Otherwise exactly the matching record takes the patch, and the answer is true exactly when that changed it. |
| Repositories.IncrementDownloadCount | src/backend/database/repositories.py:97-103 | The answer is true exactly when the id exists. Exactly that record's download count rises by one. |
| Repositories.DeleteFile | src/backend/database/repositories.py:105-108 | The answer is true exactly when the id existed. Then one record is gone, otherwise nothing changes. Every other record remains, none is added, and with unique ids none has the id afterwards. |
| Repositories.DeleteLowersCount | src/backend/database/repositories.py:105-112 | Deleting one of a user's records lowers that user's file count by exactly one. |
| Http.NewRequest | src/frontend/src/services/AxiosConfig.jsx:3-7 | A request carries a `Content-Type` header plus every header the call gives, and times out after the call's timeout or else after 15000 ms. |
| Http.AttachToken | src/frontend/src/services/AxiosConfig.jsx:10-14 | With a non-empty stored token the request gets `Authorization: Bearer <token>`. Without one it is unchanged. Nothing else in the request ever changes. |
| Http.ServerSeesBearer | src/frontend/src/services/AxiosConfig.jsx:10-14 | The server sees an `Authorization` header exactly when a non-empty token is stored. |
| Http.OnResponse | src/frontend/src/services/AxiosConfig.jsx:17-26 | Every outcome passes through unchanged. A 401 empties the whole store and redirects; anything else leaves the store and location alone. |
| Http.Send | src/frontend/src/services/AxiosConfig.jsx:10-26 | The server receives the request with the token attached. After a 401 the store is empty and holds no token; otherwise it is unchanged. |
| Http.Detail | src/frontend/src/services/AuthService.jsx:16 | `error.response?.data?.detail` counts only when there is a response whose detail is a non-empty string. |
| AuthService.GetToken | src/frontend/src/services/AuthService.jsx:65-67 | The stored token, present exactly when the key is stored. |
| AuthService.GetUser | src/frontend/src/services/AuthService.jsx:59-62 | The stored user, absent (null) unless a non-empty value is stored. |
| AuthService.Authenticate | src/frontend/src/services/AuthService.jsx:5-34 | A resolved answer stores the token and the user and leaves every other key alone. A rejected one fails with the detail or the fallback, and leaves the store unchanged unless it was a 401, which empties it. "Token stored iff user stored" is preserved. |
| AuthService.SignUp | src/frontend/src/services/AuthService.jsx:5-18 | A resolved answer is returned as is, its token is stored, its user is stored when non-empty, and no other key changes. A rejection throws a non-empty message, `Sign up failed` when there is no detail, and leaves the store as it was, or empty after a 401. |
| AuthService.Login | src/frontend/src/services/AuthService.jsx:21-34 | The same as sign-up, with `Login failed`. |
| AuthService.GetCurrentUser | src/frontend/src/services/AuthService.jsx:43-50 | The fetched user with the store untouched, or the detail or `Failed to get user info`. A rejection leaves the store as it was, or empty after a 401. |
| AuthService.Logout | src/frontend/src/services/AuthService.jsx:37-40 | Exactly the token and user keys are removed; every other key keeps its value. |
| AuthService.LogoutIdempotent | src/frontend/src/services/AuthService.jsx:37-40 | Logging out twice is logging out once. Afterwards there is no session, and the session keys agree. |
| AuthService.LoginAfterLogout | src/frontend/src/services/AuthService.jsx:21-40 | A successful login after logout makes `getToken` and `getUser` return the response's token and user. |
| AuthService.UnauthorizedLoginClearsEverything | src/frontend/src/services/AuthService.jsx:21-34 | A 401 login rejection with a detail empties the whole store and fails with that detail. |
| Api.HandleError | src/frontend/src/services/Api.jsx:4-6 | The message is never empty. It is the detail if there is one, else the error's message if non-empty, else `API request failed`. |
| Api.HandleErrorAgreesWithSession | src/frontend/src/services/Api.jsx:4-6 | The API client and the login service report the same detail. Without a detail they fall back differently. |
| Api.HistoryPage | src/frontend/src/services/Api.jsx:57 | History asks for skip 0 and limit 20 unless told otherwise. |
| Api.DefaultHistoryIsRepositoryDefault | src/frontend/src/services/Api.jsx:57 | The client's default page is the repository's default page. |
| Api.RequestOf | src/frontend/src/services/Api.jsx:9-78 | Every call overrides the 15000 ms default. Process and download have no timeout, delete and history 30000 ms, health 5000 ms. Process posts multipart data, download asks for `/download/` + filename, and only history sends parameters. |
| Api.Perform | src/frontend/src/services/Api.jsx:9-67 | A call returns the response data exactly when resolved, and otherwise fails with the normalised message. A 401 empties the store. |
| Api.DownloadFile | src/frontend/src/services/Api.jsx:26-42 | A resolved download is saved under the requested filename with the received blob. Because the request asks for a blob, a rejection throws axios's message or `API request failed`, never a server detail. A 401 empties the store, and nothing else touches it. |
| Api.DownloadHidesMissingFileDetail | src/frontend/src/services/Api.jsx:4-42 | The backend's `File không tồn tại` 404 reaches a JSON call as its detail, but the blob download reports only axios's message. |
| Api.CheckApiHealth | src/frontend/src/services/Api.jsx:70-78 | The check is true exactly for a resolved status 200 and never fails. |
| Api.Rejection | src/frontend/src/services/Api.jsx:4-6 | On a JSON request, a backend error reaches the client as a rejection whose detail is the backend's. |
| Api.RequestsReachHandlers | src/frontend/src/services/Api.jsx:9-78 | The process, health and download requests each reach the matching backend handler. |
| Api.HistoryAndDeleteUnserved | src/frontend/src/services/Api.jsx:45-67 | The backend serves no history or delete request: both are 404 `Not Found`, and the client reports that detail. |
| FetchApi.ProcessFile | src/frontend/src/services/api.jsx:5-43 | The parsed body is returned exactly for a 2xx whose body parses. A non-ok answer with a readable body throws its detail or `Failed to process file`. An unreadable body, ok or not, throws the parse error's message or `Network error occurred`, and so does a network failure. The message is never empty. Progress is reported as 100 exactly on success with a callback. |
| FetchApi.DownloadFile | src/frontend/src/services/api.jsx:46-66 | Success exactly for a 2xx whose body is read, saved under the requested name. Any non-ok answer throws `Failed to download file`. A network failure or a failing body read throws its message or `Download failed`. |
| FetchApi.GetFileHistory | src/frontend/src/services/api.jsx:69-77 | History is always the empty list. |
| FetchApi.HealthChecksCompared | src/frontend/src/services/api.jsx:80-86 | The fetch check counts any 2xx, so on a 204 it disagrees with the axios check. On a 200 and on a failure the two agree. |
| FetchApi.FromServer | src/frontend/src/services/api.jsx:12-18 | A backend success arrives as a 2xx with its body, and an error as a non-ok answer whose body's detail is the backend's. |
| FetchApi.UploadMessagesReachPage | src/frontend/src/services/api.jsx:15-42 | After an upload, the page receives the backend's own rejection and failure messages. A success brings the output file name with progress 100. |
| FileUpload.ValidateFile | src/frontend/src/components/FileUpload/FileUpload.jsx:19-34 | A file is accepted exactly when its MIME type is one of the four listed and its size is at most 10 MiB. The type is checked first, so a file failing both gets only the type alert. |
| FileUpload.SizeLimitInclusive | src/frontend/src/components/FileUpload/FileUpload.jsx:21-31 | Exactly 10485760 bytes is accepted and 10485761 is refused with the size alert. |
| FileUpload.PickerAndServerChecksDiffer | src/frontend/src/components/FileUpload/FileUpload.jsx:20-26 | The picker looks only at the MIME type: a `.gif` name typed `image/png` passes it, and the backend refuses the name. |
| FileUpload.HandleFileSelect | src/frontend/src/components/FileUpload/FileUpload.jsx:9-16 | Only the first file counts. It is handed on exactly when it validates, with no alert; otherwise its one alert is shown. A missing or empty list does nothing. |
| FileUpload.OnlyFirstFileCounts | src/frontend/src/components/FileUpload/FileUpload.jsx:9-16 | Any files after the first change nothing. |
| FileUpload.HandleDrop | src/frontend/src/components/FileUpload/FileUpload.jsx:48-56 | A drop with files behaves as selecting them, whatever `disabled` is. |
| FileUpload.DropIgnoresDisabled | src/frontend/src/components/FileUpload/FileUpload.jsx:48-63 | While disabled a click opens nothing, yet a valid dropped file is still selected. |
| FileUpload.HandleDropGuarded | src/frontend/src/components/FileUpload/FileUpload.jsx:48-63 | The guarded drop does nothing while disabled and otherwise is the drop as written. |
| FileUpload.GuardedDropMatchesClick | src/frontend/src/components/FileUpload/FileUpload.jsx:48-63 | With the guard, a drop selects a file only when a click would open the picker, and selects what the input would. |
| UploadPage.SelectFile | src/frontend/src/pages/Upload/Upload.jsx:15-21 | Selecting a file from any status gives `idle` with that file, progress 0, and no result or error. |
| UploadPage.BeginProcess | src/frontend/src/pages/Upload/Upload.jsx:24-30 | Without a file nothing happens. Otherwise the page is `processing` with progress 0 and no error, and one more processing request is awaited. |
| UploadPage.FinishProcess | src/frontend/src/pages/Upload/Upload.jsx:32-39 | One awaited request settles, whichever it is. The page becomes `completed` with the parsed reply and progress 100 exactly when the call returns. Otherwise it becomes `error` with the thrown message and the result untouched. The file and the downloads in flight are kept. |
| UploadPage.DownloadName | src/frontend/src/pages/Upload/Upload.jsx:44-48 | A name is asked for exactly when there is a result with a non-empty `download_url`. It is the URL's tail after its last `/`. |
| UploadPage.HandleDownload | src/frontend/src/pages/Upload/Upload.jsx:43-53 | A click whose request settles at once. Without a name nothing happens. With one, a file is saved exactly when the download succeeds with a body, and then it is that body under the asked name with the page unchanged. Otherwise only `error` changes, to the download's message, which is the fixed rejection text for an HTTP error. |
| UploadPage.BeginDownload | src/frontend/src/pages/Upload/Upload.jsx:43-48 | A click with a name adds a request for that name to those in flight; without a name nothing happens. |
| UploadPage.FinishDownload | src/frontend/src/pages/Upload/Upload.jsx:48-53 | Settling one request in flight removes it. The file is saved under that request's name exactly when the download succeeds. Otherwise `error` becomes the download's message on whatever page is shown, and nothing else changes. |
| UploadPage.HandleDownloadIsBeginThenFinish | src/frontend/src/pages/Upload/Upload.jsx:43-53 | A click followed at once by its own settling is exactly `HandleDownload`. |
| UploadPage.HandleReset | src/frontend/src/pages/Upload/Upload.jsx:56-62 | Reset restores the initial page: no file, progress 0, `idle`, no result or error. Requests in flight stay in flight. |
| UploadPage.StepConsistent | src/frontend/src/pages/Upload/Upload.jsx:81-139 | With the guarded drop, every event the rendered page offers keeps the page consistent, including download answers that land late. One processing request is awaited while `processing` and none otherwise, and `processing` has a file and no result. `idle` has no result, `completed` has one, and `error` has a message and no result. |
| UploadPage.DownloadFailureAfterReset | src/frontend/src/pages/Upload/Upload.jsx:43-130 | A download still in flight when "Process Another File" is pressed fails onto the fresh page, which is then `idle` with the download's error set. |
| UploadPage.DropDuringProcessing | src/frontend/src/pages/Upload/Upload.jsx:15-39 | As written, a file dropped while processing starts the page over during the request. The answer then shows `completed` for the dropped file with the first file's reply. With the guard the drop changes nothing. |
| UploadPage.SecondProcessingCall | src/frontend/src/pages/Upload/Upload.jsx:15-39 | As written, a drop while processing shows `idle`, so Process starts a second request while the first is awaited. Both answers land in turn. A success followed by a failure ends in `error` with the first reply still held, which is not a consistent page. |
| UploadPage.DownloadFailureUnseen | src/frontend/src/pages/Upload/Upload.jsx:50-52 | A failed download sets `error` but keeps `completed`, so the message is never displayed. |
| UploadPage.DownloadAsksForOutput | src/frontend/src/pages/Upload/Upload.jsx:32-48 | After the backend processes an upload of a name without `/`, the download button asks for exactly the file the backend wrote, and the backend serves it. |
| ForgotPassword.InputChange | src/frontend/src/components/AuthServices/ForgotPassword.jsx:18-23 | Only the edited field changes. Errors and the success message are cleared. |
| ForgotPassword.SendCode | src/frontend/src/components/AuthServices/ForgotPassword.jsx:25-49 | Validation errors are shown with no request and the step kept. A request goes out exactly when validation passes, with the entered username. Step 2 is reached exactly on its success, with the reported e-mail and message. A failure shows `[message]` on the same step. `loading` ends false unless the validator throws. |
| ForgotPassword.ResetPassword | src/frontend/src/components/AuthServices/ForgotPassword.jsx:51-84 | A request with username, code and new password goes out exactly when validation passes. The success message appears exactly on its success. Validation errors are shown as returned, and a failed request shows `[message]`, both without a success message. The step, form and e-mail are kept, and `loading` ends false unless the validator throws. |
| ForgotPassword.Close | src/frontend/src/components/AuthServices/ForgotPassword.jsx:86-98 | Closing gives the initial dialog, except that `loading` is kept. |
| ForgotPassword.BackToStepOne | src/frontend/src/components/AuthServices/ForgotPassword.jsx:106-117 | Back to step 1 keeps the username and clears the step-2 fields, the e-mail and both messages. |
| ForgotPassword.StepConsistent | src/frontend/src/components/AuthServices/ForgotPassword.jsx:100-228 | Every event the rendered dialog offers keeps it on step 1 or 2. Step 1 shows no e-mail or step-2 fields, and errors and success are never shown together. |
| ForgotPassword.ThrowingValidatorDisablesForGood | src/frontend/src/components/AuthServices/ForgotPassword.jsx:25-37 | A throwing validator leaves `loading` set, and no offered event clears it. |
| UserMenu.InputChange | src/frontend/src/components/User/User.jsx:44-49 | Only the edited field changes. Errors and the success message are cleared, and the dialogs stay as they are. |
| UserMenu.ChangePassword | src/frontend/src/components/User/User.jsx:74-112 | The old and new passwords are sent exactly when validation passes. Validation errors are shown as returned, with the fields and dialog kept. Success shows the server's message or the default, closes the dialog, and clears the three password fields while keeping the e-mail draft. A failure shows `[message]` with the fields kept. `loading` ends false unless the validator throws. |
| UserMenu.ChangeEmail | src/frontend/src/components/User/User.jsx:114-145 | The new address is sent exactly when validation passes. Validation errors are shown as returned, with the fields and dialog kept. Success shows the server's message or the default, closes the dialog and clears the address. A failure shows `[message]`. |
| UserMenu.ResetForms | src/frontend/src/components/User/User.jsx:147-158 | Both dialogs close and every field and message is cleared. The dropdown and `loading` are kept. |
| UserMenu.Logout | src/frontend/src/components/User/User.jsx:51-72 | Everything closes and clears, and the session is removed from storage, leaving no user or token. |
| UserMenu.StepConsistent | src/frontend/src/components/User/User.jsx:23-345 | Every event the rendered menu offers, including a mouse-down outside the dropdown, keeps errors and a success message from showing together. |
| UserMenu.ThrowingValidatorDisablesForGood | src/frontend/src/components/User/User.jsx:74-145 | A throwing validator leaves `loading` set, and no offered event clears it. |
| UserMenu.BothChangesClearAllDrafts | src/frontend/src/components/User/User.jsx:99-136 | A successful password change followed by a successful e-mail change leaves every draft field empty and both dialogs closed. |

## Left out

- OCR models, image and PDF I/O: detection, recognition, rendering, drawing, merging and the per-page temp folder are foreign libraries. Detector output is an input sequence of integer polygons with scores, and the recogniser is a parameter.
- Font sizing and placement (`calculate_font_size_and_position`, `adjust_font_size_to_fit_width`): floating-point layout only.
- Scores: modelled as `real` and compared with 0.5 exactly; float rounding is out of scope.
- Python `int()` on float coordinates: coordinates are integers from the start.
- Roman.MatchesPatternIff: it describes the match of the whole string. The extra match that Python's `$` allows before a final newline is added by `PatternMatch`, which the validity check uses.
- Case mapping, digits and whitespace are ASCII: Python's Unicode-aware `upper`, `\d` and `\s` are not modelled.
- Spacing.CloseLeadingNumberGap: its contract states only that visible characters are kept, not where the gap is closed.
- Spacing.SpaceAfterLeadingSection: its contract states only "unchanged or one space inserted" plus kept characters. The exact position is shown on the two sample lemmas only.
- Spacing.MatchAt: soundness only. That every regex match is found is not proved.
- Spacing.Substitute: soundness only. That every regex match is found is not proved.
- Spacing.SubstituteAll: soundness only. That every regex match is found is not proved.
- Boxes.ProcessPage: states failure, success and size bounds. The order and content of the page are stated by `Boxes.RecognitionReversesOrder` for pages whose every box is readable.
- MongoDB, Motor, SMTP mail, CORS and uvicorn: the repositories are in-memory sequences; connection and e-mail code are outside the core.
- `ObjectId` parsing: invalid id strings raise in the driver; ids are natural numbers here.
- Sort tie order: records with equal `created_at` may come in any order.
- Repositories.GetFilesByUser: the page's contents are proved to be the user's records, newest first. That they are the exact slice of one particular sort is stated only through `NextPageContinues`.
- The progress interval timer in `api.jsx`: concurrent ticks can land after the final 100, so only the final report is modelled.
- Browser side effects (DOM, `Blob` download plumbing, `alert` as a returned list, `window.location`): the redirect after a 401 is a boolean result.
- The page reload after an e-mail change: the menu is modelled up to the reload.
- The timers (2 s in the recovery dialog, 3 s in the menu): the dialog's timer is modelled as the later `Close`, and the menu's success timer as the `SuccessExpired` event.
- Interleaving during awaited submits in the two forms: each submit is one step. Only the upload page models its awaited requests separately: the number of processing requests in flight, and each download request.
- The browser's own form checks (`required`, `maxLength="6"` on the reset code, `type="email"`): `Enabled` lets every submit through. This over-approximates the forms' runs, so the invariants also hold for the real ones.
- The validators and account services the forms call (`validate…Data`, `forgotPassword`, `resetPassword`, `changePassword`, `changeEmail`): not defined in the shipped service. Each is a parameter saying how the call ended.
- JSON parsing: the stored user round-trips; a malformed body is a `Malformed` value carrying the thrown message.
- Non-string `detail` values (FastAPI's validation lists): not modelled.
- The root and health responses' bodies: fixed JSON, routing only.
- FastAPI's HEAD/OPTIONS handling and trailing-slash redirects: not modelled.
- `handleDrag` (highlighting only) and the avatar letter: rendering.
- `History.jsx`, `Login.jsx`, `SignUp.jsx`, `Header.jsx`, `App.jsx`, `ProgressBar.jsx`: routing, rendering and thin delegation to the modelled services.

## Findings

| source | as written | input that shows it | evidently intended | confidence | as-written member | corrected member |
|---|---|---|---|---|---|---|
| src/frontend/src/components/FileUpload/FileUpload.jsx:48-56 | `handleDrop` passes dropped files to `handleFileSelect` without consulting `disabled`, unlike `handleClick` and the disabled input | a valid PDF dropped while the upload page is `processing` | a drop is ignored while the picker is disabled | medium, not executed | FileUpload.DropIgnoresDisabled | FileUpload.GuardedDropMatchesClick |

=== FILE: api.dfy ===
/** The axios-based API client (src/frontend/src/services/Api.jsx): the
    request each call builds on the shared instance, and what it returns
    or throws once the interceptors of `Http` have run. The server's
    answer is a parameter. */
module Api {
  import opened Common
  import opened Http
  import AuthService
  import Server
  import Repositories
  import Models

  const RequestFailed: string := "API request failed"

  /** The calls the client makes. */
  datatype Call =
    | ProcessCall
    | DownloadCall(filename: string)
    | DeleteCall(fileId: string)
    | HistoryCall(skip: int, limit: int)
    | HealthCall

  /** `handleError`: the message thrown is the server's `detail`, else
      axios's own message, else a fixed text. */
  function HandleError(e: AxiosError): (msg: string)
    ensures msg != ""
    ensures Detail(e).Some? ==> msg == Detail(e).value
    ensures Detail(e).None? && e.message != "" ==> msg == e.message
    ensures Detail(e).None? && e.message == "" ==> msg == RequestFailed
  {
    OptOrElse(Detail(e), OrElse(e.message, RequestFailed))
  }

  /** Where a server `detail` exists the client reports it exactly as the
      session calls do; without one the session calls report their fixed
      text while this client prefers axios's own message. */
  lemma HandleErrorAgreesWithSession(store: Store, e: AxiosError)
    ensures Detail(e).Some? ==>
      AuthService.Login(store, Rejected(e)).1 == Err(HandleError(e))
    ensures Detail(e).None? ==>
      AuthService.Login(store, Rejected(e)).1 == Err(AuthService.LoginFailed)
      && HandleError(e) == OrElse(e.message, RequestFailed)
  {
  }

  /** `getFileHistory(skip = 0, limit = 20)`: JavaScript defaults apply to
      omitted arguments. */
  function HistoryPage(skip: Option<int>, limit: Option<int>): (c: Call)
    ensures c.HistoryCall?
    ensures c.skip == (if skip.Some? then skip.value else 0) && c.limit == (if limit.Some? then limit.value else 20)
  {
    HistoryCall(skip.GetOr(0), limit.GetOr(20))
  }

  /** The history page the client asks for by default is the backend
      repository's default page. */
  lemma DefaultHistoryIsRepositoryDefault()
    ensures HistoryPage(None, None) == HistoryCall(Repositories.DefaultSkip, Repositories.DefaultLimit)
  {
  }

  /** The request each call sends. Every call sets its own timeout: none
      for the upload and the download, 30 s for delete and history, 5 s for
      the health check. */
  function RequestOf(c: Call): (r: Request)
    ensures r.timeout != DefaultTimeout
    ensures r.timeout == 0 <==> c.ProcessCall? || c.DownloadCall?
    ensures "Content-Type" in r.headers
    ensures c.ProcessCall? ==> r.verb == "POST" && r.headers["Content-Type"] == "multipart/form-data"
    ensures c.DownloadCall? ==> r.verb == "GET" && r.route == Server.DownloadRoute + c.filename
    ensures c.HistoryCall? ==> r.params == map["skip" := c.skip, "limit" := c.limit]
    ensures !c.HistoryCall? ==> r.params == map[]
  {
    match c
    case ProcessCall => NewRequest("POST", "/process", map[], map["Content-Type" := "multipart/form-data"], Some(0))
    case DownloadCall(filename) => NewRequest("GET", Server.DownloadRoute + filename, map[], map[], Some(0))
    case DeleteCall(fileId) => NewRequest("DELETE", "/file/" + fileId, map[], map[], Some(30000))
    case HistoryCall(skip, limit) => NewRequest("GET", "/history", map["skip" := skip, "limit" := limit], map[], Some(30000))
    case HealthCall => NewRequest("GET", "/", map[], map[], Some(5000))
  }

  /** A call on the instance: the data of a 2xx response, or the message
      `handleError` throws; a 401 has already emptied the storage. */
  function Perform<D>(store: Store, answer: Outcome<D>): (r: (Store, Result<D, string>))
    ensures r.1.Ok? <==> answer.Resolved?
    ensures answer.Resolved? ==> r == (store, Ok(answer.data))
    ensures answer.Rejected? ==> r.1 == Err(HandleError(answer.error))
    ensures answer.Rejected? ==> r.0 == (if IsUnauthorized(answer) then map[] else store)
  {
    var (st, o, _) := OnResponse(store, answer);
    match o
    case Resolved(_, data) => (st, Ok(data))
    case Rejected(e) => (st, Err(HandleError(e)))
  }

  /** An error as a `responseType: 'blob'` request sees it: the error
      body arrives as a `Blob`, which has no `detail`. */
  function AsBlobError(e: AxiosError): AxiosError {
    if e.response.Some? then e.(response := Some(e.response.value.(detail := None))) else e
  }

  /** `downloadFile(filename)`: the body is saved under the name that was
      asked for. The request asks for a blob, so an error body is never
      read: the message thrown is axios's own, or the fixed text. */
  function DownloadFile(store: Store, filename: string, answer: Outcome<seq<bv8>>): (r: (Store, Result<(string, seq<bv8>), string>))
    ensures r.1.Ok? <==> answer.Resolved?
    ensures r.1.Ok? ==> r.1.value == (filename, answer.data)
    ensures answer.Rejected? ==> r.1 == Err(OrElse(answer.error.message, RequestFailed))
    ensures answer.Rejected? ==> r.0 == (if IsUnauthorized(answer) then map[] else store)
    ensures answer.Resolved? ==> r.0 == store
  {
    var blobAnswer: Outcome<seq<bv8>> := if answer.Rejected? then Rejected(AsBlobError(answer.error)) else answer;
    assert IsUnauthorized(blobAnswer) == IsUnauthorized(answer);
    var (st, res) := Perform(store, blobAnswer);
    match res
    case Ok(blob) => (st, Ok((filename, blob)))
    case Err(m) => (st, Err(m))
  }

  /** `checkApiHealth()`: true exactly for a 200; failures are swallowed
      (the 401 interceptor still runs). */
  function CheckApiHealth<D>(store: Store, answer: Outcome<D>): (r: (Store, bool))
    ensures r.1 <==> answer.Resolved? && answer.status == 200
    ensures r.0 == (if IsUnauthorized(answer) then map[] else store)
  {
    var (st, o, _) := OnResponse(store, answer);
    (st, o.Resolved? && o.status == 200)
  }

  /** How the backend's error reaches the client on a JSON request: a
      rejection carrying the status and the `detail`, with axios's own
      `message`. */
  function Rejection<D>(e: Server.HttpError, message: string): (o: Outcome<D>)
    ensures o.Rejected? && o.error.response == Some(ErrorResponse(e.status, Some(e.detail)))
    ensures e.detail != "" ==> Detail(o.error) == Some(e.detail)
  {
    Rejected(AxiosError(Some(ErrorResponse(e.status, Some(e.detail))), message))
  }

  /** The backend's 404 for a missing output reaches a JSON call as its
      detail, but the blob download reports only axios's message. */
  lemma DownloadHidesMissingFileDetail(store: Store, filename: string, message: string)
    ensures var missing := Server.HttpError(404, Server.FileMissing);
      Perform<seq<bv8>>(store, Rejection(missing, message)).1 == Err(Server.FileMissing)
      && DownloadFile(store, filename, Rejection(missing, message)).1 == Err(OrElse(message, RequestFailed))
  {
    var o: Outcome<seq<bv8>> := Rejection(Server.HttpError(404, Server.FileMissing), message);
    assert Detail(o.error) == Some(Server.FileMissing);
  }

  /** The upload, download and health requests reach the backend's
      handlers (a download only for a one-segment name). */
  lemma RequestsReachHandlers(filename: string)
    ensures Server.Route(RequestOf(ProcessCall).verb, RequestOf(ProcessCall).route) == Ok(Server.ProcessEndpoint)
    ensures Server.Route(RequestOf(HealthCall).verb, RequestOf(HealthCall).route) == Ok(Server.RootEndpoint)
    ensures Server.IsSegment(filename) ==>
      Server.Route(RequestOf(DownloadCall(filename)).verb, RequestOf(DownloadCall(filename)).route)
        == Ok(Server.DownloadEndpoint(filename))
  {
    Server.DownloadRouted(filename);
  }

  /** The backend declares no history or delete route: both calls are
      answered 404 and the client throws `Not Found`, so the history the
      client asks for can never be shown. */
  lemma HistoryAndDeleteUnserved(store: Store, skip: int, limit: int, fileId: string, message: string)
    ensures Server.Route(RequestOf(HistoryCall(skip, limit)).verb, RequestOf(HistoryCall(skip, limit)).route)
      == Err(Server.HttpError(404, Server.NotFound))
    ensures Server.Route(RequestOf(DeleteCall(fileId)).verb, RequestOf(DeleteCall(fileId)).route)
      == Err(Server.HttpError(404, Server.NotFound))
    ensures Perform<seq<Models.ProcessedFile>>(store, Rejection(Server.HttpError(404, Server.NotFound), message))
      == (store, Err(Server.NotFound))
  {
    var del := "/file/" + fileId;
    assert del[1] == 'f';
    assert del != "/process" && del != "/health" && del != "/";
  }
}

=== FILE: auth_service.dfy ===
/** The client session (src/frontend/src/services/AuthService.jsx): the
    token and the user's JSON are kept under two `localStorage` keys, and
    every call goes through the axios instance of `Http`, so a 401 wipes
    the storage before the error reaches this code. */
module AuthService {
  import opened Common
  import opened Http

  /** The body of a successful sign-up or login: `access_token` and the
      JSON text of `user`. */
  datatype TokenResponse = TokenResponse(accessToken: string, user: string)

  const SignUpFailed: string := "Sign up failed"
  const LoginFailed: string := "Login failed"
  const UserInfoFailed: string := "Failed to get user info"

  /** Both session keys are present, or neither. */
  predicate SessionKeysAgree(store: Store) {
    TokenKey in store <==> UserKey in store
  }

  /** `getToken()`: `localStorage.getItem('access_token')`. */
  function GetToken(store: Store): (r: Option<string>)
    ensures r.Some? <==> TokenKey in store
    ensures r.Some? ==> r.value == store[TokenKey]
  {
    if TokenKey in store then Some(store[TokenKey]) else None
  }

  /** `getUser()`: the stored JSON, or null when absent or empty. */
  function GetUser(store: Store): (r: Option<string>)
    ensures r.Some? <==> HasTruthy(store, UserKey)
    ensures r.Some? ==> r.value == store[UserKey]
  {
    if HasTruthy(store, UserKey) then Some(store[UserKey]) else None
  }

  /** `isAuthenticated()`: `!!getToken()`. */
  predicate IsAuthenticated(store: Store) {
    HasTruthy(store, TokenKey)
  }

  /** The shared body of `signUp` and `login`: store both keys on success;
      on failure throw `detail`, or `fallback` when it is missing or
      empty. */
  function Authenticate(store: Store, answer: Outcome<TokenResponse>, fallback: string): (r: (Store, Result<TokenResponse, string>))
    ensures answer.Resolved? ==> r.1 == Ok(answer.data)
    ensures r.1.Ok? ==> GetToken(r.0) == Some(r.1.value.accessToken)
    ensures r.1.Ok? && r.1.value.user != "" ==> GetUser(r.0) == Some(r.1.value.user)
    ensures r.1.Ok? ==> forall k :: k != TokenKey && k != UserKey ==>
      (k in r.0 <==> k in store) && (k in r.0 ==> r.0[k] == store[k])
    ensures answer.Rejected? ==> r.1 == Err(Detail(answer.error).GetOr(fallback))
    ensures answer.Rejected? ==> r.0 == (if IsUnauthorized(answer) then map[] else store)
    ensures SessionKeysAgree(store) ==> SessionKeysAgree(r.0)
  {
    var (st, o, _) := OnResponse(store, answer);
    match o
    case Resolved(_, data) => (st[TokenKey := data.accessToken][UserKey := data.user], Ok(data))
    case Rejected(e) => (st, Err(Detail(e).GetOr(fallback)))
  }

  /** `signUp(userData)` */
  function SignUp(store: Store, answer: Outcome<TokenResponse>): (r: (Store, Result<TokenResponse, string>))
    ensures r.1.Ok? ==> GetToken(r.0) == Some(r.1.value.accessToken) && IsAuthenticated(r.0) == (r.1.value.accessToken != "")
    ensures r.1.Err? <==> answer.Rejected?
    ensures r.1.Err? ==> r.1.error != "" && (Detail(answer.error).None? ==> r.1.error == SignUpFailed)
    ensures r.1.Err? && !IsUnauthorized(answer) ==> r.0 == store
    ensures answer.Resolved? ==> r.1 == Ok(answer.data) && GetToken(r.0) == Some(answer.data.accessToken)
    ensures answer.Resolved? && answer.data.user != "" ==> GetUser(r.0) == Some(answer.data.user)
    ensures answer.Resolved? ==> forall k :: k != TokenKey && k != UserKey ==>
      (k in r.0 <==> k in store) && (k in r.0 ==> r.0[k] == store[k])
    ensures answer.Rejected? ==> r.0 == (if IsUnauthorized(answer) then map[] else store)
  {
    Authenticate(store, answer, SignUpFailed)
  }

  /** `login(credentials)` */
  function Login(store: Store, answer: Outcome<TokenResponse>): (r: (Store, Result<TokenResponse, string>))
    ensures r.1.Ok? ==> GetToken(r.0) == Some(r.1.value.accessToken) && IsAuthenticated(r.0) == (r.1.value.accessToken != "")
    ensures r.1.Err? <==> answer.Rejected?
    ensures r.1.Err? ==> r.1.error != "" && (Detail(answer.error).None? ==> r.1.error == LoginFailed)
    ensures r.1.Err? && !IsUnauthorized(answer) ==> r.0 == store
    ensures answer.Resolved? ==> r.1 == Ok(answer.data) && GetToken(r.0) == Some(answer.data.accessToken)
    ensures answer.Resolved? && answer.data.user != "" ==> GetUser(r.0) == Some(answer.data.user)
    ensures answer.Resolved? ==> forall k :: k != TokenKey && k != UserKey ==>
      (k in r.0 <==> k in store) && (k in r.0 ==> r.0[k] == store[k])
    ensures answer.Rejected? ==> r.0 == (if IsUnauthorized(answer) then map[] else store)
  {
    Authenticate(store, answer, LoginFailed)
  }

  /** `getCurrentUser()`: the body, or `detail` / the fixed message. */
  function GetCurrentUser(store: Store, answer: Outcome<string>): (r: (Store, Result<string, string>))
    ensures answer.Resolved? ==> r == (store, Ok(answer.data))
    ensures answer.Rejected? ==> r.1 == Err(Detail(answer.error).GetOr(UserInfoFailed))
    ensures IsUnauthorized(answer) ==> !IsAuthenticated(r.0)
    ensures answer.Rejected? ==> r.0 == (if IsUnauthorized(answer) then map[] else store)
  {
    var (st, o, _) := OnResponse(store, answer);
    match o
    case Resolved(_, data) => (st, Ok(data))
    case Rejected(e) => (st, Err(Detail(e).GetOr(UserInfoFailed)))
  }

  /** `logout()`: removes the two session keys and nothing else. */
  function Logout(store: Store): (r: Store)
    ensures TokenKey !in r && UserKey !in r
    ensures forall k :: k != TokenKey && k != UserKey ==> (k in r <==> k in store) && (k in r ==> r[k] == store[k])
  {
    store - {TokenKey, UserKey}
  }

  /** Logging out twice is logging out once, and afterwards there is no
      session and no stored user. */
  lemma LogoutIdempotent(store: Store)
    ensures Logout(Logout(store)) == Logout(store)
    ensures !IsAuthenticated(Logout(store)) && GetUser(Logout(store)).None? && GetToken(Logout(store)).None?
    ensures SessionKeysAgree(Logout(store))
  {
  }

  /** Login after logout restores the session: the new token and user are
      what the server sent. */
  lemma LoginAfterLogout(store: Store, data: TokenResponse, status: int)
    requires data.user != ""
    ensures var (st, r) := Login(Logout(store), Resolved(status, data));
      r == Ok(data) && GetToken(st) == Some(data.accessToken) && GetUser(st) == Some(data.user)
  {
  }

  /** A 401 answer to a login leaves no session at all, whatever was
      stored before, and reports the server's detail. */
  lemma UnauthorizedLoginClearsEverything(store: Store, detail: string, message: string)
    requires detail != ""
    ensures Login(store, Rejected(AxiosError(Some(ErrorResponse(401, Some(detail))), message)))
      == (map[], Err(detail))
  {
  }
}

=== FILE: boxes.dfy ===
/** The integer box step of `Process.process_recognition` (src/process.py):
    each detected polygon becomes its bounding box, detections scoring
    below 0.5 are dropped, the box grows by `EXPEND` pixels on every side
    and is clamped to the image, and only boxes with positive area are
    kept. Recognition then visits the kept boxes from last to first.

    Detector output is an input: polygons of integer points and their
    scores. Recognising the text of a crop is a parameter of the model. */
module Boxes {
  import opened Common
  import Spacing

  datatype Point = Point(x: int, y: int)
  type Polygon = seq<Point>

  /** `[[x1, y1], [x2, y2]]`: top-left and bottom-right corners. */
  datatype Box = Box(x1: int, y1: int, x2: int, y2: int)

  /** `EXPEND` */
  const Expand: int := 5
  /** Detections scoring below this are dropped. */
  const MinScore: real := 0.5

  function Min(xs: seq<int>): (m: int)
    requires |xs| > 0
    ensures forall k :: 0 <= k < |xs| ==> m <= xs[k]
    ensures m in xs
  {
    if |xs| == 1 then xs[0]
    else
      var rest := Min(xs[1..]);
      assert rest in xs;
      if xs[0] <= rest then xs[0] else rest
  }

  function Max(xs: seq<int>): (m: int)
    requires |xs| > 0
    ensures forall k :: 0 <= k < |xs| ==> xs[k] <= m
    ensures m in xs
  {
    if |xs| == 1 then xs[0]
    else
      var rest := Max(xs[1..]);
      assert rest in xs;
      if xs[0] >= rest then xs[0] else rest
  }

  function Xs(p: Polygon): (r: seq<int>)
    ensures |r| == |p| && forall k :: 0 <= k < |p| ==> r[k] == p[k].x
  {
    seq(|p|, k requires 0 <= k < |p| => p[k].x)
  }

  function Ys(p: Polygon): (r: seq<int>)
    ensures |r| == |p| && forall k :: 0 <= k < |p| ==> r[k] == p[k].y
  {
    seq(|p|, k requires 0 <= k < |p| => p[k].y)
  }

  /** The smallest box holding every point of the polygon, with corners
      that are points' coordinates. */
  function BoundingBox(p: Polygon): (b: Box)
    requires |p| > 0
    ensures forall k :: 0 <= k < |p| ==> b.x1 <= p[k].x <= b.x2 && b.y1 <= p[k].y <= b.y2
    ensures b.x1 in Xs(p) && b.x2 in Xs(p) && b.y1 in Ys(p) && b.y2 in Ys(p)
  {
    Box(Min(Xs(p)), Min(Ys(p)), Max(Xs(p)), Max(Ys(p)))
  }

  /** The loop at src/process.py:131-136. `min` of an empty polygon raises,
      which aborts the whole page, so one empty polygon gives `None`. */
  function BoundingBoxes(polys: seq<Polygon>): (r: Option<seq<Box>>)
    ensures r.None? <==> exists j :: 0 <= j < |polys| && |polys[j]| == 0
    ensures r.Some? ==> |r.value| == |polys|
    ensures r.Some? ==> forall j :: 0 <= j < |polys| ==> |polys[j]| > 0 && r.value[j] == BoundingBox(polys[j])
  {
    if exists j :: 0 <= j < |polys| && |polys[j]| == 0 then None
    else Some(seq(|polys|, j requires 0 <= j < |polys| => BoundingBox(polys[j])))
  }

  /** Grow by `Expand` on every side, then clamp to `[0, w] x [0, h]`. */
  function ExpandClamp(b: Box, w: nat, h: nat): (r: Box)
    ensures 0 <= r.x1 && r.x2 <= w && 0 <= r.y1 && r.y2 <= h
    ensures r.x1 == 0 || r.x1 == b.x1 - Expand
    ensures r.y1 == 0 || r.y1 == b.y1 - Expand
    ensures r.x2 == w || r.x2 == b.x2 + Expand
    ensures r.y2 == h || r.y2 == b.y2 + Expand
    ensures r.x1 <= b.x1 || b.x1 < 0
    ensures b.x2 <= r.x2 || w < b.x2
  {
    Box(MaxInt(0, b.x1 - Expand), MaxInt(0, b.y1 - Expand), MinInt(w, b.x2 + Expand), MinInt(h, b.y2 + Expand))
  }

  function MaxInt(a: int, b: int): (m: int)
    ensures m >= a && m >= b && (m == a || m == b)
  {
    if a >= b then a else b
  }

  function MinInt(a: int, b: int): (m: int)
    ensures m <= a && m <= b && (m == a || m == b)
  {
    if a <= b then a else b
  }

  predicate HasArea(b: Box) { b.x2 > b.x1 && b.y2 > b.y1 }

  predicate InImage(b: Box, w: nat, h: nat) { 0 <= b.x1 && b.x2 <= w && 0 <= b.y1 && b.y2 <= h }

  /** Whether detection `j` survives the filter at src/process.py:141-149. */
  predicate Kept(b: Box, score: real, w: nat, h: nat) {
    score >= MinScore && HasArea(ExpandClamp(b, w, h))
  }

  /** After the first `i` detections: the three lists hold, in order,
      exactly the kept ones among them; `origin` says which. */
  ghost predicate FilteredUpTo(boxes: seq<Box>, scores: seq<real>, polys: seq<Polygon>, w: nat, h: nat, i: nat,
                               vb: seq<Box>, vs: seq<real>, vp: seq<Polygon>, origin: seq<nat>)
    requires i <= |boxes| && i <= |scores| && i <= |polys|
  {
    && |vb| == |vs| == |vp| == |origin|
    && (forall k :: 0 <= k < |origin| ==> origin[k] < i)
    && (forall k, l :: 0 <= k < l < |origin| ==> origin[k] < origin[l])
    && (forall k :: 0 <= k < |origin| ==>
          vb[k] == ExpandClamp(boxes[origin[k]], w, h) && vs[k] == scores[origin[k]] && vp[k] == polys[origin[k]])
    && (forall k :: 0 <= k < |origin| ==> Kept(boxes[origin[k]], scores[origin[k]], w, h))
    && (forall j :: 0 <= j < i && Kept(boxes[j], scores[j], w, h) ==> j in origin)
  }

  lemma FilterSkip(boxes: seq<Box>, scores: seq<real>, polys: seq<Polygon>, w: nat, h: nat, i: nat,
                   vb: seq<Box>, vs: seq<real>, vp: seq<Polygon>, origin: seq<nat>)
    requires i < |boxes| && i < |scores| && i < |polys|
    requires FilteredUpTo(boxes, scores, polys, w, h, i, vb, vs, vp, origin)
    requires !Kept(boxes[i], scores[i], w, h)
    ensures FilteredUpTo(boxes, scores, polys, w, h, i + 1, vb, vs, vp, origin)
  {
  }

  lemma FilterKeep(boxes: seq<Box>, scores: seq<real>, polys: seq<Polygon>, w: nat, h: nat, i: nat,
                   vb: seq<Box>, vs: seq<real>, vp: seq<Polygon>, origin: seq<nat>)
    requires i < |boxes| && i < |scores| && i < |polys|
    requires FilteredUpTo(boxes, scores, polys, w, h, i, vb, vs, vp, origin)
    requires Kept(boxes[i], scores[i], w, h)
    ensures FilteredUpTo(boxes, scores, polys, w, h, i + 1,
      vb + [ExpandClamp(boxes[i], w, h)], vs + [scores[i]], vp + [polys[i]], origin + [i])
  {
    var origin' := origin + [i];
    assert forall j :: j in origin ==> j in origin';
  }

  /** The filter loop: walks `zip(boxes, dt_scores, dt_polys)` (as long as
      the shortest of the three) and appends each surviving detection to
      three parallel lists. `origin` records which detection each entry
      came from. */
  method FilterDetections(boxes: seq<Box>, scores: seq<real>, polys: seq<Polygon>, w: nat, h: nat)
    returns (vb: seq<Box>, vs: seq<real>, vp: seq<Polygon>, ghost origin: seq<nat>)
    ensures |vb| == |vs| == |vp| == |origin|
    ensures forall k :: 0 <= k < |origin| ==>
      origin[k] < |boxes| && origin[k] < |scores| && origin[k] < |polys|
    ensures forall k, l :: 0 <= k < l < |origin| ==> origin[k] < origin[l]
    ensures forall k :: 0 <= k < |origin| ==>
      vb[k] == ExpandClamp(boxes[origin[k]], w, h) && vs[k] == scores[origin[k]] && vp[k] == polys[origin[k]]
    ensures forall k :: 0 <= k < |origin| ==> Kept(boxes[origin[k]], scores[origin[k]], w, h)
    ensures forall j :: 0 <= j < |boxes| && j < |scores| && j < |polys| && Kept(boxes[j], scores[j], w, h) ==> j in origin
    ensures forall k :: 0 <= k < |vb| ==> InImage(vb[k], w, h) && HasArea(vb[k]) && vs[k] >= MinScore
  {
    var n := MinInt(|boxes|, MinInt(|scores|, |polys|));
    vb, vs, vp, origin := [], [], [], [];
    var i := 0;
    while i < n
      invariant 0 <= i <= n
      invariant FilteredUpTo(boxes, scores, polys, w, h, i, vb, vs, vp, origin)
    {
      var b := ExpandClamp(boxes[i], w, h);
      if scores[i] >= MinScore && HasArea(b) {
        FilterKeep(boxes, scores, polys, w, h, i, vb, vs, vp, origin);
        vb, vs, vp, origin := vb + [b], vs + [scores[i]], vp + [polys[i]], origin + [i];
      } else {
        FilterSkip(boxes, scores, polys, w, h, i, vb, vs, vp, origin);
      }
      i := i + 1;
    }
  }

  /** `len(range(len)[start:stop])`: Python's slice length, with negative
      indices counted from the end and both ends clipped to `[0, len]`. */
  function SliceLength(start: int, stop: int, len: nat): (n: nat)
    ensures 0 <= start <= stop <= len ==> n == stop - start
    ensures n <= len
  {
    var a := if start < 0 then MaxInt(0, start + len) else MinInt(start, len);
    var b := if stop < 0 then MaxInt(0, stop + len) else MinInt(stop, len);
    if b > a then b - a else 0
  }

  /** The two guards in the recognition loop (src/process.py:158, 162): a
      box is skipped when it is empty or its crop `img[y1:y2, x1:x2]` has
      no rows or no columns. */
  predicate PassesCropGuards(b: Box, w: nat, h: nat) {
    !(b.x1 >= b.x2 || b.y1 >= b.y2) && SliceLength(b.y1, b.y2, h) != 0 && SliceLength(b.x1, b.x2, w) != 0
  }

  /** Every box the filter keeps passes both guards, so those guards never
      skip anything. */
  lemma KeptBoxPassesGuards(b: Box, w: nat, h: nat)
    requires InImage(b, w, h) && HasArea(b)
    ensures PassesCropGuards(b, w, h)
  {
  }

  /** A recognised text placed over the polygon it was read from. */
  datatype Placed = Placed(poly: Polygon, text: string)

  /** Recognition of one crop followed by the text fix; `None` when
      recognition raises. */
  function Read(b: Box, recognize: Box -> Option<string>, fix: string -> string): (r: Option<string>)
    ensures r.Some? <==> recognize(b).Some?
    ensures r.Some? ==> r.value == fix(recognize(b).value)
  {
    match recognize(b)
    case Some(raw) => Some(fix(raw))
    case None => None
  }

  /** The recognition loop at src/process.py:154-172: visits the kept
      boxes from the last to the first; a box that fails a guard or whose
      recognition raises is skipped. The text fix is a parameter here;
      `ProcessPage` passes `fix_text_spacing`. */
  function RecognitionPass(vb: seq<Box>, vp: seq<Polygon>, w: nat, h: nat, recognize: Box -> Option<string>,
                           fix: string -> string): (r: seq<Placed>)
    requires |vb| == |vp|
    ensures |r| <= |vb|
    decreases |vb|
  {
    if |vb| == 0 then []
    else
      var i := |vb| - 1;
      var rest := RecognitionPass(vb[..i], vp[..i], w, h, recognize, fix);
      var text := Read(vb[i], recognize, fix);
      if PassesCropGuards(vb[i], w, h) && text.Some? then [Placed(vp[i], text.value)] + rest else rest
  }

  /** Every box lies in the image, has positive area and is recognised. */
  predicate AllReadable(vb: seq<Box>, w: nat, h: nat, recognize: Box -> Option<string>) {
    forall k :: 0 <= k < |vb| ==> InImage(vb[k], w, h) && HasArea(vb[k]) && recognize(vb[k]).Some?
  }

  lemma AllReadablePrefix(vb: seq<Box>, n: nat, w: nat, h: nat, recognize: Box -> Option<string>)
    requires AllReadable(vb, w, h, recognize) && n <= |vb|
    ensures AllReadable(vb[..n], w, h, recognize)
  {
    assert forall k :: 0 <= k < n ==> vb[..n][k] == vb[k];
  }

  /** One step of the pass: a readable last box is placed before
      everything read from the boxes ahead of it. */
  lemma RecognitionPassLast(vb: seq<Box>, vp: seq<Polygon>, w: nat, h: nat, recognize: Box -> Option<string>, fix: string -> string)
    requires |vb| == |vp| > 0
    requires AllReadable(vb, w, h, recognize)
    ensures RecognitionPass(vb, vp, w, h, recognize, fix) ==
      [Placed(vp[|vb| - 1], Read(vb[|vb| - 1], recognize, fix).value)]
        + RecognitionPass(vb[..|vb| - 1], vp[..|vb| - 1], w, h, recognize, fix)
  {
    KeptBoxPassesGuards(vb[|vb| - 1], w, h);
  }

  /** When every kept box is recognised, none is skipped. */
  lemma {:induction false} RecognitionKeepsAll(vb: seq<Box>, vp: seq<Polygon>, w: nat, h: nat, recognize: Box -> Option<string>, fix: string -> string)
    requires |vb| == |vp|
    requires AllReadable(vb, w, h, recognize)
    ensures |RecognitionPass(vb, vp, w, h, recognize, fix)| == |vb|
    decreases |vb|
  {
    if |vb| > 0 {
      var i := |vb| - 1;
      AllReadablePrefix(vb, i, w, h, recognize);
      RecognitionKeepsAll(vb[..i], vp[..i], w, h, recognize, fix);
      RecognitionPassLast(vb, vp, w, h, recognize, fix);
    }
  }

  /** Entry `k` of the pass is read from box `|vb| - 1 - k`. */
  lemma {:induction false} RecognitionEntry(vb: seq<Box>, vp: seq<Polygon>, w: nat, h: nat, recognize: Box -> Option<string>, fix: string -> string, k: nat)
    requires |vb| == |vp| && k < |vb|
    requires AllReadable(vb, w, h, recognize)
    ensures |RecognitionPass(vb, vp, w, h, recognize, fix)| == |vb|
    ensures RecognitionPass(vb, vp, w, h, recognize, fix)[k] == Placed(vp[|vb| - 1 - k], Read(vb[|vb| - 1 - k], recognize, fix).value)
    decreases |vb|
  {
    var i := |vb| - 1;
    RecognitionKeepsAll(vb, vp, w, h, recognize, fix);
    RecognitionPassLast(vb, vp, w, h, recognize, fix);
    if k > 0 {
      AllReadablePrefix(vb, i, w, h, recognize);
      RecognitionEntry(vb[..i], vp[..i], w, h, recognize, fix, k - 1);
      assert vp[..i][i - 1 - (k - 1)] == vp[i - k];
      assert vb[..i][i - 1 - (k - 1)] == vb[i - k];
    }
  }

  /** When every kept box is recognised, the texts come out one per box,
      in reverse detection order. */
  lemma RecognitionReversesOrder(vb: seq<Box>, vp: seq<Polygon>, w: nat, h: nat, recognize: Box -> Option<string>, fix: string -> string)
    requires |vb| == |vp|
    requires AllReadable(vb, w, h, recognize)
    ensures |RecognitionPass(vb, vp, w, h, recognize, fix)| == |vb|
    ensures forall k :: 0 <= k < |vb| ==>
      RecognitionPass(vb, vp, w, h, recognize, fix)[k] == Placed(vp[|vb| - 1 - k], Read(vb[|vb| - 1 - k], recognize, fix).value)
  {
    RecognitionKeepsAll(vb, vp, w, h, recognize, fix);
    forall k | 0 <= k < |vb|
      ensures RecognitionPass(vb, vp, w, h, recognize, fix)[k] == Placed(vp[|vb| - 1 - k], Read(vb[|vb| - 1 - k], recognize, fix).value)
    {
      RecognitionEntry(vb, vp, w, h, recognize, fix, k);
    }
  }

  /** A strictly increasing sequence of indices below `n` has at most `n` entries. */
  lemma {:induction false} IncreasingBelow(o: seq<nat>, n: nat)
    requires forall k :: 0 <= k < |o| ==> o[k] < n
    requires forall k, l :: 0 <= k < l < |o| ==> o[k] < o[l]
    ensures |o| <= n
    decreases |o|
  {
    if |o| > 0 {
      var last := o[|o| - 1];
      IncreasingBelow(o[..|o| - 1], last);
    }
  }

  /** One page of `process_recognition` (src/process.py:126-172): bounding
      boxes, the filter, then the reverse recognition pass with
      `fix_text_spacing`. An empty polygon aborts the page. */
  method ProcessPage(polys: seq<Polygon>, scores: seq<real>, w: nat, h: nat, recognize: Box -> Option<string>)
    returns (r: Option<seq<Placed>>)
    ensures r.None? <==> exists j :: 0 <= j < |polys| && |polys[j]| == 0
    ensures r.Some? ==> |r.value| <= |polys| && |r.value| <= |scores|
  {
    var boxes := BoundingBoxes(polys);
    if boxes.None? {
      r := None;
    } else {
      var vb, vs, vp;
      ghost var origin;
      vb, vs, vp, origin := FilterDetections(boxes.value, scores, polys, w, h);
      IncreasingBelow(origin, |scores|);
      IncreasingBelow(origin, |polys|);
      r := Some(RecognitionPass(vb, vp, w, h, recognize, Spacing.FixTextSpacing));
    }
  }
}

=== FILE: collection.dfy ===
/** An in-memory stand-in for a MongoDB collection: documents in natural
    (insertion) order, `find_one` as the first match, `update_one` and
    `delete_one` on the first match, and the cursor's `skip`/`limit`. */
module Collection {
  import opened Common

  /** Position of the first document satisfying `p`. */
  function FindFirst<T>(s: seq<T>, p: T -> bool): (r: Option<nat>)
    ensures r.None? <==> forall i :: 0 <= i < |s| ==> !p(s[i])
    ensures r.Some? ==> r.value < |s| && p(s[r.value])
    ensures r.Some? ==> forall i :: 0 <= i < r.value ==> !p(s[i])
  {
    if |s| == 0 then None
    else if p(s[0]) then Some(0)
    else
      match FindFirst(s[1..], p)
      case None => None
      case Some(k) => Some(k + 1)
  }

  /** `find_one`: the first matching document, if any. */
  function FindOne<T(==)>(s: seq<T>, p: T -> bool): (r: Option<T>)
    ensures r.None? <==> forall i :: 0 <= i < |s| ==> !p(s[i])
    ensures r.Some? ==> r.value in s && p(r.value)
  {
    match FindFirst(s, p)
    case None => None
    case Some(k) => Some(s[k])
  }

  /** The documents satisfying `keep`, in order. */
  function Filter<T(==)>(s: seq<T>, keep: T -> bool): (r: seq<T>)
    ensures |r| <= |s|
    ensures forall i :: 0 <= i < |r| ==> r[i] in s && keep(r[i])
    ensures forall i :: 0 <= i < |s| && keep(s[i]) ==> s[i] in r
  {
    if |s| == 0 then []
    else
      var rest := Filter(s[1..], keep);
      assert forall i :: 1 <= i < |s| ==> s[i] == s[1..][i - 1];
      if keep(s[0]) then [s[0]] + rest else rest
  }

  /** `Filter` keeps every document satisfying `keep` as often as it
      occurs, and no other. */
  lemma {:induction false} FilterCounts<T(!new)>(s: seq<T>, keep: T -> bool)
    ensures forall x :: multiset(Filter(s, keep))[x] == if keep(x) then multiset(s)[x] else 0
  {
    if |s| > 0 {
      FilterCounts(s[1..], keep);
      assert s == [s[0]] + s[1..];
    }
  }

  /** The query `{key: k}`. */
  function KeyIs<T, K(==)>(key: T -> K, k: K): T -> bool {
    x => key(x) == k
  }

  /** No two documents share a key (a unique index on it). */
  predicate UniqueBy<T, K(==)>(s: seq<T>, key: T -> K) {
    forall i, j :: 0 <= i < j < |s| ==> key(s[i]) != key(s[j])
  }

  /** Some document has key `k`. */
  predicate HasKey<T, K(==)>(s: seq<T>, key: T -> K, k: K) {
    exists i :: 0 <= i < |s| && key(s[i]) == k
  }

  /** A document whose key is unique is the one `find_one` returns. */
  lemma FindOneUnique<T, K>(s: seq<T>, key: T -> K, i: nat, k: K)
    requires UniqueBy(s, key) && i < |s| && key(s[i]) == k
    ensures FindOne(s, KeyIs(key, k)) == Some(s[i])
  {
  }

  /** `delete_one`: removes the first match; reports whether there was one. */
  function DeleteOne<T(==)>(s: seq<T>, p: T -> bool): (r: (seq<T>, bool))
    ensures r.1 <==> exists i :: 0 <= i < |s| && p(s[i])
    ensures !r.1 ==> r.0 == s
    ensures r.1 ==> |r.0| == |s| - 1
    ensures forall i :: 0 <= i < |r.0| ==> r.0[i] in s
    ensures forall i :: 0 <= i < |s| && !p(s[i]) ==> s[i] in r.0
  {
    match FindFirst(s, p)
    case None => (s, false)
    case Some(k) =>
      var r := s[..k] + s[k + 1..];
      assert forall j :: 0 <= j < |s| && j != k ==> s[j] == r[if j < k then j else j - 1];
      (r, true)
  }

  /** After deleting the document with a unique key, no document has that
      key and the rest are kept. */
  lemma DeleteUniqueKey<T, K>(s: seq<T>, key: T -> K, k: K)
    requires UniqueBy(s, key)
    ensures var r := DeleteOne(s, KeyIs(key, k)).0;
      !HasKey(r, key, k) && UniqueBy(r, key)
      && forall j :: 0 <= j < |s| && key(s[j]) != k ==> s[j] in r
  {
    var p := KeyIs(key, k);
    match FindFirst(s, p)
    case None =>
    case Some(i) =>
      var r := s[..i] + s[i + 1..];
      assert forall j :: 0 <= j < |r| ==> r[j] == s[if j < i then j else j + 1];
  }

  /** `delete_one` removes the first match and nothing else. */
  lemma DeleteOneAt<T>(s: seq<T>, p: T -> bool, i: nat)
    requires i < |s| && p(s[i]) && forall j :: 0 <= j < i ==> !p(s[j])
    ensures DeleteOne(s, p).0 == s[..i] + s[i + 1..]
  {
    var f := FindFirst(s, p);
    assert f.value == i;
  }

  /** Deleting a document keeps a key unique. */
  lemma DeleteKeepsUnique<T, K>(s: seq<T>, p: T -> bool, key: T -> K)
    requires UniqueBy(s, key)
    ensures UniqueBy(DeleteOne(s, p).0, key)
  {
    match FindFirst(s, p)
    case None =>
    case Some(i) =>
      var r := s[..i] + s[i + 1..];
      assert forall j :: 0 <= j < |r| ==> r[j] == s[if j < i then j else j + 1];
  }

  /** `update_one`: replaces the first match `x` by `f(x)`; reports
      whether the document changed (`modified_count > 0`). */
  function UpdateOne<T(==)>(s: seq<T>, p: T -> bool, f: T -> T): (r: (seq<T>, bool))
    ensures |r.0| == |s|
    ensures (forall i :: 0 <= i < |s| ==> !p(s[i])) ==> r == (s, false)
    ensures forall i :: 0 <= i < |s| ==> r.0[i] == s[i] || (p(s[i]) && r.0[i] == f(s[i]))
    ensures r.1 ==> exists i :: 0 <= i < |s| && p(s[i]) && r.0[i] == f(s[i]) != s[i]
  {
    match FindFirst(s, p)
    case None => (s, false)
    case Some(k) => (s[k := f(s[k])], f(s[k]) != s[k])
  }

  /** Under a unique key, `update_one` by key changes exactly the document
      with that key, and reports a change iff `f` changes it. */
  lemma UpdateOneByKey<T, K>(s: seq<T>, key: T -> K, k: K, f: T -> T)
    requires UniqueBy(s, key)
    ensures var r := UpdateOne(s, KeyIs(key, k), f);
      (forall i :: 0 <= i < |s| ==> r.0[i] == if key(s[i]) == k then f(s[i]) else s[i])
      && (r.1 <==> exists i :: 0 <= i < |s| && key(s[i]) == k && f(s[i]) != s[i])
      && ((forall x :: key(f(x)) == key(x)) ==> UniqueBy(r.0, key))
  {
    var p := KeyIs(key, k);
    match FindFirst(s, p)
    case None =>
    case Some(m) =>
      assert forall i :: 0 <= i < |s| && key(s[i]) == k ==> i == m;
  }

  /** The documents after the first `skip` (a cursor's `.skip`). */
  function Drop<T>(s: seq<T>, skip: nat): (r: seq<T>)
    ensures |r| == if skip >= |s| then 0 else |s| - skip
    ensures forall i :: 0 <= i < |r| ==> r[i] == s[skip + i]
  {
    if skip >= |s| then [] else s[skip..]
  }

  /** `abs(n)`: a cursor limit's sign only selects a single batch. */
  function Abs(n: int): (r: nat)
    ensures r == n || r == -n
  {
    if n < 0 then -n else n
  }

  /** At most `abs(limit)` documents, and all of them when `limit` is 0
      (a cursor's `.limit`). */
  function Limit<T>(s: seq<T>, limit: int): (r: seq<T>)
    ensures |r| == if limit == 0 || Abs(limit) >= |s| then |s| else Abs(limit)
    ensures r == s[..|r|]
  {
    if limit == 0 || Abs(limit) >= |s| then s else s[..Abs(limit)]
  }

  /** Consecutive pages of a cursor fit together: the page of `n` after
      `skip` followed by the page of `m` after `skip + n` is the page of
      `n + m` after `skip`. */
  lemma PagesConcatenate<T>(s: seq<T>, skip: nat, n: nat, m: nat)
    requires n > 0 && m > 0
    ensures Limit(Drop(s, skip), n) + Limit(Drop(s, skip + n), m) == Limit(Drop(s, skip), n + m)
  {
    var a := Limit(Drop(s, skip), n);
    var b := Limit(Drop(s, skip + n), m);
    var c := Limit(Drop(s, skip), n + m);
    if skip + n < |s| {
      assert |a| == n;
      assert forall i :: 0 <= i < |c| ==> (a + b)[i] == c[i] by {
        forall i | 0 <= i < |c|
          ensures (a + b)[i] == c[i]
        {
          if i >= n {
            assert b[i - n] == Drop(s, skip + n)[i - n] == s[skip + i];
          }
        }
      }
    }
  }
}

=== FILE: common.dfy ===
/** Shared vocabulary of the model: optional values and results, the ASCII
    character classes the Python regular expressions and the JavaScript
    checks use, case mapping, suffix tests, and the whitespace filter used
    to state that a text rewrite only moves whitespace. */
module Common {

  /** A value that may be absent (`None` in Python, `null`/`undefined` in JavaScript). */
  datatype Option<+T> = None | Some(value: T) {
    function GetOr(default: T): T {
      match this
      case Some(v) => v
      case None => default
    }
  }

  /** The outcome of an operation that can fail with an error value. */
  datatype Result<+R, +E> = Ok(value: R) | Err(error: E)

  /** How a JavaScript call ended: it returned a value or threw an error
      with a message. */
  datatype Call<+T> = Returns(value: T) | Throws(message: string)

  predicate IsUpper(c: char) { 'A' <= c <= 'Z' }
  predicate IsLower(c: char) { 'a' <= c <= 'z' }
  /** `[a-zA-Z]` */
  predicate IsLetter(c: char) { IsUpper(c) || IsLower(c) }
  /** `[0-9]`; the model reads `\d` as ASCII digits only. */
  predicate IsDigit(c: char) { '0' <= c <= '9' }
  /** `[a-zA-Z0-9]` */
  predicate IsAlnum(c: char) { IsLetter(c) || IsDigit(c) }

  /** Whitespace as Python's `\s` and `str.strip()` see it, restricted to
      the ASCII controls and the two Latin-1 spaces. */
  predicate IsSpace(c: char) {
    c == ' ' || '\U{9}' <= c <= '\U{D}' || '\U{1C}' <= c <= '\U{1F}' || c == '\U{85}' || c == '\U{A0}'
  }

  /** JavaScript truthiness of a string: only the empty string is falsy. */
  predicate Truthy(s: string) { s != "" }

  /** `a || b` on strings. */
  function OrElse(a: string, b: string): (r: string)
    ensures Truthy(a) ==> r == a
    ensures !Truthy(a) ==> r == b
  {
    if a != "" then a else b
  }

  /** `a?.b || fallback` where the optional string is absent or falsy. */
  function OptOrElse(a: Option<string>, fallback: string): (r: string)
    ensures a.Some? && Truthy(a.value) ==> r == a.value
    ensures (a.None? || !Truthy(a.value)) ==> r == fallback
  {
    if a.Some? && a.value != "" then a.value else fallback
  }

  function UpperChar(c: char): (r: char)
    ensures IsLower(c) ==> IsUpper(r) && r as int == c as int - 32
    ensures !IsLower(c) ==> r == c
  {
    if IsLower(c) then (c as int - 32) as char else c
  }

  function LowerChar(c: char): (r: char)
    ensures IsUpper(c) ==> IsLower(r) && r as int == c as int + 32
    ensures !IsUpper(c) ==> r == c
  {
    if IsUpper(c) then (c as int + 32) as char else c
  }

  /** `str.upper()` on the ASCII letters; every other character is kept. */
  function Upper(s: string): (r: string)
    ensures |r| == |s|
    ensures forall i :: 0 <= i < |s| ==> r[i] == UpperChar(s[i])
  {
    seq(|s|, i requires 0 <= i < |s| => UpperChar(s[i]))
  }

  /** `str.lower()` / `String.prototype.toLowerCase` on the ASCII letters. */
  function Lower(s: string): (r: string)
    ensures |r| == |s|
    ensures forall i :: 0 <= i < |s| ==> r[i] == LowerChar(s[i])
  {
    seq(|s|, i requires 0 <= i < |s| => LowerChar(s[i]))
  }

  lemma LowerAppend(a: string, b: string)
    ensures Lower(a + b) == Lower(a) + Lower(b)
  {
    assert forall i :: 0 <= i < |a + b| ==> Lower(a + b)[i] == (Lower(a) + Lower(b))[i];
  }

  /** A text without upper-case ASCII letters is its own lower case. */
  lemma LowerOfLowerText(s: string)
    requires forall i :: 0 <= i < |s| ==> !IsUpper(s[i])
    ensures Lower(s) == s
  {
  }

  predicate StartsWith(s: string, prefix: string) {
    |prefix| <= |s| && s[..|prefix|] == prefix
  }

  predicate EndsWith(s: string, suffix: string) {
    |suffix| <= |s| && s[|s| - |suffix|..] == suffix
  }

  lemma EndsWithAppend(a: string, b: string, suffix: string)
    requires |suffix| <= |b|
    ensures EndsWith(a + b, suffix) <==> EndsWith(b, suffix)
  {
    assert (a + b)[|a + b| - |suffix|..] == b[|b| - |suffix|..];
  }

  lemma EndsWithSelfAppend(a: string, suffix: string)
    ensures EndsWith(a + suffix, suffix)
  {
    assert (a + suffix)[|a + suffix| - |suffix|..] == suffix;
  }

  lemma StartsWithAppend(prefix: string, rest: string)
    ensures StartsWith(prefix + rest, prefix)
  {
    assert (prefix + rest)[..|prefix|] == prefix;
  }

  /** The text after the last `sep` (the whole text when there is none):
      JavaScript's `s.split(sep).pop()` and Python's `os.path.basename` for `/`. */
  function LastSegment(s: string, sep: char): (r: string)
    ensures sep !in r
    ensures |r| <= |s| && r == s[|s| - |r|..]
    ensures |r| < |s| ==> s[|s| - |r| - 1] == sep
  {
    if |s| == 0 then s
    else if s[|s| - 1] == sep then []
    else LastSegment(s[..|s| - 1], sep) + [s[|s| - 1]]
  }

  /** The segment after a separator is the part that follows it, whatever precedes. */
  lemma LastSegmentAfterSep(prefix: string, sep: char, tail: string)
    requires sep !in tail
    ensures LastSegment(prefix + [sep] + tail, sep) == tail
  {
    var s := prefix + [sep] + tail;
    var n := |s| - |tail|;
    assert s[n..] == tail && s[n - 1] == sep;
    assert forall k :: n <= k < |s| ==> s[k] == tail[k - n];
  }

  /** The characters of `s` that are not whitespace, in order. */
  function NonSpace(s: string): (r: string)
    ensures |r| <= |s|
  {
    if |s| == 0 then []
    else if IsSpace(s[0]) then NonSpace(s[1..])
    else [s[0]] + NonSpace(s[1..])
  }

  lemma {:induction false} NonSpaceAppend(a: string, b: string)
    ensures NonSpace(a + b) == NonSpace(a) + NonSpace(b)
  {
    if |a| == 0 {
      assert a + b == b;
    } else {
      assert (a + b)[1..] == a[1..] + b;
      NonSpaceAppend(a[1..], b);
    }
  }

  lemma NonSpaceOfSpaces(s: string)
    requires forall i :: 0 <= i < |s| ==> IsSpace(s[i])
    ensures NonSpace(s) == []
  {
    if |s| > 0 {
      NonSpaceOfSpaces(s[1..]);
    }
  }

  /** Inserting a space anywhere leaves the non-whitespace text as it was. */
  lemma NonSpaceInsertSpace(a: string, b: string)
    ensures NonSpace(a + " " + b) == NonSpace(a + b)
  {
    NonSpaceAppend(a + " ", b);
    NonSpaceAppend(a, " ");
    NonSpaceAppend(a, b);
    assert NonSpace(" ") == [];
  }

  /** Length of the longest prefix of `s` made of characters in `cls`. */
  function Span(s: string, cls: set<char>): (n: nat)
    ensures n <= |s|
    ensures forall i :: 0 <= i < n ==> s[i] in cls
    ensures n < |s| ==> s[n] !in cls
  {
    if |s| == 0 || s[0] !in cls then 0 else 1 + Span(s[1..], cls)
  }

  /** The longest prefix over `cls` is exactly `p` when `p` is over `cls`
      and what follows does not start with a character of `cls`. */
  lemma SpanOfSplit(p: string, q: string, cls: set<char>)
    requires forall i :: 0 <= i < |p| ==> p[i] in cls
    requires |q| == 0 || q[0] !in cls
    ensures Span(p + q, cls) == |p|
  {
    assert forall i :: 0 <= i < |p| ==> (p + q)[i] == p[i];
    assert |q| > 0 ==> (p + q)[|p|] == q[0];
  }
}

=== FILE: fetch_api.dfy ===
/** The fetch-based API client the upload page uses
    (src/frontend/src/services/api.jsx): what each call returns or throws
    for each way the request can end. The simulated progress timer is not
    modelled; the final `onProgress(100)` is. */
module FetchApi {
  import opened Common
  import Server
  import Pipeline
  import Api
  import Http
  import Models

  const ProcessFailed: string := "Failed to process file"
  const NetworkFailed: string := "Network error occurred"
  const DownloadRejected: string := "Failed to download file"
  const DownloadFailed: string := "Download failed"

  /** Reading a body: the decoded value, or the error reading it raised. */
  datatype Json<D> = Json(value: D) | Malformed(message: string)

  /** An error body: FastAPI's `{detail: ...}` (absent when the body has no
      such field). */
  datatype ErrorBody = ErrorBody(detail: Option<string>)

  /** How a `fetch` ends: no response at all, a response with `ok` false,
      or a 2xx response. */
  datatype Answer<D> =
    | NetworkError(message: string)
    | Failure(status: int, errorBody: Json<ErrorBody>)
    | Success(status: int, body: Json<D>)

  /** `processFile(file, onProgress)`: the parsed body, or the message
      thrown; and the progress values reported before it returns
      (`hasProgress` is whether a callback was passed). */
  function ProcessFile<D>(answer: Answer<D>, hasProgress: bool): (r: (Result<D, string>, seq<int>))
    ensures r.0.Ok? <==> answer.Success? && answer.body.Json?
    ensures r.0.Ok? ==> r.0.value == answer.body.value
    ensures r.0.Err? ==> r.0.error != ""
    ensures answer.NetworkError? ==> r.0 == Err(OrElse(answer.message, NetworkFailed))
    ensures answer.Failure? && answer.errorBody.Json? ==> r.0 == Err(OptOrElse(answer.errorBody.value.detail, ProcessFailed))
    ensures answer.Failure? && answer.errorBody.Malformed? ==> r.0 == Err(OrElse(answer.errorBody.message, NetworkFailed))
    ensures answer.Success? && answer.body.Malformed? ==> r.0 == Err(OrElse(answer.body.message, NetworkFailed))
    ensures r.1 == (if r.0.Ok? && hasProgress then [100] else [])
  {
    match answer
    case NetworkError(m) => (Err(OrElse(m, NetworkFailed)), [])
    case Failure(_, Json(ErrorBody(detail))) => (Err(OptOrElse(detail, ProcessFailed)), [])
    case Failure(_, Malformed(m)) => (Err(OrElse(m, NetworkFailed)), [])
    case Success(_, Malformed(m)) => (Err(OrElse(m, NetworkFailed)), [])
    case Success(_, Json(v)) => (Ok(v), if hasProgress then [100] else [])
  }

  /** `downloadFile(filename)`: the body saved under the requested name,
      or the message thrown. */
  function DownloadFile(filename: string, answer: Answer<seq<bv8>>): (r: Result<(string, seq<bv8>), string>)
    ensures r.Ok? <==> answer.Success? && answer.body.Json?
    ensures r.Ok? ==> r.value == (filename, answer.body.value)
    ensures answer.Failure? ==> r == Err(DownloadRejected)
    ensures answer.NetworkError? ==> r == Err(OrElse(answer.message, DownloadFailed))
    ensures answer.Success? && answer.body.Malformed? ==> r == Err(OrElse(answer.body.message, DownloadFailed))
    ensures r.Err? ==> r.error != ""
  {
    match answer
    case NetworkError(m) => Err(OrElse(m, DownloadFailed))
    case Failure(_, _) => Err(DownloadRejected)
    case Success(_, Malformed(m)) => Err(OrElse(m, DownloadFailed))
    case Success(_, Json(blob)) => Ok((filename, blob))
  }

  /** `getFileHistory()`: a placeholder that always resolves to no files. */
  function GetFileHistory(): (r: seq<Models.ProcessedFile>)
    ensures |r| == 0
  {
    []
  }

  /** `checkApiHealth()`: `response.ok`, false when the request failed. */
  predicate CheckApiHealth<D>(answer: Answer<D>) {
    answer.Success?
  }

  /** The two clients' health checks disagree on a `204`: fetch counts
      every 2xx, axios only a `200`; on a `200` and on an error they
      agree. */
  lemma HealthChecksCompared(store: Http.Store, e: Http.AxiosError, m: string)
    ensures CheckApiHealth(Success(204, Json(()))) && !Api.CheckApiHealth(store, Http.Resolved(204, ())).1
    ensures CheckApiHealth(Success(200, Json(()))) && Api.CheckApiHealth(store, Http.Resolved(200, ())).1
    ensures !CheckApiHealth<()>(NetworkError(m)) && !Api.CheckApiHealth<()>(store, Http.Rejected(e)).1
  {
  }

  /** How the backend's result reaches this client: a 2xx with the JSON
      body, or a non-ok response whose body carries `detail`. */
  function FromServer<D>(r: Result<D, Server.HttpError>): (a: Answer<D>)
    ensures r.Ok? ==> a.Success? && a.body == Json(r.value)
    ensures r.Err? ==> a == Failure(r.error.status, Json(ErrorBody(Some(r.error.detail))))
  {
    match r
    case Ok(v) => Success(200, Json(v))
    case Err(e) => Failure(e.status, Json(ErrorBody(Some(e.detail))))
  }

  /** End to end: the page receives the backend's reply after a successful
      upload, with progress completed; it shows the backend's own messages
      for a rejected file type and for a processing failure. */
  lemma UploadMessagesReachPage(fs: set<string>, filename: string, outcome: Server.Outcome)
    ensures var r := ProcessFile(FromServer(Server.ProcessUpload(fs, filename, outcome).0), true);
      && (!Pipeline.IsSupportedName(filename) ==> r == (Err(Server.UnsupportedUpload), []))
      && (Pipeline.IsSupportedName(filename) && outcome.Raised? ==>
            r == (Err(Server.ProcessingFailed + outcome.message), []))
      && (Pipeline.IsSupportedName(filename) && outcome.Processed? ==>
            r.0.Ok? && r.0.value.filename == Server.OutputName(filename) && r.1 == [100])
  {
    var res := Server.ProcessUpload(fs, filename, outcome).0;
    if Pipeline.IsSupportedName(filename) && outcome.Raised? {
      assert |Server.ProcessingFailed + outcome.message| > 0;
    }
    if Pipeline.IsSupportedName(filename) && outcome.Processed? {
      assert res.Ok?;
    }
  }
}

=== FILE: file_upload.dfy ===
/** The file picker (src/frontend/src/components/FileUpload/FileUpload.jsx):
    the client-side checks on a chosen file and the three ways a file
    reaches the page — the hidden input, a click that opens it, and a drop.
    `alert` calls are returned as the list of alert texts shown. */
module FileUpload {
  import opened Common
  import Pipeline

  /** A browser `File`: its name, the MIME type the browser assigned, and
      its size in bytes. */
  datatype File = File(name: string, mimeType: string, size: int)

  const AcceptedTypes: seq<string> := ["application/pdf", "image/jpeg", "image/png", "image/jpg"]
  const MaxSize: int := 10 * 1024 * 1024
  const TypeAlert: string := "Please select a PDF or image file (JPG, PNG)"
  const SizeAlert: string := "File size must be less than 10MB"

  /** `validateFile(file)`: the alert it shows, none when the file is
      accepted. The type is checked first, so a file failing both checks
      gets only the type alert. */
  function ValidateFile(f: File): (alert: Option<string>)
    ensures alert.None? <==> f.mimeType in AcceptedTypes && f.size <= MaxSize
    ensures f.mimeType !in AcceptedTypes ==> alert == Some(TypeAlert)
    ensures f.mimeType in AcceptedTypes && f.size > MaxSize ==> alert == Some(SizeAlert)
  {
    if f.mimeType !in AcceptedTypes then Some(TypeAlert)
    else if f.size > MaxSize then Some(SizeAlert)
    else None
  }

  /** Exactly 10 MiB is still accepted; one byte more is not. */
  lemma SizeLimitInclusive(name: string, mimeType: string)
    requires mimeType in AcceptedTypes
    ensures ValidateFile(File(name, mimeType, 10485760)).None?
    ensures ValidateFile(File(name, mimeType, 10485761)) == Some(SizeAlert)
  {
  }

  /** The client checks the MIME type and the server the name's extension:
      a `.gif` name the browser labels `image/png` passes the picker and
      is refused by the server. */
  lemma PickerAndServerChecksDiffer(stem: string)
    ensures ValidateFile(File(stem + ".gif", "image/png", 0)).None?
    ensures !Pipeline.IsSupportedName(stem + ".gif")
  {
    var name := stem + ".gif";
    var low := Lower(name);
    assert name[|name| - 1] == 'f' && name[|name| - 3] == 'g';
    assert low[|low| - 1] == 'f' && low[|low| - 3] == 'g';
  }

  /** What a selection does: the file handed to `onFileSelect`, if any,
      and the alerts shown. */
  datatype Selection = Selection(selected: Option<File>, alerts: seq<string>)

  /** `handleFileSelect(files)`: only the first file of the list is
      considered; it is passed on when it validates, otherwise its alert is
      shown. */
  function HandleFileSelect(files: Option<seq<File>>): (r: Selection)
    ensures r.selected.Some? <==> files.Some? && |files.value| > 0 && ValidateFile(files.value[0]).None?
    ensures r.selected.Some? ==> r.selected.value == files.value[0] && r.alerts == []
    ensures files.Some? && |files.value| > 0 && ValidateFile(files.value[0]).Some? ==>
      r.alerts == [ValidateFile(files.value[0]).value]
    ensures (files.None? || |files.value| == 0) ==> r == Selection(None, [])
  {
    if files.Some? && |files.value| > 0 then
      match ValidateFile(files.value[0])
      case None => Selection(Some(files.value[0]), [])
      case Some(alert) => Selection(None, [alert])
    else Selection(None, [])
  }

  /** Only the first of several files counts: whatever follows it, the
      result is that of choosing it alone. */
  lemma OnlyFirstFileCounts(first: File, rest: seq<File>)
    ensures HandleFileSelect(Some([first] + rest)) == HandleFileSelect(Some([first]))
  {
  }

  /** `handleClick()`: whether the hidden input is opened. */
  predicate HandleClick(disabled: bool) {
    !disabled
  }

  /** `handleDrop(e)` as written: the dropped list goes to
      `handleFileSelect` when it has a first file; `disabled` is never
      consulted. */
  function HandleDrop(disabled: bool, files: Option<seq<File>>): (r: Selection)
    ensures (files.None? || |files.value| == 0) ==> r == Selection(None, [])
    ensures files.Some? && |files.value| > 0 ==> r == HandleFileSelect(files)
  {
    if files.Some? && |files.value| > 0 then HandleFileSelect(files) else Selection(None, [])
  }

  /** The discrepancy: while the picker is disabled a click opens nothing,
      but a valid dropped file is still selected. */
  lemma DropIgnoresDisabled(f: File)
    requires ValidateFile(f).None?
    ensures !HandleClick(true)
    ensures HandleDrop(true, Some([f])) == Selection(Some(f), [])
  {
  }

  /** `handleDrop` as evidently intended: nothing happens while the picker
      is disabled, as for a click and for the disabled input. */
  function HandleDropGuarded(disabled: bool, files: Option<seq<File>>): (r: Selection)
    ensures disabled ==> r == Selection(None, [])
    ensures !disabled ==> r == HandleDrop(disabled, files)
  {
    if disabled then Selection(None, []) else HandleDrop(disabled, files)
  }

  /** With the guard, a drop selects a file only when a click would open
      the picker, and selects the same file the input would. */
  lemma GuardedDropMatchesClick(disabled: bool, files: Option<seq<File>>)
    ensures HandleDropGuarded(disabled, files).selected.Some? ==>
      HandleClick(disabled) && HandleDropGuarded(disabled, files) == HandleFileSelect(files)
  {
  }
}

=== FILE: forgot_password.dfy ===
/** The two-step password-recovery dialog
    (src/frontend/src/components/AuthServices/ForgotPassword.jsx): ask for
    a code by user name, then send the code with a new password. The
    validators and the two service calls it makes are parameters, each
    given as how the call ended; a validator that throws does so before
    the handler's `try`, so the rest of the handler does not run. */
module ForgotPassword {
  import opened Common

  datatype Form = Form(username: string, resetCode: string, newPassword: string, confirmPassword: string)

  const EmptyForm: Form := Form("", "", "", "")

  datatype FormField = UsernameField | ResetCodeField | NewPasswordField | ConfirmPasswordField

  /** `step`, `formData`, `userEmail`, `errors`, `successMessage`,
      `loading`. */
  datatype Dialog = Dialog(step: int, form: Form, userEmail: string, errors: seq<string>, success: string, loading: bool)

  const Initial: Dialog := Dialog(1, EmptyForm, "", [], "", false)
  const CodeSent: string := "Mã khôi phục đã được gửi đến email của bạn!"
  const PasswordWasReset: string := "Mật khẩu đã được đặt lại thành công!"

  function SetField(form: Form, field: FormField, value: string): Form {
    match field
    case UsernameField => form.(username := value)
    case ResetCodeField => form.(resetCode := value)
    case NewPasswordField => form.(newPassword := value)
    case ConfirmPasswordField => form.(confirmPassword := value)
  }

  function GetField(form: Form, field: FormField): string {
    match field
    case UsernameField => form.username
    case ResetCodeField => form.resetCode
    case NewPasswordField => form.newPassword
    case ConfirmPasswordField => form.confirmPassword
  }

  /** `handleInputChange`: the edited field takes the value, every other
      field keeps its own, and the messages are cleared. */
  function InputChange(d: Dialog, field: FormField, value: string): (r: Dialog)
    ensures GetField(r.form, field) == value
    ensures forall g :: g != field ==> GetField(r.form, g) == GetField(d.form, g)
    ensures r.errors == [] && r.success == ""
    ensures r.step == d.step && r.userEmail == d.userEmail && r.loading == d.loading
  {
    d.(form := SetField(d.form, field, value), errors := [], success := "")
  }

  /** What both submit handlers do before validating. */
  function Submitting(d: Dialog): Dialog {
    d.(loading := true, errors := [], success := "")
  }

  /** `handleSendOTP`: validation errors are shown without a request; a
      request for the entered user name leads to step 2 with the e-mail the
      server reports, or shows the thrown message. The second result is
      the user name sent, if a request was made. */
  function SendCode(d: Dialog, validation: Call<seq<string>>, request: Call<string>): (r: (Dialog, Option<string>))
    ensures validation.Throws? ==> r == (Submitting(d), None)
    ensures validation.Returns? ==> !r.0.loading
    ensures validation.Returns? && validation.value != [] ==> r == (Submitting(d).(errors := validation.value, loading := false), None)
    ensures r.1.Some? <==> validation == Returns([])
    ensures r.1.Some? ==> r.1.value == d.form.username
    ensures r.0.step == 2 <==> d.step == 2 || (validation == Returns([]) && request.Returns?)
    ensures validation == Returns([]) && request.Returns? ==> r.0.userEmail == request.value && r.0.success == CodeSent
    ensures validation == Returns([]) && request.Throws? ==> r.0.errors == [request.message] && r.0.step == d.step
    ensures r.0.form == d.form
  {
    match validation
    case Throws(_) => (Submitting(d), None)
    case Returns(errs) =>
      if |errs| > 0 then (Submitting(d).(errors := errs, loading := false), None)
      else
        match request
        case Returns(email) =>
          (Submitting(d).(userEmail := email, success := CodeSent, step := 2, loading := false), Some(d.form.username))
        case Throws(m) => (Submitting(d).(errors := [m], loading := false), Some(d.form.username))
  }

  /** `handleResetPassword`: the same shape; the request carries the user
      name, the code and the new password. The 2-second timer a success
      starts runs `Close`. */
  function ResetPassword(d: Dialog, validation: Call<seq<string>>, request: Call<()>): (r: (Dialog, Option<(string, string, string)>))
    ensures validation.Throws? ==> r == (Submitting(d), None)
    ensures validation.Returns? ==> !r.0.loading
    ensures r.1.Some? <==> validation == Returns([])
    ensures r.1.Some? ==> r.1.value == (d.form.username, d.form.resetCode, d.form.newPassword)
    ensures r.0.success == PasswordWasReset <==> validation == Returns([]) && request.Returns?
    ensures validation.Returns? && validation.value != [] ==> r.0.errors == validation.value && r.0.success == ""
    ensures validation == Returns([]) && request.Throws? ==> r.0.errors == [request.message] && r.0.success == ""
    ensures r.0.step == d.step && r.0.form == d.form && r.0.userEmail == d.userEmail
  {
    match validation
    case Throws(_) => (Submitting(d), None)
    case Returns(errs) =>
      if |errs| > 0 then (Submitting(d).(errors := errs, loading := false), None)
      else
        var sent := Some((d.form.username, d.form.resetCode, d.form.newPassword));
        match request
        case Returns(_) => (Submitting(d).(success := PasswordWasReset, loading := false), sent)
        case Throws(m) => (Submitting(d).(errors := [m], loading := false), sent)
  }

  /** `handleClose`: back to the first step with an empty form; `loading`
      is left as it was. */
  function Close(d: Dialog): (r: Dialog)
    ensures r == Initial.(loading := d.loading)
  {
    Dialog(1, EmptyForm, "", [], "", d.loading)
  }

  /** `handleBackToStep1`: the user name is kept, the step-2 fields are
      cleared. */
  function BackToStepOne(d: Dialog): (r: Dialog)
    ensures r.step == 1 && r.form == EmptyForm.(username := d.form.username)
    ensures r.userEmail == "" && r.errors == [] && r.success == "" && r.loading == d.loading
  {
    d.(step := 1, form := d.form.(resetCode := "", newPassword := "", confirmPassword := ""),
       userEmail := "", errors := [], success := "")
  }

  datatype Event =
    | Edit(field: FormField, value: string)
    | SubmitCode(codeValidation: Call<seq<string>>, codeRequest: Call<string>)
    | SubmitReset(resetValidation: Call<seq<string>>, resetRequest: Call<()>)
    | CloseDialog
    | Back

  /** The inputs of the shown step only, a submit only while its button
      is enabled, the back button only on step 2. */
  predicate Enabled(d: Dialog, e: Event) {
    match e
    case Edit(field, _) => (field == UsernameField) == (d.step == 1)
    case SubmitCode(_, _) => d.step == 1 && !d.loading
    case SubmitReset(_, _) => d.step == 2 && !d.loading
    case CloseDialog => true
    case Back => d.step == 2
  }

  function Step(d: Dialog, e: Event): Dialog {
    match e
    case Edit(field, value) => InputChange(d, field, value)
    case SubmitCode(v, q) => SendCode(d, v, q).0
    case SubmitReset(v, q) => ResetPassword(d, v, q).0
    case CloseDialog => Close(d)
    case Back => BackToStepOne(d)
  }

  /** What the dialog's states share: one of two steps; on step 1 no
      e-mail is shown and the step-2 fields are empty; errors and a
      success message are never shown together. */
  predicate Consistent(d: Dialog) {
    && (d.step == 1 || d.step == 2)
    && (d.step == 1 ==> d.userEmail == "" && d.form.resetCode == "" && d.form.newPassword == "" && d.form.confirmPassword == "")
    && (d.errors != [] ==> d.success == "")
  }

  lemma InitialConsistent()
    ensures Consistent(Initial)
  {
  }

  /** Every event the dialog offers keeps it consistent. */
  lemma StepConsistent(d: Dialog, e: Event)
    requires Consistent(d) && Enabled(d, e)
    ensures Consistent(Step(d, e))
  {
    match e
    case Edit(field, value) =>
      assert forall g :: g != field ==> GetField(Step(d, e).form, g) == GetField(d.form, g);
      assert GetField(Step(d, e).form, ResetCodeField) == Step(d, e).form.resetCode;
      assert GetField(Step(d, e).form, NewPasswordField) == Step(d, e).form.newPassword;
      assert GetField(Step(d, e).form, ConfirmPasswordField) == Step(d, e).form.confirmPassword;
    case SubmitCode(v, q) =>
      if v == Returns([]) && q.Returns? {
        assert Step(d, e).step == 2;
      }
    case _ =>
  }

  /** A validator that throws leaves the dialog loading, and no enabled
      event clears `loading` again: both submit buttons stay disabled for
      the life of the component. */
  lemma ThrowingValidatorDisablesForGood(d: Dialog, e: Event, q: Call<string>, m: string)
    ensures SendCode(d, Throws(m), q).0.loading
    ensures d.loading && Enabled(d, e) ==> Step(d, e).loading
  {
  }
}

=== FILE: http.dfy ===
/** The shared axios instance (src/frontend/src/services/AxiosConfig.jsx):
    its defaults, the request interceptor that attaches the bearer token
    from `localStorage`, and the response interceptor that wipes the
    storage on 401. The server is a parameter: whatever it answers to the
    request it receives. */
module Http {
  import opened Common

  /** `localStorage` */
  type Store = map<string, string>

  const TokenKey: string := "access_token"
  const UserKey: string := "user"
  const AuthorizationHeader: string := "Authorization"
  const BaseUrl: string := "http://localhost:8000"
  const DefaultTimeout: int := 15000

  /** A request as the interceptors and the server see it; `params` is
      the query string. */
  datatype Request = Request(verb: string, route: string, params: map<string, int>, headers: map<string, string>, timeout: int)

  /** The error body FastAPI sends: `{detail: ...}`. */
  datatype ErrorResponse = ErrorResponse(status: int, detail: Option<string>)

  /** An axios error: `error.response` (absent for network failures and
      timeouts) and `error.message`. */
  datatype AxiosError = AxiosError(response: Option<ErrorResponse>, message: string)

  /** What a call settles to: a 2xx response or a rejection. */
  datatype Outcome<D> = Resolved(status: int, data: D) | Rejected(error: AxiosError)

  /** A request built on the instance: JSON content type, then the call's
      own headers, and the call's timeout or the 15 s default. */
  function NewRequest(verb: string, route: string, params: map<string, int>, headers: map<string, string>, timeout: Option<int>): (r: Request)
    ensures r.timeout == (if timeout.Some? then timeout.value else DefaultTimeout)
    ensures "Content-Type" in r.headers
    ensures forall k :: k in headers ==> k in r.headers && r.headers[k] == headers[k]
    ensures r.verb == verb && r.route == route && r.params == params
  {
    Request(verb, route, params, map["Content-Type" := "application/json"] + headers, timeout.GetOr(DefaultTimeout))
  }

  /** `localStorage.getItem(key)` is truthy. */
  predicate HasTruthy(store: Store, key: string) {
    key in store && store[key] != ""
  }

  /** The request interceptor: `Authorization: Bearer <token>` when a
      non-empty token is stored; the config is otherwise untouched. */
  function AttachToken(store: Store, req: Request): (r: Request)
    ensures HasTruthy(store, TokenKey) ==>
      AuthorizationHeader in r.headers && r.headers[AuthorizationHeader] == "Bearer " + store[TokenKey]
    ensures !HasTruthy(store, TokenKey) ==> r == req
    ensures r.verb == req.verb && r.route == req.route && r.params == req.params && r.timeout == req.timeout
    ensures forall k :: k != AuthorizationHeader ==>
      (k in r.headers <==> k in req.headers) && (k in r.headers ==> r.headers[k] == req.headers[k])
  {
    if HasTruthy(store, TokenKey) then req.(headers := req.headers[AuthorizationHeader := "Bearer " + store[TokenKey]])
    else req
  }

  /** `error.response?.status === 401` */
  predicate IsUnauthorized<D>(o: Outcome<D>) {
    o.Rejected? && o.error.response.Some? && o.error.response.value.status == 401
  }

  /** The response interceptor: responses pass through; a 401 clears the
      whole storage and redirects to `/`; every error is rejected
      unchanged. The result is the storage, the outcome, and whether the
      page was sent to `/`. */
  function OnResponse<D>(store: Store, o: Outcome<D>): (r: (Store, Outcome<D>, bool))
    ensures r.1 == o
    ensures r.2 <==> IsUnauthorized(o)
    ensures r.2 ==> r.0 == map[]
    ensures !r.2 ==> r.0 == store
  {
    if IsUnauthorized(o) then (map[], o, true) else (store, o, false)
  }

  /** One call on the instance: the request interceptor, the server's
      answer to the request it receives, the response interceptor. */
  function Send<D>(store: Store, req: Request, server: Request -> Outcome<D>): (r: (Store, Outcome<D>, bool))
    ensures r.1 == server(AttachToken(store, req))
    ensures IsUnauthorized(r.1) ==> r.0 == map[] && !HasTruthy(r.0, TokenKey)
    ensures !IsUnauthorized(r.1) ==> r.0 == store
  {
    OnResponse(store, server(AttachToken(store, req)))
  }

  /** A server that requires the stored token sees it: with a token
      stored, the request it receives carries exactly `Bearer <token>`,
      and without one it receives the call's own headers. */
  lemma ServerSeesBearer<D>(store: Store, req: Request, server: Request -> Outcome<D>)
    requires AuthorizationHeader !in req.headers
    ensures var seen := AttachToken(store, req);
      (AuthorizationHeader in seen.headers <==> HasTruthy(store, TokenKey))
      && (HasTruthy(store, TokenKey) ==> seen.headers[AuthorizationHeader] == "Bearer " + store[TokenKey])
  {
  }

  /** `error.response?.data?.detail` when truthy. */
  function Detail(e: AxiosError): (r: Option<string>)
    ensures r.Some? <==> e.response.Some? && e.response.value.detail.Some? && e.response.value.detail.value != ""
    ensures r.Some? ==> r.value != "" && r.value == e.response.value.detail.value
  {
    if e.response.Some? && e.response.value.detail.Some? && e.response.value.detail.value != "" then
      e.response.value.detail
    else None
  }
}

=== FILE: legacy_server.dfy ===
/** The older endpoints (src/main.py): the same extension check and
    download lookup as `Server`, but the output name always gets `.pdf`
    appended and the reply carries no `filename`. */
module LegacyServer {
  import opened Common
  import Pipeline
  import Server

  /** The JSON body of a successful `/process` call. */
  datatype Reply = Reply(message: string, downloadUrl: string)

  const UnsupportedUpload: string := "Chỉ hỗ trợ PDF, PNG, JPG, JPEG"
  const SuccessMessage: string := "Xử lý thành công"

  /** `f"ocr_{filename}.pdf"`, whatever the upload's extension. */
  function OutputName(filename: string): (r: string)
    ensures StartsWith(r, "ocr_") && EndsWith(r, ".pdf")
    ensures |r| == |filename| + 8 && r[4..|r| - 4] == filename
  {
    var r := "ocr_" + filename + ".pdf";
    StartsWithAppend("ocr_", filename + ".pdf");
    assert r == "ocr_" + (filename + ".pdf");
    EndsWithSelfAppend("ocr_" + filename, ".pdf");
    r
  }

  /** The legacy name agrees with the current one exactly when the upload
      does not already end in `.pdf`; otherwise it carries a doubled
      `.pdf.pdf`. */
  lemma OutputNamesCompared(filename: string)
    ensures OutputName(filename) == Server.OutputName(filename) <==> !EndsWith(filename, ".pdf")
    ensures EndsWith(filename, ".pdf") ==> OutputName(filename) == Server.OutputName(filename) + ".pdf"
  {
    if EndsWith(filename, ".pdf") {
      assert |OutputName(filename)| != |Server.OutputName(filename)|;
    }
  }

  /** Like `Server.ProcessUpload`: 400 for an unsupported name, otherwise
      the input is removed and the processor's outcome decides between the
      reply and 500. */
  function ProcessUpload(fs: set<string>, filename: string, outcome: Server.Outcome): (r: (Result<Reply, Server.HttpError>, set<string>))
    ensures !Pipeline.IsSupportedName(filename) ==> r == (Err(Server.HttpError(400, UnsupportedUpload)), fs)
    ensures Pipeline.IsSupportedName(filename) ==> Server.TempDir + filename !in r.1
    ensures Pipeline.IsSupportedName(filename) && outcome.Raised? ==>
      r.0 == Err(Server.HttpError(500, Server.ProcessingFailed + outcome.message))
      && r.1 - {Server.OutputDir + OutputName(filename)} == fs - {Server.TempDir + filename, Server.OutputDir + OutputName(filename)}
      && (Server.OutputDir + OutputName(filename) in r.1 <==> Server.OutputDir + OutputName(filename) in fs || outcome.wroteOutput)
    ensures r.0.Ok? <==> Pipeline.IsSupportedName(filename) && outcome.Processed?
    ensures r.0.Ok? ==> r.0.value.downloadUrl == Server.DownloadRoute + OutputName(filename)
    ensures r.0.Ok? ==> Server.OutputDir + OutputName(filename) in r.1 && r.0.value.message == SuccessMessage
    ensures r.0.Ok? ==> r.1 == (fs + {Server.OutputDir + OutputName(filename)}) - {Server.TempDir + filename}
  {
    if !Pipeline.IsSupportedName(filename) then (Err(Server.HttpError(400, UnsupportedUpload)), fs)
    else
      var input := Server.TempDir + filename;
      var output := OutputName(filename);
      match outcome
      case Processed =>
        (Ok(Reply(SuccessMessage, Server.DownloadRoute + output)), (fs + {Server.OutputDir + output}) - {input})
      case Raised(message, wrote) =>
        var written := if wrote then fs + {Server.OutputDir + output} else fs;
        (Err(Server.HttpError(500, Server.ProcessingFailed + message)), written - {input})
  }

  /** Both services accept and reject the same uploads, with different
      400 details. */
  lemma SameUploadCheck(fs: set<string>, filename: string, outcome: Server.Outcome)
    ensures ProcessUpload(fs, filename, outcome).0.Err? && ProcessUpload(fs, filename, outcome).0.error.status == 400
      <==> Server.ProcessUpload(fs, filename, outcome).0.Err? && Server.ProcessUpload(fs, filename, outcome).0.error.status == 400
  {
  }

  /** An upload of `x.pdf` is served as `ocr_x.pdf.pdf`. */
  lemma PdfUploadGetsDoubleExtension(stem: string)
    ensures OutputName(stem + ".pdf") == "ocr_" + stem + ".pdf.pdf"
  {
    assert "ocr_" + (stem + ".pdf") + ".pdf" == "ocr_" + stem + ".pdf.pdf";
  }

  /** The output name read back from the download URL is found by the
      shared download endpoint, as in the current service. */
  lemma DownloadAfterUpload(fs: set<string>, filename: string)
    requires '/' !in filename && Pipeline.IsSupportedName(filename)
    ensures ProcessUpload(fs, filename, Server.Processed).0.Ok?
    ensures LastSegment(ProcessUpload(fs, filename, Server.Processed).0.value.downloadUrl, '/') == OutputName(filename)
    ensures Server.Download(ProcessUpload(fs, filename, Server.Processed).1, OutputName(filename)).Ok?
  {
    var output := OutputName(filename);
    assert forall k :: 0 <= k < |output| ==> output[k] == '/' ==> 4 <= k < 4 + |filename| && filename[k - 4] == '/';
    assert Server.DownloadRoute + output == "/download" + ['/'] + output;
    LastSegmentAfterSep("/download", '/', output);
  }
}

=== FILE: models.dfy ===
/** The Pydantic models of the database layer
    (src/backend/database/models.py): the length bounds and the e-mail
    pattern their fields impose, and the defaults of a new processed-file
    record. Identifiers and timestamps are opaque values. */
module Models {
  import opened Common
  import Pipeline

  /** The string fields that carry a constraint. */
  datatype Field = Username | Email | Password | OldPassword | NewPassword | NewEmail

  /** `Field(min_length=.., max_length=..)` or
      `Field(pattern=r'^[^@]+@[^@]+\.[^@]+$')`. */
  datatype Constraint = Length(min: nat, max: Option<nat>) | EmailPattern

  /** A model's constrained fields, in declaration order. */
  type Schema = seq<(Field, Constraint)>

  const UserSchema: Schema := [(Username, Length(3, Some(50))), (Email, EmailPattern), (Password, Length(6, None))]
  const UserSignUpSchema: Schema := [(Username, Length(3, Some(50))), (Email, EmailPattern), (Password, Length(6, None))]
  const UserLoginSchema: Schema := [(Username, Length(3, None)), (Password, Length(6, None))]
  const ChangePasswordSchema: Schema := [(OldPassword, Length(6, None)), (NewPassword, Length(6, None))]
  const ChangeEmailSchema: Schema := [(NewEmail, EmailPattern)]

  /** A split of `s` the e-mail pattern can match: `s[i]` is the only `@`,
      something precedes it, and the domain after it has a `.` with
      something on both sides. */
  predicate EmailSplit(s: string, i: nat, j: nat) {
    0 < i && i + 1 < j && j + 1 < |s|
    && s[i] == '@' && s[j] == '.'
    && '@' !in s[..i] && '@' !in s[i + 1..]
  }

  /** The language of `^[^@]+@[^@]+\.[^@]+$`, stated as the existence of
      a split. */
  ghost predicate MatchesEmailPattern(s: string) {
    exists i: nat, j: nat :: EmailSplit(s, i, j)
  }

  /** The check as a scan: the last `@` is the only one, it is not first,
      and a `.` follows it at distance two or more and is not last. */
  predicate IsEmail(s: string) {
    match Pipeline.LastIndexOf(s, '@')
    case None => false
    case Some(i) => 0 < i && '@' !in s[..i] && i + 2 < |s| && '.' in s[i + 2..|s| - 1]
  }

  /** The scan accepts exactly the pattern's language. */
  lemma IsEmailIff(s: string)
    ensures IsEmail(s) <==> MatchesEmailPattern(s)
  {
    var at := Pipeline.LastIndexOf(s, '@');
    if IsEmail(s) {
      var i := at.value;
      var d :| d in s[i + 2..|s| - 1] && d == '.';
      var k :| 0 <= k < |s[i + 2..|s| - 1]| && s[i + 2..|s| - 1][k] == d;
      assert EmailSplit(s, i, i + 2 + k);
    }
    if MatchesEmailPattern(s) {
      var i: nat, j: nat :| EmailSplit(s, i, j);
      assert s[i] == '@';
      assert at == Some(i);
      assert s[i + 2..|s| - 1][j - i - 2] == '.';
    }
  }

  /** Whether one value meets one constraint (lengths count characters). */
  predicate Satisfies(c: Constraint, v: string) {
    match c
    case Length(lo, hi) => lo <= |v| && (hi.None? || |v| <= hi.value)
    case EmailPattern => IsEmail(v)
  }

  /** Whether the field is reported: missing, or present and violating
      its constraint. */
  predicate Fails(entry: (Field, Constraint), values: map<Field, string>) {
    entry.0 !in values || !Satisfies(entry.1, values[entry.0])
  }

  /** The fields Pydantic reports, in declaration order; the model is built
      only when there are none. */
  function Validate(schema: Schema, values: map<Field, string>): (r: seq<Field>)
    ensures |r| <= |schema|
    ensures forall f :: f in r <==> exists k :: 0 <= k < |schema| && schema[k].0 == f && Fails(schema[k], values)
    ensures r == [] <==> forall k :: 0 <= k < |schema| ==> !Fails(schema[k], values)
  {
    if schema == [] then []
    else
      var rest := Validate(schema[1..], values);
      assert forall k :: 1 <= k < |schema| ==> schema[k] == schema[1..][k - 1];
      if Fails(schema[0], values) then [schema[0].0] + rest else rest
  }

  /** `UserLogin` is laxer than `UserSignUp`: credentials that sign up also
      log in. */
  lemma SignUpCredentialsLogIn(values: map<Field, string>)
    requires Validate(UserSignUpSchema, values) == []
    ensures Validate(UserLoginSchema, values) == []
  {
    assert !Fails(UserSignUpSchema[0], values);
    assert !Fails(UserSignUpSchema[2], values);
  }

  /** A 51-character user name logs in but cannot sign up, because only
      `UserLogin` has no upper bound. */
  lemma LongUsernameOnlyLogsIn(values: map<Field, string>)
    requires Username in values && |values[Username]| == 51
    requires Password in values && |values[Password]| >= 6
    requires Email in values && IsEmail(values[Email])
    ensures Validate(UserLoginSchema, values) == []
    ensures Validate(UserSignUpSchema, values) == [Username]
  {
    assert Fails(UserSignUpSchema[0], values);
    assert !Fails(UserSignUpSchema[1], values);
    assert !Fails(UserSignUpSchema[2], values);
  }

  /** Every password field needs at least six characters, in every
      model that has one, and nothing more. */
  lemma PasswordBound(values: map<Field, string>)
    ensures Password in values ==>
      (Password in Validate(UserSchema, values) <==> |values[Password]| < 6)
    ensures Password in values ==>
      (Password in Validate(UserSignUpSchema, values) <==> |values[Password]| < 6)
    ensures Password in values ==>
      (Password in Validate(UserLoginSchema, values) <==> |values[Password]| < 6)
    ensures OldPassword in values ==>
      (OldPassword in Validate(ChangePasswordSchema, values) <==> |values[OldPassword]| < 6)
    ensures NewPassword in values ==>
      (NewPassword in Validate(ChangePasswordSchema, values) <==> |values[NewPassword]| < 6)
  {
    assert UserSchema[2] == (Password, Length(6, None));
    assert UserLoginSchema[1] == (Password, Length(6, None));
    assert ChangePasswordSchema[0] == (OldPassword, Length(6, None));
    assert ChangePasswordSchema[1] == (NewPassword, Length(6, None));
  }

  /** Addresses the pattern accepts. */
  lemma EmailAccepted()
    ensures IsEmail("a@b.c")
    ensures IsEmail("a@b.c.d")
  {
    assert "a@b.c"[..1] == "a" && "a@b.c"[3..4] == ".";
    assert "a@b.c.d"[..1] == "a" && "a@b.c.d"[3..6] == ".c.";
  }

  /** Addresses it rejects: nothing before the `@`, nothing after the
      dot, nothing between `@` and dot, a second `@`. */
  lemma EmailRejected()
    ensures !IsEmail("@b.c")
    ensures !IsEmail("a@b.")
    ensures !IsEmail("a@.c")
    ensures !IsEmail("a@@b.c")
  {
    assert "a@b."[3..3] == "";
    assert "a@.c"[3..3] == "";
    assert "a@@b.c"[..2] == "a@";
  }

  /** A stored user. */
  datatype User = User(
    id: nat, username: string, email: string, password: string,
    createdAt: int, updatedAt: int, isActive: bool)

  /** `User(...)` with the defaults: active, and each timestamp from its
      own clock reading, `created` taken before `updated` (the fields'
      default factories run in declaration order), so the two can differ. */
  function NewUser(id: nat, username: string, email: string, password: string, created: int, updated: int): (r: User)
    ensures r.isActive && r.createdAt == created && r.updatedAt == updated
    ensures r.id == id && r.username == username && r.email == email && r.password == password
  {
    User(id, username, email, password, created, updated, true)
  }

  /** The constrained fields of a stored user, as `User(**data)` sees them. */
  function UserValues(u: User): map<Field, string> {
    map[Username := u.username, Email := u.email, Password := u.password]
  }

  /** A stored user from which the `User` model can be built. */
  predicate ValidUser(u: User) {
    Validate(UserSchema, UserValues(u)) == []
  }

  /** A stored user is valid exactly when its name has 3 to 50
      characters, its e-mail matches the pattern and its password has at
      least 6 characters. */
  lemma ValidUserIff(u: User)
    ensures ValidUser(u) <==> 3 <= |u.username| <= 50 && IsEmail(u.email) && 6 <= |u.password|
  {
    var values := UserValues(u);
    assert !Fails(UserSchema[0], values) <==> 3 <= |u.username| <= 50;
    assert !Fails(UserSchema[1], values) <==> IsEmail(u.email);
    assert !Fails(UserSchema[2], values) <==> 6 <= |u.password|;
  }

  /** `User`'s errors, field by field in declaration order. */
  lemma UserSchemaErrors(values: map<Field, string>)
    ensures Validate(UserSchema, values)
      == (if Fails(UserSchema[0], values) then [Username] else [])
       + (if Fails(UserSchema[1], values) then [Email] else [])
       + (if Fails(UserSchema[2], values) then [Password] else [])
  {
    var third := if Fails(UserSchema[2], values) then [Password] else [];
    assert Validate(UserSchema[2..], values) == third by {
      assert UserSchema[2..][0] == UserSchema[2] && UserSchema[2..][1..] == [];
    }
    assert Validate(UserSchema[1..], values)
      == (if Fails(UserSchema[1], values) then [Email] else []) + third by {
      assert UserSchema[1..][0] == UserSchema[1] && UserSchema[1..][1..] == UserSchema[2..];
    }
  }

  /** A two-character name is the only field rejected in an otherwise
      valid user. */
  lemma ShortUsernameRejected()
    ensures Validate(UserSchema, UserValues(User(7, "ab", "a@b.c", "secret", 0, 0, true))) == [Username]
  {
    var values := UserValues(User(7, "ab", "a@b.c", "secret", 0, 0, true));
    assert values[Username] == "ab" && values[Email] == "a@b.c" && values[Password] == "secret";
    UserSchemaErrors(values);
    EmailAccepted();
  }

  /** A processed-file record. `processing_time` is a float the model
      keeps opaque. */
  datatype ProcessedFile = ProcessedFile(
    id: nat, userId: nat, originalFilename: string, processedFilename: string,
    fileSize: int, fileType: string, processingStatus: string,
    processingTime: Option<real>, createdAt: int, downloadCount: int)

  const Completed: string := "completed"

  /** `ProcessedFile(...)` with only the required fields given: the status
      is `"completed"`, no processing time, no downloads. */
  function NewProcessedFile(id: nat, userId: nat, originalFilename: string, processedFilename: string,
                            fileSize: int, fileType: string, createdAt: int): (r: ProcessedFile)
    ensures r.processingStatus == Completed && r.processingTime.None? && r.downloadCount == 0
    ensures r.id == id && r.userId == userId && r.processedFilename == processedFilename && r.createdAt == createdAt
    ensures r.originalFilename == originalFilename && r.fileSize == fileSize && r.fileType == fileType
  {
    ProcessedFile(id, userId, originalFilename, processedFilename, fileSize, fileType, Completed, None, createdAt, 0)
  }
}

=== FILE: pipeline.dfy ===
/** `Process.process_file` (src/process.py): the default output name and
    the dispatch on the input's extension. Rendering and recognition of
    the pages are left to `Boxes`. */
module Pipeline {
  import opened Common

  /** `path.lower().endswith(".pdf")` */
  predicate IsPdfName(path: string) { EndsWith(Lower(path), ".pdf") }

  /** `path.lower().endswith((".png", ".jpg", ".jpeg"))` */
  predicate IsImageName(path: string) {
    EndsWith(Lower(path), ".png") || EndsWith(Lower(path), ".jpg") || EndsWith(Lower(path), ".jpeg")
  }

  /** The extensions both the processor and the upload endpoints accept. */
  predicate IsSupportedName(path: string) { IsPdfName(path) || IsImageName(path) }

  /** Position of the last `c` in `s`. */
  function LastIndexOf(s: string, c: char): (r: Option<nat>)
    ensures r.None? <==> c !in s
    ensures r.Some? ==> r.value < |s| && s[r.value] == c && c !in s[r.value + 1..]
  {
    if |s| == 0 then None
    else if s[|s| - 1] == c then Some(|s| - 1)
    else
      var r := LastIndexOf(s[..|s| - 1], c);
      assert s == s[..|s| - 1] + [s[|s| - 1]];
      if r.Some? then
        assert s[r.value + 1..] == s[..|s| - 1][r.value + 1..] + [s[|s| - 1]];
        r
      else r
  }

  /** `os.path.splitext(name)[0]` for a name without `/`: the text before
      the last dot, unless only dots precede that dot (a leading-dot name
      such as `.bashrc` has no extension). */
  function StripExtension(name: string): (root: string)
    ensures |root| <= |name| && root == name[..|root|]
    ensures root == name || (name[|root|] == '.' && '.' !in name[|root| + 1..])
  {
    match LastIndexOf(name, '.')
    case None => name
    case Some(d) => if exists k :: 0 <= k < d && name[k] != '.' then name[..d] else name
  }

  /** `f"{os.path.splitext(os.path.basename(path))[0]}_ocr.pdf"` */
  function DefaultOutputName(path: string): (r: string)
    ensures EndsWith(r, "_ocr.pdf")
    ensures '/' !in r
  {
    var root := StripExtension(LastSegment(path, '/'));
    PrefixKeepsAbsence(LastSegment(path, '/'), root, '/');
    OcrSuffix(root);
    root + OcrSuffixText
  }

  const OcrSuffixText: string := "_ocr.pdf"

  /** Appending `_ocr.pdf` gives a name ending in it and adds no `/`. */
  lemma OcrSuffix(root: string)
    requires '/' !in root
    ensures EndsWith(root + OcrSuffixText, "_ocr.pdf") && '/' !in root + OcrSuffixText
  {
    EndsWithSelfAppend(root, OcrSuffixText);
    var t := OcrSuffixText;
    assert t[0] != '/' && t[1] != '/' && t[2] != '/' && t[3] != '/' && t[4] != '/' && t[5] != '/' && t[6] != '/' && t[7] != '/';
    assert forall k :: 0 <= k < |root + t| ==> (root + t)[k] == if k < |root| then root[k] else t[k - |root|];
  }

  /** A prefix has no character its whole lacks. */
  lemma PrefixKeepsAbsence(s: string, p: string, c: char)
    requires c !in s && |p| <= |s| && p == s[..|p|]
    ensures c !in p
  {
    assert forall k :: 0 <= k < |p| ==> p[k] == s[k];
  }

  /** The two processing paths. */
  datatype Route = PdfPages | SingleImage

  /** What the processor runs and the file it will write. */
  datatype Job = Job(route: Route, output: string)

  const UnsupportedFormat: string := "Định dạng file không hỗ trợ. Hãy dùng PDF hoặc ảnh PNG/JPG."

  /** `process_file(input_path, final_output_name)` up to the call of the
      chosen path: the output name is the given one or the default, `.pdf`
      is checked before the image extensions, and anything else raises
      `ValueError`. */
  function ProcessFile(path: string, finalOutputName: Option<string>): (r: Result<Job, string>)
    ensures r.Ok? <==> IsSupportedName(path)
    ensures r.Ok? ==> (r.value.route == PdfPages <==> IsPdfName(path))
    ensures r.Ok? ==> r.value.output == finalOutputName.GetOr(DefaultOutputName(path))
    ensures r.Err? ==> r.error == UnsupportedFormat
  {
    var output := if finalOutputName.None? then DefaultOutputName(path) else finalOutputName.value;
    if IsPdfName(path) then Ok(Job(PdfPages, output))
    else if IsImageName(path) then Ok(Job(SingleImage, output))
    else Err(UnsupportedFormat)
  }

  /** A name whose last dot is followed by `ext` and preceded by some
      non-dot character loses exactly `"." + ext`. */
  lemma StripExtensionOf(stem: string, ext: string, k: nat)
    requires '.' !in ext
    requires k < |stem| && stem[k] != '.'
    ensures StripExtension(stem + "." + ext) == stem
  {
    var name := stem + "." + ext;
    assert name[|stem|] == '.';
    assert name[|stem| + 1..] == ext;
    assert name[k] == stem[k];
    assert name[..|stem|] == stem;
  }

  /** A name without a dot is its own root. */
  lemma StripExtensionNoDot(name: string)
    requires '.' !in name
    ensures StripExtension(name) == name
  {
  }

  /** For `dir/stem.ext` the default output name is `stem_ocr.pdf`,
      whatever the directory. */
  lemma DefaultOutputNameOfPath(dir: string, stem: string, ext: string, k: nat)
    requires '/' !in stem && '/' !in ext && '.' !in ext
    requires k < |stem| && stem[k] != '.'
    ensures DefaultOutputName(dir + "/" + stem + "." + ext) == stem + "_ocr.pdf"
  {
    var base := stem + "." + ext;
    assert '/' !in base by {
      assert forall i :: 0 <= i < |base| ==> base[i] == (if i < |stem| then stem[i] else if i == |stem| then '.' else ext[i - |stem| - 1]);
    }
    LastSegmentAfterSep(dir, '/', base);
    assert dir + "/" + stem + "." + ext == dir + ['/'] + base;
    StripExtensionOf(stem, ext, k);
  }

  /** A suffix starting with a dot cannot reach into a dot-free directory
      prefix, so prefixing such a directory does not change the test. */
  lemma DotSuffixUnderDir(dir: string, f: string, suffix: string)
    requires |suffix| > 0 && suffix[0] == '.' && '.' !in dir
    ensures EndsWith(Lower(dir + f), suffix) <==> EndsWith(Lower(f), suffix)
  {
    LowerAppend(dir, f);
    if |suffix| <= |f| {
      EndsWithAppend(Lower(dir), Lower(f), suffix);
    } else if |suffix| <= |dir| + |f| {
      var j := |dir| + |f| - |suffix|;
      assert Lower(dir + f)[j] == LowerChar(dir[j]);
      assert dir[j] != '.';
    }
  }

  /** The processor accepts a file saved under a dot-free directory iff it
      accepts the bare name. */
  lemma SupportedUnderDir(dir: string, f: string)
    requires '.' !in dir
    ensures IsSupportedName(dir + f) <==> IsSupportedName(f)
    ensures IsPdfName(dir + f) <==> IsPdfName(f)
  {
    DotSuffixUnderDir(dir, f, ".pdf");
    DotSuffixUnderDir(dir, f, ".png");
    DotSuffixUnderDir(dir, f, ".jpg");
    DotSuffixUnderDir(dir, f, ".jpeg");
  }
}

=== FILE: repositories.dfy ===
/** `UserRepository` and `ProcessedFileRepository`
    (src/backend/database/repositories.py) over in-memory collections.
    Every query matches on exact field values; `_id` is always unique,
    and usernames and e-mails become unique once `create_indexes` ran. */
module Repositories {
  import opened Common
  import opened Collection
  import Models

  /** The driver errors the repositories can raise. */
  datatype DbError =
    | DuplicateKey  // a unique index (or `_id`) already holds the value
    | InvalidSkip   // `cursor.skip` with a negative count
    | Invalid(fields: seq<Models.Field>)  // `User(**data)` rejects these fields

  function UserId(u: Models.User): nat { u.id }
  function Username(u: Models.User): string { u.username }
  function UserEmail(u: Models.User): string { u.email }
  function FileId(f: Models.ProcessedFile): nat { f.id }

  // ---------------------------------------------------------------- users

  /** The `users` collection and which of its two unique indexes exist. */
  datatype UserStore = UserStore(users: seq<Models.User>, usernameIndexed: bool, emailIndexed: bool)

  /** The unique indexes of `st` accept the documents `users`. */
  predicate IndexesAdmit(st: UserStore, users: seq<Models.User>) {
    (st.usernameIndexed ==> UniqueBy(users, Username))
    && (st.emailIndexed ==> UniqueBy(users, UserEmail))
  }

  /** What the database guarantees about the `users` collection. */
  predicate Consistent(st: UserStore) {
    UniqueBy(st.users, UserId) && IndexesAdmit(st, st.users)
  }

  /** `create_user`: the insert fails on a taken `_id`, and on a taken
      username or e-mail once the index on it exists. Otherwise the
      document is stored, and only then is the `User` model built from
      it, so a document the model rejects stays stored while the call
      raises. The answer is the store afterwards and the user or the
      error. */
  function CreateUser(st: UserStore, u: Models.User): (r: (UserStore, Result<Models.User, DbError>))
    ensures r.1 == Err(DuplicateKey) ==> r.0 == st
    ensures r.1 != Err(DuplicateKey) ==> r.0 == st.(users := st.users + [u])
    ensures HasKey(st.users, UserId, u.id) ==> r.1 == Err(DuplicateKey)
    ensures st.usernameIndexed && HasKey(st.users, Username, u.username) ==> r.1 == Err(DuplicateKey)
    ensures st.emailIndexed && HasKey(st.users, UserEmail, u.email) ==> r.1 == Err(DuplicateKey)
    ensures (!HasKey(st.users, UserId, u.id) && !(st.usernameIndexed && HasKey(st.users, Username, u.username))
             && !(st.emailIndexed && HasKey(st.users, UserEmail, u.email))) ==> r.1 != Err(DuplicateKey)
    ensures r.1.Ok? <==> r.1 != Err(DuplicateKey) && Models.ValidUser(u)
    ensures r.1.Ok? ==> r.1.value == u
    ensures r.1.Err? && r.1.error != DuplicateKey ==>
      r.1.error == Invalid(Models.Validate(Models.UserSchema, Models.UserValues(u))) && r.1.error.fields != []
    ensures Consistent(st) ==> Consistent(r.0)
  {
    if HasKey(st.users, UserId, u.id)
      || (st.usernameIndexed && HasKey(st.users, Username, u.username))
      || (st.emailIndexed && HasKey(st.users, UserEmail, u.email))
    then (st, Err(DuplicateKey))
    else
      var stored := st.(users := st.users + [u]);
      var errors := Models.Validate(Models.UserSchema, Models.UserValues(u));
      if errors == [] then (stored, Ok(u)) else (stored, Err(Invalid(errors)))
  }

  /** `UserRepository.create_indexes`: the username index is built first,
      then the e-mail index; building one over duplicates raises, and an
      index built before the failure stays. The answer is the store
      afterwards and the error raised, if any. */
  function CreateUserIndexes(st: UserStore): (r: (UserStore, Option<DbError>))
    ensures r.0.users == st.users
    ensures r.1.None? <==> UniqueBy(st.users, Username) && UniqueBy(st.users, UserEmail)
    ensures r.1.Some? ==> r.1.value == DuplicateKey
    ensures r.0.usernameIndexed <==> st.usernameIndexed || UniqueBy(st.users, Username)
    ensures r.0.emailIndexed <==> st.emailIndexed || (UniqueBy(st.users, Username) && UniqueBy(st.users, UserEmail))
    ensures Consistent(st) ==> Consistent(r.0)
  {
    if !UniqueBy(st.users, Username) then (st, Some(DuplicateKey))
    else if !UniqueBy(st.users, UserEmail) then (st.(usernameIndexed := true), Some(DuplicateKey))
    else (st.(usernameIndexed := true, emailIndexed := true), None)
  }

  /** Creating the indexes a second time changes nothing. */
  lemma CreateUserIndexesIdempotent(st: UserStore)
    requires CreateUserIndexes(st).1.None?
    ensures CreateUserIndexes(CreateUserIndexes(st).0) == CreateUserIndexes(st)
  {
  }

  /** When only the e-mails clash, the username index is left behind: a
      later sign-up under a taken name fails, one under a taken e-mail
      does not. */
  lemma EmailIndexFailureKeepsUsernameIndex(st: UserStore, u: Models.User)
    requires !st.usernameIndexed && !st.emailIndexed
    requires UniqueBy(st.users, Username) && !UniqueBy(st.users, UserEmail)
    ensures var after := CreateUserIndexes(st);
      after.1 == Some(DuplicateKey) && after.0.usernameIndexed && !after.0.emailIndexed
      && (HasKey(st.users, Username, u.username) ==> CreateUser(after.0, u) == (after.0, Err(DuplicateKey)))
      && (!HasKey(st.users, UserId, u.id) && !HasKey(st.users, Username, u.username) ==>
            CreateUser(after.0, u).0.users == st.users + [u])
  {
  }

  /** A found document turned into a `User`: nothing without a match, and
      the model's validation error when it rejects the document. */
  function AsUser(found: Option<Models.User>): (r: Result<Option<Models.User>, DbError>)
    ensures found.None? ==> r == Ok(None)
    ensures found.Some? && Models.ValidUser(found.value) ==> r == Ok(found)
    ensures found.Some? && !Models.ValidUser(found.value) ==>
      r == Err(Invalid(Models.Validate(Models.UserSchema, Models.UserValues(found.value))))
  {
    match found
    case None => Ok(None)
    case Some(u) =>
      var errors := Models.Validate(Models.UserSchema, Models.UserValues(u));
      if errors == [] then Ok(found) else Err(Invalid(errors))
  }

  /** `get_user_by_username`: nothing when no stored user has the name; a
      stored user with the name; or the validation error of a stored
      user with the name that the model rejects. */
  function GetUserByUsername(st: UserStore, username: string): (r: Result<Option<Models.User>, DbError>)
    ensures r == Ok(None) <==> !HasKey(st.users, Username, username)
    ensures r.Ok? && r.value.Some? ==>
      r.value.value in st.users && r.value.value.username == username && Models.ValidUser(r.value.value)
    ensures r.Err? ==>
      exists u :: u in st.users && u.username == username && !Models.ValidUser(u)
        && r.error == Invalid(Models.Validate(Models.UserSchema, Models.UserValues(u)))
    ensures (forall u :: u in st.users && u.username == username ==> Models.ValidUser(u)) ==> r.Ok?
  {
    AsUser(FindOne(st.users, KeyIs(Username, username)))
  }

  /** `get_user_by_email`: the same for the e-mail. */
  function GetUserByEmail(st: UserStore, email: string): (r: Result<Option<Models.User>, DbError>)
    ensures r == Ok(None) <==> !HasKey(st.users, UserEmail, email)
    ensures r.Ok? && r.value.Some? ==>
      r.value.value in st.users && r.value.value.email == email && Models.ValidUser(r.value.value)
    ensures r.Err? ==>
      exists u :: u in st.users && u.email == email && !Models.ValidUser(u)
        && r.error == Invalid(Models.Validate(Models.UserSchema, Models.UserValues(u)))
    ensures (forall u :: u in st.users && u.email == email ==> Models.ValidUser(u)) ==> r.Ok?
  {
    AsUser(FindOne(st.users, KeyIs(UserEmail, email)))
  }

  /** `get_user_by_id`: the same for the id. */
  function GetUserById(st: UserStore, id: nat): (r: Result<Option<Models.User>, DbError>)
    ensures r == Ok(None) <==> !HasKey(st.users, UserId, id)
    ensures r.Ok? && r.value.Some? ==>
      r.value.value in st.users && r.value.value.id == id && Models.ValidUser(r.value.value)
    ensures r.Err? ==>
      exists u :: u in st.users && u.id == id && !Models.ValidUser(u)
        && r.error == Invalid(Models.Validate(Models.UserSchema, Models.UserValues(u)))
    ensures (forall u :: u in st.users && u.id == id ==> Models.ValidUser(u)) ==> r.Ok?
  {
    AsUser(FindOne(st.users, KeyIs(UserId, id)))
  }

  /** Once indexed, each lookup by a user's own key finds that user, and
      answers with it exactly when the model accepts it. */
  lemma LookupsAreExact(st: UserStore, i: nat)
    requires Consistent(st) && st.usernameIndexed && st.emailIndexed && i < |st.users|
    ensures GetUserByUsername(st, st.users[i].username) == AsUser(Some(st.users[i]))
    ensures GetUserByEmail(st, st.users[i].email) == AsUser(Some(st.users[i]))
    ensures GetUserById(st, st.users[i].id) == AsUser(Some(st.users[i]))
  {
    FindOneUnique(st.users, Username, i, st.users[i].username);
    FindOneUnique(st.users, UserEmail, i, st.users[i].email);
    FindOneUnique(st.users, UserId, i, st.users[i].id);
  }

  /** A sign-up whose document the model rejects is stored anyway, and
      from then on every lookup of that user raises. */
  lemma InvalidUserStoredButUnreadable(st: UserStore, u: Models.User)
    requires Consistent(st) && st.usernameIndexed && st.emailIndexed
    requires CreateUser(st, u).1 != Err(DuplicateKey) && !Models.ValidUser(u)
    ensures var r := CreateUser(st, u);
      && r.1.Err? && r.1.error.Invalid? && u in r.0.users
      && GetUserByUsername(r.0, u.username).Err?
      && GetUserByEmail(r.0, u.email).Err?
      && GetUserById(r.0, u.id).Err?
  {
    var r := CreateUser(st, u);
    assert r.0.users[|st.users|] == u;
    LookupsAreExact(r.0, |st.users|);
  }

  /** A two-character name is inserted and then rejected. */
  lemma ShortUsernameStored()
    ensures CreateUser(UserStore([], true, true), Models.User(7, "ab", "a@b.c", "secret", 0, 0, true))
      == (UserStore([Models.User(7, "ab", "a@b.c", "secret", 0, 0, true)], true, true), Err(Invalid([Models.Username])))
  {
    var u := Models.User(7, "ab", "a@b.c", "secret", 0, 0, true);
    Models.ShortUsernameRejected();
    assert [] + [u] == [u];
  }

  /** The fields a `$set` on a user may carry. */
  datatype UserPatch = UserPatch(
    username: Option<string>, email: Option<string>, password: Option<string>,
    updatedAt: Option<int>, isActive: Option<bool>)

  function ApplyUserPatch(u: Models.User, p: UserPatch): (r: Models.User)
    ensures r.id == u.id && r.createdAt == u.createdAt
    ensures r.username == p.username.GetOr(u.username) && r.email == p.email.GetOr(u.email)
  {
    u.(username := p.username.GetOr(u.username), email := p.email.GetOr(u.email),
       password := p.password.GetOr(u.password), updatedAt := p.updatedAt.GetOr(u.updatedAt),
       isActive := p.isActive.GetOr(u.isActive))
  }

  /** The collection with every user of id `id` patched and the others as
      they were. */
  function PatchUsers(users: seq<Models.User>, id: nat, patch: UserPatch): seq<Models.User> {
    seq(|users|, i requires 0 <= i < |users| => if users[i].id == id then ApplyUserPatch(users[i], patch) else users[i])
  }

  /** `update_user`: true iff a user has the id and the patch changed it;
      a change that would duplicate an indexed username or e-mail fails.
      With unique ids the outcome is exactly that of patching the one
      user with the id. */
  function UpdateUser(st: UserStore, id: nat, patch: UserPatch): (r: Result<(UserStore, bool), DbError>)
    ensures !HasKey(st.users, UserId, id) ==> r == Ok((st, false))
    ensures r.Err? ==> r.error == DuplicateKey && (st.usernameIndexed || st.emailIndexed)
    ensures r.Ok? ==> r.value.0.usernameIndexed == st.usernameIndexed && r.value.0.emailIndexed == st.emailIndexed
    ensures r.Ok? ==> |r.value.0.users| == |st.users|
    ensures r.Ok? ==> forall i :: 0 <= i < |st.users| ==>
      r.value.0.users[i] == st.users[i] || (st.users[i].id == id && r.value.0.users[i] == ApplyUserPatch(st.users[i], patch))
    ensures UniqueBy(st.users, UserId) ==>
      var patched := PatchUsers(st.users, id, patch);
      (r.Err? <==> patched != st.users && !IndexesAdmit(st, patched))
      && (r.Ok? ==> r.value == (st.(users := patched), patched != st.users))
  {
    var (users, modified) := UpdateOne(st.users, KeyIs(UserId, id), u => ApplyUserPatch(u, patch));
    assert UniqueBy(st.users, UserId) ==>
      users == PatchUsers(st.users, id, patch) && (modified <==> users != st.users) by {
      if UniqueBy(st.users, UserId) {
        UpdateOneByKey(st.users, UserId, id, u => ApplyUserPatch(u, patch));
      }
    }
    if !modified then Ok((st, false))
    else if !IndexesAdmit(st, users) then Err(DuplicateKey)
    else Ok((st.(users := users), true))
  }

  /** `update_user` keeps the collection consistent and reports exactly
      whether the user's record changed. */
  lemma UpdateUserConsistent(st: UserStore, id: nat, patch: UserPatch)
    requires Consistent(st)
    ensures var r := UpdateUser(st, id, patch);
      r.Ok? ==> (Consistent(r.value.0)
        && (r.value.1 <==> exists i :: 0 <= i < |st.users| && st.users[i].id == id && ApplyUserPatch(st.users[i], patch) != st.users[i]))
  {
  }

  /** `update_user` does not validate: a patch to a value the model
      rejects succeeds, and from then on looking the user up by id
      raises. */
  lemma PatchedToInvalidUnreadable(st: UserStore, i: nat, patch: UserPatch)
    requires Consistent(st) && st.usernameIndexed && st.emailIndexed && i < |st.users|
    requires UpdateUser(st, st.users[i].id, patch).Ok?
    requires !Models.ValidUser(ApplyUserPatch(st.users[i], patch))
    ensures GetUserById(UpdateUser(st, st.users[i].id, patch).value.0, st.users[i].id).Err?
  {
    var after := UpdateUser(st, st.users[i].id, patch).value.0;
    UpdateUserConsistent(st, st.users[i].id, patch);
    assert after.users[i] == ApplyUserPatch(st.users[i], patch);
    LookupsAreExact(after, i);
  }

  /** `delete_user`: true iff a user had the id; one user with the id is
      removed, every other user remains and none is added. */
  function DeleteUser(st: UserStore, id: nat): (r: (UserStore, bool))
    ensures r.1 <==> HasKey(st.users, UserId, id)
    ensures r.0.usernameIndexed == st.usernameIndexed && r.0.emailIndexed == st.emailIndexed
    ensures !r.1 ==> r.0 == st
    ensures r.1 ==> |r.0.users| == |st.users| - 1
    ensures forall i :: 0 <= i < |st.users| && st.users[i].id != id ==> st.users[i] in r.0.users
    ensures forall i :: 0 <= i < |r.0.users| ==> r.0.users[i] in st.users
    ensures Consistent(st) ==> Consistent(r.0) && !HasKey(r.0.users, UserId, id)
  {
    var (users, deleted) := DeleteOne(st.users, KeyIs(UserId, id));
    assert Consistent(st) ==> Consistent(st.(users := users)) && !HasKey(users, UserId, id) by {
      if Consistent(st) {
        DeleteUniqueKey(st.users, UserId, id);
        if st.usernameIndexed {
          DeleteKeepsUnique(st.users, KeyIs(UserId, id), Username);
        }
        if st.emailIndexed {
          DeleteKeepsUnique(st.users, KeyIs(UserId, id), UserEmail);
        }
      }
    }
    (st.(users := users), deleted)
  }

  /** With the username index in place a second sign-up under a taken
      name fails and leaves the collection as it was. */
  lemma DuplicateUsernameRejected(st: UserStore, u: Models.User, v: Models.User)
    requires st.usernameIndexed && CreateUser(st, u).1 != Err(DuplicateKey)
    requires v.username == u.username
    ensures var st' := CreateUser(st, u).0; CreateUser(st', v) == (st', Err(DuplicateKey))
  {
    var st' := CreateUser(st, u).0;
    assert Username(st'.users[|st.users|]) == v.username;
  }

  // ---------------------------------------------------------------- files

  /** Records ordered by `created_at`, newest first. */
  predicate NewestFirst(s: seq<Models.ProcessedFile>) {
    forall i, j :: 0 <= i < j < |s| ==> s[i].createdAt >= s[j].createdAt
  }

  /** No record in `t` is newer than `bound`. */
  predicate NoneNewer(t: seq<Models.ProcessedFile>, bound: int) {
    forall j :: 0 <= j < |t| ==> t[j].createdAt <= bound
  }

  /** The head of a newest-first sequence bounds its tail. */
  lemma HeadBoundsTail(s: seq<Models.ProcessedFile>)
    requires NewestFirst(s) && |s| > 0
    ensures NewestFirst(s[1..]) && NoneNewer(s[1..], s[0].createdAt)
  {
    assert forall j :: 0 <= j < |s[1..]| ==> s[1..][j] == s[j + 1];
  }

  /** A record no older than everything after it extends a newest-first
      sequence. */
  lemma ConsNewestFirst(x: Models.ProcessedFile, t: seq<Models.ProcessedFile>)
    requires NewestFirst(t) && NoneNewer(t, x.createdAt)
    ensures NewestFirst([x] + t)
  {
    assert forall j :: 1 <= j < |[x] + t| ==> ([x] + t)[j] == t[j - 1];
  }

  /** The bound carries over to a permutation with one more record. */
  lemma NoneNewerOfPermutation(t: seq<Models.ProcessedFile>, u: seq<Models.ProcessedFile>, f: Models.ProcessedFile, bound: int)
    requires NoneNewer(u, bound) && f.createdAt <= bound
    requires multiset(t) == multiset(u) + multiset{f}
    ensures NoneNewer(t, bound)
  {
    forall j | 0 <= j < |t|
      ensures t[j].createdAt <= bound
    {
      assert t[j] in multiset(t);
      if t[j] != f {
        assert t[j] in multiset(u);
        var m :| 0 <= m < |u| && u[m] == t[j];
      }
    }
  }

  /** Inserts `f` into a newest-first sequence. */
  function InsertByDate(f: Models.ProcessedFile, s: seq<Models.ProcessedFile>): (r: seq<Models.ProcessedFile>)
    requires NewestFirst(s)
    ensures NewestFirst(r)
    ensures multiset(r) == multiset(s) + multiset{f}
  {
    if s == [] then [f]
    else
      HeadBoundsTail(s);
      assert s == [s[0]] + s[1..];
      if s[0].createdAt <= f.createdAt then
        assert NoneNewer(s, f.createdAt);
        ConsNewestFirst(f, s);
        [f] + s
      else
        var t := InsertByDate(f, s[1..]);
        NoneNewerOfPermutation(t, s[1..], f, s[0].createdAt);
        ConsNewestFirst(s[0], t);
        [s[0]] + t
  }

  /** `.sort("created_at", DESCENDING)`: a permutation, newest first (the
      order among equal timestamps is the driver's and is not modelled). */
  function SortNewestFirst(s: seq<Models.ProcessedFile>): (r: seq<Models.ProcessedFile>)
    ensures NewestFirst(r)
    ensures multiset(r) == multiset(s) && |r| == |s|
  {
    if s == [] then []
    else
      assert s == [s[0]] + s[1..];
      InsertByDate(s[0], SortNewestFirst(s[1..]))
  }

  /** The records of one user, in natural order. */
  function ByUser(files: seq<Models.ProcessedFile>, userId: nat): (r: seq<Models.ProcessedFile>)
    ensures forall i :: 0 <= i < |r| ==> r[i] in files && r[i].userId == userId
    ensures forall i :: 0 <= i < |files| && files[i].userId == userId ==> files[i] in r
    ensures forall f :: multiset(r)[f] == if f.userId == userId then multiset(files)[f] else 0
  {
    FilterCounts(files, (f: Models.ProcessedFile) => f.userId == userId);
    Filter(files, (f: Models.ProcessedFile) => f.userId == userId)
  }

  /** `get_user_file_count`: how many records the user has. */
  function GetUserFileCount(files: seq<Models.ProcessedFile>, userId: nat): (n: nat)
    ensures n == |ByUser(files, userId)| == |multiset(ByUser(files, userId))|
    ensures n <= |files|
    ensures n == 0 <==> forall i :: 0 <= i < |files| ==> files[i].userId != userId
  {
    var r := ByUser(files, userId);
    assert r != [] ==> r[0] in files;
    |r|
  }

  const DefaultSkip: int := 0
  const DefaultLimit: int := 20

  /** `get_files_by_user(user_id, skip, limit)`: the user's records newest
      first, without the first `skip`, at most `abs(limit)` of them (all
      when `limit` is 0); a negative `skip` is rejected by the driver. */
  function GetFilesByUser(files: seq<Models.ProcessedFile>, userId: nat, skip: int, limit: int): (r: Result<seq<Models.ProcessedFile>, DbError>)
    ensures r.Err? <==> skip < 0
    ensures r.Ok? ==> forall i :: 0 <= i < |r.value| ==> r.value[i] in files && r.value[i].userId == userId
    ensures r.Ok? ==> NewestFirst(r.value)
    ensures r.Ok? ==> |r.value| <= GetUserFileCount(files, userId)
    ensures r.Ok? ==> |r.value| == if skip >= GetUserFileCount(files, userId) then 0
      else if limit == 0 || Abs(limit) >= GetUserFileCount(files, userId) - skip then GetUserFileCount(files, userId) - skip
      else Abs(limit)
    ensures r.Ok? && skip == 0 && limit == 0 ==> multiset(r.value) == multiset(ByUser(files, userId))
  {
    if skip < 0 then Err(InvalidSkip)
    else
      PageFacts(files, userId, skip, limit);
      Ok(Limit(Drop(SortNewestFirst(ByUser(files, userId)), skip), limit))
  }

  /** A window of the sorted records is newest first and holds only the
      user's records. */
  lemma PageFacts(files: seq<Models.ProcessedFile>, userId: nat, skip: nat, limit: int)
    ensures var page := Limit(Drop(SortNewestFirst(ByUser(files, userId)), skip), limit);
      NewestFirst(page) && forall i :: 0 <= i < |page| ==> page[i] in files && page[i].userId == userId
  {
    var mine := ByUser(files, userId);
    var sorted := SortNewestFirst(mine);
    var page := Limit(Drop(sorted, skip), limit);
    assert forall i :: 0 <= i < |page| ==> page[i] == sorted[skip + i];
    forall i | 0 <= i < |page|
      ensures page[i] in files && page[i].userId == userId
    {
      assert page[i] in multiset(sorted);
      assert page[i] in multiset(mine);
      var j :| 0 <= j < |mine| && mine[j] == page[i];
    }
  }

  /** Fetching page after page with the same `limit` walks through the
      sorted records without gaps or overlaps. */
  lemma NextPageContinues(files: seq<Models.ProcessedFile>, userId: nat, skip: nat, n: nat, m: nat)
    requires n > 0 && m > 0
    ensures GetFilesByUser(files, userId, skip, n).value + GetFilesByUser(files, userId, skip + n, m).value
      == GetFilesByUser(files, userId, skip, n + m).value
  {
    PagesConcatenate(SortNewestFirst(ByUser(files, userId)), skip, n, m);
  }

  /** The default call returns the user's newest twenty records (all of
      them when there are fewer). */
  lemma DefaultPage(files: seq<Models.ProcessedFile>, userId: nat)
    ensures GetFilesByUser(files, userId, DefaultSkip, DefaultLimit).Ok?
    ensures |GetFilesByUser(files, userId, DefaultSkip, DefaultLimit).value|
      == if GetUserFileCount(files, userId) < 20 then GetUserFileCount(files, userId) else 20
  {
  }

  /** `create_processed_file`: fails only on a taken `_id`. */
  function CreateProcessedFile(files: seq<Models.ProcessedFile>, f: Models.ProcessedFile): (r: Result<seq<Models.ProcessedFile>, DbError>)
    ensures r.Err? <==> HasKey(files, FileId, f.id)
    ensures r.Ok? ==> r.value == files + [f]
    ensures UniqueBy(files, FileId) && r.Ok? ==> UniqueBy(r.value, FileId)
  {
    if HasKey(files, FileId, f.id) then Err(DuplicateKey) else Ok(files + [f])
  }

  /** `get_file_by_id` */
  function GetFileById(files: seq<Models.ProcessedFile>, id: nat): (r: Option<Models.ProcessedFile>)
    ensures r.None? <==> !HasKey(files, FileId, id)
    ensures r.Some? ==> r.value in files && r.value.id == id
  {
    FindOne(files, KeyIs(FileId, id))
  }

  /** `get_file_by_filename`: matches the name AND the owner, so another
      user's record with the same name is never returned. */
  function GetFileByFilename(files: seq<Models.ProcessedFile>, filename: string, userId: nat): (r: Option<Models.ProcessedFile>)
    ensures r.Some? ==> r.value in files && r.value.processedFilename == filename && r.value.userId == userId
    ensures r.None? <==> forall i :: 0 <= i < |files| ==> !(files[i].processedFilename == filename && files[i].userId == userId)
  {
    FindOne(files, (f: Models.ProcessedFile) => f.processedFilename == filename && f.userId == userId)
  }

  /** The fields a `$set` on a file record may carry. */
  datatype FilePatch = FilePatch(
    originalFilename: Option<string>, processedFilename: Option<string>, fileSize: Option<int>,
    fileType: Option<string>, processingStatus: Option<string>, processingTime: Option<Option<real>>,
    downloadCount: Option<int>)

  function ApplyFilePatch(f: Models.ProcessedFile, p: FilePatch): (r: Models.ProcessedFile)
    ensures r.id == f.id && r.userId == f.userId && r.createdAt == f.createdAt
    ensures p == FilePatch(None, None, None, None, None, None, None) ==> r == f
  {
    f.(originalFilename := p.originalFilename.GetOr(f.originalFilename),
       processedFilename := p.processedFilename.GetOr(f.processedFilename),
       fileSize := p.fileSize.GetOr(f.fileSize), fileType := p.fileType.GetOr(f.fileType),
       processingStatus := p.processingStatus.GetOr(f.processingStatus),
       processingTime := p.processingTime.GetOr(f.processingTime),
       downloadCount := p.downloadCount.GetOr(f.downloadCount))
  }

  /** `update_file`: true iff a record has the id and the patch changed it. */
  function UpdateFile(files: seq<Models.ProcessedFile>, id: nat, patch: FilePatch): (r: (seq<Models.ProcessedFile>, bool))
    ensures !HasKey(files, FileId, id) ==> r == (files, false)
    ensures UniqueBy(files, FileId) ==> UniqueBy(r.0, FileId)
    ensures UniqueBy(files, FileId) ==> |r.0| == |files| && forall i :: 0 <= i < |files| ==>
      r.0[i] == if files[i].id == id then ApplyFilePatch(files[i], patch) else files[i]
    ensures UniqueBy(files, FileId) ==>
      (r.1 <==> exists i :: 0 <= i < |files| && files[i].id == id && ApplyFilePatch(files[i], patch) != files[i])
  {
    var r := UpdateOne(files, KeyIs(FileId, id), f => ApplyFilePatch(f, patch));
    assert UniqueBy(files, FileId) ==> (UniqueBy(r.0, FileId)
      && (forall i :: 0 <= i < |files| ==> r.0[i] == if files[i].id == id then ApplyFilePatch(files[i], patch) else files[i])
      && (r.1 <==> exists i :: 0 <= i < |files| && files[i].id == id && ApplyFilePatch(files[i], patch) != files[i]))
    by {
      if UniqueBy(files, FileId) {
        UpdateOneByKey(files, FileId, id, f => ApplyFilePatch(f, patch));
      }
    }
    r
  }

  /** `increment_download_count`: true iff a record has the id; that
      record's count goes up by one and nothing else changes. */
  function IncrementDownloadCount(files: seq<Models.ProcessedFile>, id: nat): (r: (seq<Models.ProcessedFile>, bool))
    ensures r.1 <==> HasKey(files, FileId, id)
    ensures |r.0| == |files|
    ensures UniqueBy(files, FileId) ==> UniqueBy(r.0, FileId) && forall i :: 0 <= i < |files| ==>
      r.0[i] == if files[i].id == id then files[i].(downloadCount := files[i].downloadCount + 1) else files[i]
  {
    var bump := (f: Models.ProcessedFile) => f.(downloadCount := f.downloadCount + 1);
    var r := UpdateOne(files, KeyIs(FileId, id), bump);
    assert UniqueBy(files, FileId) ==> (UniqueBy(r.0, FileId)
      && forall i :: 0 <= i < |files| ==> r.0[i] == if files[i].id == id then bump(files[i]) else files[i])
    by {
      if UniqueBy(files, FileId) {
        UpdateOneByKey(files, FileId, id, bump);
      }
    }
    assert HasKey(files, FileId, id) ==> r.1 by {
      if HasKey(files, FileId, id) {
        var k := FindFirst(files, KeyIs(FileId, id)).value;
        assert r.0[k] == bump(files[k]) != files[k];
      }
    }
    r
  }

  /** `delete_file`: true iff a record had the id; afterwards none has it
      and every other record is still there. */
  function DeleteFile(files: seq<Models.ProcessedFile>, id: nat): (r: (seq<Models.ProcessedFile>, bool))
    ensures r.1 <==> HasKey(files, FileId, id)
    ensures !r.1 ==> r.0 == files
    ensures r.1 ==> |r.0| == |files| - 1
    ensures forall i :: 0 <= i < |files| && files[i].id != id ==> files[i] in r.0
    ensures forall i :: 0 <= i < |r.0| ==> r.0[i] in files
    ensures UniqueBy(files, FileId) ==> UniqueBy(r.0, FileId) && !HasKey(r.0, FileId, id)
  {
    var r := DeleteOne(files, KeyIs(FileId, id));
    assert UniqueBy(files, FileId) ==> UniqueBy(r.0, FileId) && !HasKey(r.0, FileId, id) by {
      if UniqueBy(files, FileId) {
        DeleteUniqueKey(files, FileId, id);
      }
    }
    r
  }

  /** Deleting a record removes it from its owner's count. */
  lemma DeleteLowersCount(files: seq<Models.ProcessedFile>, id: nat, i: nat)
    requires UniqueBy(files, FileId) && i < |files| && files[i].id == id
    ensures GetUserFileCount(DeleteFile(files, id).0, files[i].userId) == GetUserFileCount(files, files[i].userId) - 1
  {
    var owner := files[i].userId;
    var a, b := files[..i], files[i + 1..];
    DeleteOneAt(files, KeyIs(FileId, id), i);
    assert DeleteFile(files, id).0 == a + b;
    assert files == a + [files[i]] + b;
    FilterSplit(a, b, files[i], (f: Models.ProcessedFile) => f.userId == owner);
  }

  /** `Filter` over a split with one element in the middle. */
  lemma {:induction false} FilterSplit<T(!new)>(a: seq<T>, b: seq<T>, x: T, keep: T -> bool)
    ensures |Filter(a + [x] + b, keep)| == |Filter(a + b, keep)| + (if keep(x) then 1 else 0)
    decreases |a|
  {
    if a == [] {
      assert a + [x] + b == [x] + b && a + b == b;
      assert ([x] + b)[1..] == b;
    } else {
      assert (a + [x] + b)[1..] == a[1..] + [x] + b;
      assert (a + b)[1..] == a[1..] + b;
      FilterSplit(a[1..], b, x, keep);
    }
  }
}

=== FILE: roman.dfy ===
/** `Process.is_valid_roman_numeral` (src/process.py): the upper-cased text
    must match `^M{0,4}(CM|CD|D?C{0,3})(XC|XL|L?X{0,3})(IX|IV|V?I{0,3})$`.

    The pattern's language is given declaratively (`InPattern`: some split
    into one word of each group) and recognised deterministically
    (`MatchesPattern`: each group is the longest run over its letters);
    `MatchesPatternIff` proves the two agree on every text. */
module Roman {
  import opened Common

  /** `w` is `c` repeated at most `max` times. */
  predicate Repeat(w: string, c: char, max: nat) {
    |w| <= max && forall k :: 0 <= k < |w| ==> w[k] == c
  }

  /** One decimal group with digit letters `one`, `five` and `ten`:
      `(one ten | one five | five? one{0,3})`. */
  predicate Group(w: string, one: char, five: char, ten: char) {
    || w == [one, ten]
    || w == [one, five]
    || Repeat(w, one, 3)
    || (|w| > 0 && w[0] == five && Repeat(w[1..], one, 3))
  }

  /** `M{0,4}` */
  predicate IsThousands(w: string) { Repeat(w, 'M', 4) }
  /** `CM|CD|D?C{0,3}` */
  predicate IsHundreds(w: string) { Group(w, 'C', 'D', 'M') }
  /** `XC|XL|L?X{0,3}` */
  predicate IsTens(w: string) { Group(w, 'X', 'L', 'C') }
  /** `IX|IV|V?I{0,3}` */
  predicate IsUnits(w: string) { Group(w, 'I', 'V', 'X') }

  const ThousandsLetters: set<char> := {'M'}
  const HundredsLetters: set<char> := {'C', 'D', 'M'}
  const TensLetters: set<char> := {'X', 'L', 'C'}

  /** The language of the anchored pattern: one word of each group, in order. */
  ghost predicate InPattern(u: string) {
    exists t, h, x, i :: IsThousands(t) && IsHundreds(h) && IsTens(x) && IsUnits(i) && u == t + h + x + i
  }

  /** Deterministic recogniser: the thousands group is the longest run of
      `M`, the hundreds group the longest run over `CDM` after it, the tens
      group the longest run over `XLC` after that, and the units group is
      the rest. */
  predicate MatchesPattern(u: string) {
    var a := Span(u, ThousandsLetters);
    IsThousands(u[..a]) && MatchesBelowThousands(u[a..])
  }

  predicate MatchesBelowThousands(r: string) {
    var b := Span(r, HundredsLetters);
    IsHundreds(r[..b]) && MatchesBelowHundreds(r[b..])
  }

  predicate MatchesBelowHundreds(r: string) {
    var c := Span(r, TensLetters);
    IsTens(r[..c]) && IsUnits(r[c..])
  }

  /** `re.match` with a trailing `$`: Python's `$` also matches just before
      a final newline. */
  predicate PatternMatch(u: string) {
    MatchesPattern(u) || (|u| > 0 && u[|u| - 1] == '\n' && MatchesPattern(u[..|u| - 1]))
  }

  /** `is_valid_roman_numeral(s)` */
  predicate IsValidRomanNumeral(s: string) {
    PatternMatch(Upper(s))
  }

  /** A group uses only its three letters and starts with `one` or `five`. */
  lemma GroupShape(w: string, one: char, five: char, ten: char)
    requires Group(w, one, five, ten)
    ensures forall k :: 0 <= k < |w| ==> w[k] == one || w[k] == five || w[k] == ten
    ensures |w| == 0 || w[0] == one || w[0] == five
  {
  }

  lemma InPatternMatches(u: string)
    requires InPattern(u)
    ensures MatchesPattern(u)
  {
    var t, h, x, i :| IsThousands(t) && IsHundreds(h) && IsTens(x) && IsUnits(i) && u == t + h + x + i;
    MatchesOfPieces(u, t, h, x, i);
  }

  /** The longest runs find exactly the groups of any split into the four groups. */
  lemma MatchesOfPieces(u: string, t: string, h: string, x: string, i: string)
    requires IsThousands(t) && IsHundreds(h) && IsTens(x) && IsUnits(i)
    requires u == t + h + x + i
    ensures MatchesPattern(u)
  {
    var xi := x + i;
    var hxi := h + xi;
    Regroup(t, h, x, i);
    BelowHundredsOfPieces(x, i);
    HeadBelowHundreds(x, i);
    BelowThousandsOfPieces(h, xi);
    HeadBelowThousands(h, xi);
    MatchesOfThousands(t, hxi);
  }

  lemma Regroup(t: string, h: string, x: string, i: string)
    ensures t + h + x + i == t + (h + (x + i))
  {
  }

  /** What follows the hundreds starts with a tens or units letter. */
  lemma HeadBelowHundreds(x: string, i: string)
    requires IsTens(x) && IsUnits(i)
    ensures |x + i| == 0 || (x + i)[0] == 'X' || (x + i)[0] == 'L' || (x + i)[0] == 'I' || (x + i)[0] == 'V'
  {
    GroupShape(x, 'X', 'L', 'C');
    GroupShape(i, 'I', 'V', 'X');
    if |x| == 0 {
      assert x + i == i;
    } else {
      assert (x + i)[0] == x[0];
    }
  }

  /** What follows the thousands starts with a letter other than `M`. */
  lemma HeadBelowThousands(h: string, xi: string)
    requires IsHundreds(h)
    requires |xi| == 0 || xi[0] == 'X' || xi[0] == 'L' || xi[0] == 'I' || xi[0] == 'V'
    ensures |h + xi| == 0 || (h + xi)[0] == 'C' || (h + xi)[0] == 'D' || (h + xi)[0] == 'X' || (h + xi)[0] == 'L' || (h + xi)[0] == 'I' || (h + xi)[0] == 'V'
  {
    GroupShape(h, 'C', 'D', 'M');
    if |h| == 0 {
      assert h + xi == xi;
    } else {
      assert (h + xi)[0] == h[0];
    }
  }

  lemma MatchesOfThousands(t: string, hxi: string)
    requires IsThousands(t) && MatchesBelowThousands(hxi)
    requires |hxi| == 0 || hxi[0] == 'C' || hxi[0] == 'D' || hxi[0] == 'X' || hxi[0] == 'L' || hxi[0] == 'I' || hxi[0] == 'V'
    ensures MatchesPattern(t + hxi)
  {
    ThousandsSplit(t, hxi);
    assert (t + hxi)[..|t|] == t && (t + hxi)[|t|..] == hxi;
  }

  lemma BelowHundredsOfPieces(x: string, i: string)
    requires IsTens(x) && IsUnits(i)
    ensures MatchesBelowHundreds(x + i)
  {
    GroupShape(x, 'X', 'L', 'C');
    GroupShape(i, 'I', 'V', 'X');
    SpanOfSplit(x, i, TensLetters);
    assert (x + i)[..|x|] == x && (x + i)[|x|..] == i;
  }

  lemma BelowThousandsOfPieces(h: string, xi: string)
    requires IsHundreds(h) && MatchesBelowHundreds(xi)
    requires |xi| == 0 || xi[0] == 'X' || xi[0] == 'L' || xi[0] == 'I' || xi[0] == 'V'
    ensures MatchesBelowThousands(h + xi)
  {
    GroupShape(h, 'C', 'D', 'M');
    SpanOfSplit(h, xi, HundredsLetters);
    assert (h + xi)[..|h|] == h && (h + xi)[|h|..] == xi;
  }

  lemma ThousandsSplit(t: string, hxi: string)
    requires IsThousands(t)
    requires |hxi| == 0 || hxi[0] == 'C' || hxi[0] == 'D' || hxi[0] == 'X' || hxi[0] == 'L' || hxi[0] == 'I' || hxi[0] == 'V'
    ensures Span(t + hxi, ThousandsLetters) == |t|
  {
    SpanOfSplit(t, hxi, ThousandsLetters);
  }

  lemma MatchesInPattern(u: string)
    requires MatchesPattern(u)
    ensures InPattern(u)
  {
    var a := Span(u, ThousandsLetters);
    var r1 := u[a..];
    var b := Span(r1, HundredsLetters);
    var r2 := r1[b..];
    var c := Span(r2, TensLetters);
    Reassemble(u, a, b, c);
    InPatternOfPieces(u, u[..a], r1[..b], r2[..c], r2[c..]);
  }

  lemma InPatternOfPieces(u: string, t: string, h: string, x: string, i: string)
    requires IsThousands(t) && IsHundreds(h) && IsTens(x) && IsUnits(i)
    requires u == t + h + x + i
    ensures InPattern(u)
  {
  }

  /** Cutting `u` three times and gluing the four pieces gives `u` back. */
  lemma Reassemble(u: string, a: nat, b: nat, c: nat)
    requires a <= |u| && b <= |u[a..]| && c <= |u[a..][b..]|
    ensures u == u[..a] + u[a..][..b] + u[a..][b..][..c] + u[a..][b..][c..]
  {
    var r1 := u[a..];
    var r2 := r1[b..];
    assert r2 == r2[..c] + r2[c..];
    ReassembleTwo(r1, b, c);
    assert u == u[..a] + r1;
  }

  lemma ReassembleTwo(r1: string, b: nat, c: nat)
    requires b <= |r1| && c <= |r1[b..]|
    ensures r1 == r1[..b] + r1[b..][..c] + r1[b..][c..]
  {
    var r2 := r1[b..];
    assert r2 == r2[..c] + r2[c..];
    assert r1 == r1[..b] + r2;
  }

  /** The recogniser accepts exactly the language of the pattern. */
  lemma MatchesPatternIff(u: string)
    ensures MatchesPattern(u) <==> InPattern(u)
  {
    if MatchesPattern(u) {
      MatchesInPattern(u);
    }
    if InPattern(u) {
      InPatternMatches(u);
    }
  }

  /** Letters are case-insensitive: a numeral and its lower-case spelling agree. */
  lemma CaseInsensitive(s: string)
    ensures IsValidRomanNumeral(s) <==> IsValidRomanNumeral(Lower(s))
  {
    assert Upper(s) == Upper(Lower(s));
  }

  /** Accepted samples: the empty text, lower case, and the largest numeral. */
  lemma AcceptedSamples()
    ensures IsValidRomanNumeral("")
    ensures IsValidRomanNumeral("iv")
    ensures IsValidRomanNumeral("MMMMCMXCIX")
  {
    MatchesOfPieces("", "", "", "", "");
    assert Upper("") == "";
    AcceptLowerIv();
    AcceptLargest();
  }

  lemma AcceptLowerIv()
    ensures IsValidRomanNumeral("iv")
  {
    assert Upper("iv") == "IV";
    assert IsUnits("IV");
    MatchesOfPieces("IV", "", "", "", "IV");
  }

  lemma AcceptUpperIv()
    ensures IsValidRomanNumeral("IV")
  {
    LowerFree("IV");
    assert IsUnits("IV");
    MatchesOfPieces("IV", "", "", "", "IV");
  }

  lemma AcceptLargest()
    ensures IsValidRomanNumeral("MMMMCMXCIX")
  {
    var u := "MMMMCMXCIX";
    assert Upper(u) == u by {
      LowerFree(u);
    }
    assert IsThousands("MMMM") && IsHundreds("CM") && IsTens("XC") && IsUnits("IX");
    MatchesOfPieces(u, "MMMM", "CM", "XC", "IX");
  }

  /** Upper-casing a text without lower-case letters changes nothing. */
  lemma LowerFree(u: string)
    requires forall k :: 0 <= k < |u| ==> !IsLower(u[k])
    ensures Upper(u) == u
  {
  }

  /** Rejected samples: four units, `IL`, and five thousands. */
  lemma RejectedSamples()
    ensures !IsValidRomanNumeral("IIII")
    ensures !IsValidRomanNumeral("IL")
    ensures !IsValidRomanNumeral("MMMMM")
  {
    assert Upper("IIII") == "IIII";
    assert Span("IIII", ThousandsLetters) == 0;
    assert Span("IIII", HundredsLetters) == 0;
    assert Span("IIII", TensLetters) == 0;
    assert !IsUnits("IIII");
    assert !MatchesBelowHundreds("IIII");
    assert Upper("IL") == "IL";
    assert Span("IL", TensLetters) == 0;
    assert !IsUnits("IL") by { assert "IL"[1] != 'I'; }
    assert Upper("MMMMM") == "MMMMM";
    assert Span("MMMMM", ThousandsLetters) == 5 by {
      SpanOfSplit("MMMMM", "", ThousandsLetters);
    }
  }
}

=== FILE: server.dfy ===
/** The upload and download endpoints of the current service
    (src/backend/main.py). The file system is the set of existing paths;
    saving the upload and running the processor is one abstract outcome,
    and a successful run leaves the output file at its path. */
module Server {
  import opened Common
  import Pipeline

  /** `HTTPException(status_code, detail)` */
  datatype HttpError = HttpError(status: int, detail: string)

  /** The JSON body of a successful `/process` call. */
  datatype Reply = Reply(message: string, downloadUrl: string, filename: string)

  /** How saving and processing the upload ended. A run that raises may
      already have written (part of) the output file: the processor closes
      its documents and removes its scratch folder after writing it. */
  datatype Outcome = Processed | Raised(message: string, wroteOutput: bool)

  const UnsupportedUpload: string := "Chỉ hỗ trợ file PDF, PNG, JPG, JPEG"
  const ProcessingFailed: string := "Lỗi xử lý file: "
  const FileMissing: string := "File không tồn tại"
  const SuccessMessage: string := "Xử lý file thành công"
  const TempDir: string := "temp_files/"
  const OutputDir: string := "output_files/"
  const DownloadRoute: string := "/download/"

  /** `"ocr_" + filename`, with `.pdf` appended unless that already ends in
      `.pdf` (a case-sensitive test). */
  function OutputName(filename: string): (r: string)
    ensures StartsWith(r, "ocr_") && EndsWith(r, ".pdf")
    ensures EndsWith(filename, ".pdf") ==> r == "ocr_" + filename
    ensures !EndsWith(filename, ".pdf") ==> r == "ocr_" + filename + ".pdf"
  {
    var name := "ocr_" + filename;
    OcrPrefixKeepsPdfSuffix(filename);
    StartsWithAppend("ocr_", filename);
    if EndsWith(name, ".pdf") then name
    else
      EndsWithSelfAppend(name, ".pdf");
      assert name + ".pdf" == "ocr_" + (filename + ".pdf");
      StartsWithAppend("ocr_", filename + ".pdf");
      name + ".pdf"
  }

  /** `"ocr_"` has no dot, so it cannot take part in a `.pdf` suffix. */
  lemma OcrPrefixKeepsPdfSuffix(filename: string)
    ensures EndsWith("ocr_" + filename, ".pdf") <==> EndsWith(filename, ".pdf")
  {
    var s := "ocr_" + filename;
    if |filename| >= 4 {
      EndsWithAppend("ocr_", filename, ".pdf");
    } else {
      assert s[|s| - 4] == "ocr_"[|filename|];
    }
  }

  /** An upload is the request's file name, the files present, and how
      saving and processing went. The result is the response and the files
      present afterwards. */
  function ProcessUpload(fs: set<string>, filename: string, outcome: Outcome): (r: (Result<Reply, HttpError>, set<string>))
    ensures !Pipeline.IsSupportedName(filename) ==> r == (Err(HttpError(400, UnsupportedUpload)), fs)
    ensures Pipeline.IsSupportedName(filename) ==> TempDir + filename !in r.1
    ensures Pipeline.IsSupportedName(filename) && outcome.Raised? ==>
      r.0 == Err(HttpError(500, ProcessingFailed + outcome.message))
      && r.1 - {OutputDir + OutputName(filename)} == fs - {TempDir + filename, OutputDir + OutputName(filename)}
      && (OutputDir + OutputName(filename) in r.1 <==> OutputDir + OutputName(filename) in fs || outcome.wroteOutput)
    ensures r.0.Ok? <==> Pipeline.IsSupportedName(filename) && outcome.Processed?
    ensures r.0.Ok? ==> r.0.value.filename == OutputName(filename) && OutputDir + OutputName(filename) in r.1
    ensures r.0.Ok? ==> r.0.value.downloadUrl == DownloadRoute + r.0.value.filename && r.0.value.message == SuccessMessage
    ensures r.0.Ok? ==> r.1 == (fs + {OutputDir + OutputName(filename)}) - {TempDir + filename}
  {
    if !Pipeline.IsSupportedName(filename) then (Err(HttpError(400, UnsupportedUpload)), fs)
    else
      var input := TempDir + filename;
      var output := OutputName(filename);
      match outcome
      case Processed =>
        // the processor writes `output_files/<output>`; the input is removed afterwards
        (Ok(Reply(SuccessMessage, DownloadRoute + output, output)), (fs + {OutputDir + output}) - {input})
      case Raised(message, wrote) =>
        // the handler removes only the input; a written output stays
        var written := if wrote then fs + {OutputDir + output} else fs;
        (Err(HttpError(500, ProcessingFailed + message)), written - {input})
  }

  /** `GET /download/{name}`: the file under `output_files/`, or 404. */
  function Download(fs: set<string>, name: string): (r: Result<string, HttpError>)
    ensures r.Ok? <==> OutputDir + name in fs
    ensures r.Ok? ==> r.value == OutputDir + name
    ensures r.Err? ==> r.error == HttpError(404, FileMissing)
  {
    if OutputDir + name in fs then Ok(OutputDir + name) else Err(HttpError(404, FileMissing))
  }

  /** The application's handlers. */
  datatype Endpoint = ProcessEndpoint | DownloadEndpoint(name: string) | RootEndpoint | HealthEndpoint

  const NotFound: string := "Not Found"
  const MethodNotAllowed: string := "Method Not Allowed"

  /** What a `{output_filename}` parameter matches: one non-empty path
      segment. */
  predicate IsSegment(s: string) {
    s != "" && '/' !in s
  }

  /** The path parameter of a download path. */
  function DownloadName(path: string): string {
    if StartsWith(path, DownloadRoute) then path[|DownloadRoute|..] else ""
  }

  /** A path one of the four route decorators declares. */
  predicate IsDeclaredPath(path: string) {
    path == "/process" || path == "/" || path == "/health"
    || (StartsWith(path, DownloadRoute) && IsSegment(DownloadName(path)))
  }

  /** Routing a request to its handler: a path no route declares is a 404,
      a declared path under another method a 405; only `/process` takes
      POST, the others take GET. */
  function Route(verb: string, path: string): (r: Result<Endpoint, HttpError>)
    ensures r.Err? <==> !IsDeclaredPath(path) || (path == "/process" <==> verb != "POST") || (path != "/process" && verb != "GET")
    ensures !IsDeclaredPath(path) ==> r == Err(HttpError(404, NotFound))
    ensures IsDeclaredPath(path) && r.Err? ==> r.error == HttpError(405, MethodNotAllowed)
    ensures r == Ok(ProcessEndpoint) <==> verb == "POST" && path == "/process"
    ensures r.Ok? && r.value.DownloadEndpoint? ==> path == DownloadRoute + r.value.name && IsSegment(r.value.name)
  {
    if !IsDeclaredPath(path) then Err(HttpError(404, NotFound))
    else if path == "/process" then (if verb == "POST" then Ok(ProcessEndpoint) else Err(HttpError(405, MethodNotAllowed)))
    else if verb != "GET" then Err(HttpError(405, MethodNotAllowed))
    else if path == "/" then Ok(RootEndpoint)
    else if path == "/health" then Ok(HealthEndpoint)
    else Ok(DownloadEndpoint(DownloadName(path)))
  }

  /** `GET /download/<name>` reaches the download handler with `name`
      exactly when `name` is one path segment. */
  lemma DownloadRouted(name: string)
    ensures Route("GET", DownloadRoute + name) == (if IsSegment(name) then Ok(DownloadEndpoint(name)) else Err(HttpError(404, NotFound)))
  {
    var path := DownloadRoute + name;
    StartsWithAppend(DownloadRoute, name);
    assert path[|DownloadRoute|..] == name;
    assert |path| >= 10;
  }

  /** The processor is handed `temp_files/<name>`; because `temp_files/`
      has no dot, it accepts exactly the uploads the endpoint accepts, so
      its `ValueError` for other extensions cannot be reached from here. */
  lemma AcceptedUploadIsDispatched(filename: string)
    requires Pipeline.IsSupportedName(filename)
    ensures Pipeline.ProcessFile(TempDir + filename, Some(OutputDir + OutputName(filename))).Ok?
    ensures Pipeline.ProcessFile(TempDir + filename, Some(OutputDir + OutputName(filename))).value.output ==
      OutputDir + OutputName(filename)
  {
    Pipeline.SupportedUnderDir(TempDir, filename);
  }

  /** An uploaded name without `/` gives an output name without `/`. */
  lemma OutputNameHasNoSlash(filename: string)
    requires '/' !in filename
    ensures '/' !in OutputName(filename)
  {
    var output := OutputName(filename);
    var full := "ocr_" + filename + ".pdf";
    assert forall k :: 0 <= k < |full| ==> full[k] == '/' ==> 4 <= k < 4 + |filename| && filename[k - 4] == '/';
    assert forall k :: 0 <= k < |output| ==> output[k] == full[k];
  }

  /** The round trip the client relies on: after a successful upload of a
      name without `/`, the text after the last `/` of `download_url` is a
      name the download endpoint finds. */
  lemma DownloadAfterUpload(fs: set<string>, filename: string)
    requires '/' !in filename && Pipeline.IsSupportedName(filename)
    ensures ProcessUpload(fs, filename, Processed).0.Ok?
    ensures LastSegment(ProcessUpload(fs, filename, Processed).0.value.downloadUrl, '/') == OutputName(filename)
    ensures Download(ProcessUpload(fs, filename, Processed).1, OutputName(filename)).Ok?
  {
    var output := OutputName(filename);
    OutputNameHasNoSlash(filename);
    assert DownloadRoute + output == "/download" + ['/'] + output;
    LastSegmentAfterSep("/download", '/', output);
  }

  /** A run that raised after writing its output still answers 500, yet
      the output stays downloadable under the name the reply would have
      carried. */
  lemma FailedRunLeavesOutput(fs: set<string>, filename: string, message: string)
    requires Pipeline.IsSupportedName(filename)
    ensures var after := ProcessUpload(fs, filename, Raised(message, true));
      after.0 == Err(HttpError(500, ProcessingFailed + message))
      && Download(after.1, OutputName(filename)) == Ok(OutputDir + OutputName(filename))
  {
    var output := OutputDir + OutputName(filename);
    assert output != TempDir + filename by {
      assert output[0] == 'o' && (TempDir + filename)[0] == 't';
    }
  }

  /** An upper-case `.PDF` passes the case-insensitive upload check but not
      the case-sensitive naming test, so a second extension is added. */
  lemma UpperCasePdfGetsSecondExtension(stem: string)
    ensures Pipeline.IsSupportedName(stem + ".PDF")
    ensures OutputName(stem + ".PDF") == "ocr_" + stem + ".PDF.pdf"
  {
    var f := stem + ".PDF";
    assert f[|f| - 4..] == ".PDF";
    LowerAppend(stem, ".PDF");
    assert Lower(".PDF") == ".pdf";
    EndsWithSelfAppend(Lower(stem), ".pdf");
    assert "ocr_" + f + ".pdf" == "ocr_" + stem + ".PDF.pdf";
  }
}

=== FILE: spacing.dfy ===
/** `Process.fix_text_spacing` (src/process.py): sixteen regular-expression
    substitutions that put a space after list numbers, section numbers,
    Roman numerals and punctuation glued to the next word.

    Each substitution is modelled by the deterministic matcher its pattern
    denotes under Python's greedy, backtracking `re` semantics:
    - the six `^`-anchored rules (without MULTILINE) match at most once, at
      position 0;
    - the ten unanchored rules are applied by `re.sub`, which scans left to
      right and resumes after each match, so matches never overlap.
    Every rule only inserts spaces, except the second, which also removes
    the whitespace between a leading number and its separator; hence the
    whole rewrite keeps the non-whitespace text as it was. */
module Spacing {
  import opened Common
  import Roman

  /** `(\.|:)` */
  predicate IsSep(c: char) { c == '.' || c == ':' }

  /** The character classes the patterns repeat with `+`, `{m,n}` or `*`. */
  datatype Class = Digit | Alnum | Letter | Space | RomanLetter | NotCloseParen

  predicate InClass(c: char, k: Class) {
    match k
    case Digit => IsDigit(c)
    case Alnum => IsAlnum(c)
    case Letter => IsLetter(c)
    case Space => IsSpace(c)
    // `[IVXLCDM]` under `re.IGNORECASE`
    case RomanLetter =>
      var u := UpperChar(c);
      u == 'I' || u == 'V' || u == 'X' || u == 'L' || u == 'C' || u == 'D' || u == 'M'
    case NotCloseParen => c != ')'
  }

  /** Length of the longest prefix of `s` in class `k`: what a greedy
      repetition of `k` consumes. */
  function Run(s: string, k: Class): (n: nat)
    ensures n <= |s|
    ensures forall i :: 0 <= i < n ==> InClass(s[i], k)
    ensures n < |s| ==> !InClass(s[n], k)
  {
    if |s| == 0 || !InClass(s[0], k) then 0 else 1 + Run(s[1..], k)
  }

  /** `s` with one space inserted before position `p`. */
  function InsertSpace(s: string, p: nat): (r: string)
    requires p <= |s|
    ensures |r| == |s| + 1
    ensures r[..p] == s[..p] && r[p] == ' ' && r[p + 1..] == s[p..]
    ensures NonSpace(r) == NonSpace(s)
  {
    NonSpaceInsertSpace(s[..p], s[p..]);
    assert s == s[..p] + s[p..];
    s[..p] + " " + s[p..]
  }

  // ---------------------------------------------------------------------
  // The anchored rules (src/process.py:61-71)
  // ---------------------------------------------------------------------

  /** `s` starts with `d` digits, a separator and a non-space. */
  predicate HasNumberHead(s: string, d: nat) {
    d + 1 < |s| && (forall k :: 0 <= k < d ==> IsDigit(s[k])) && IsSep(s[d]) && !IsSpace(s[d + 1])
  }

  /** `^(\d{1,2})(\.|:)([^\s])` -> `\1\2 \3`: two digits are tried before one. */
  function SpaceAfterLeadingNumber(s: string): (r: string)
    ensures NonSpace(r) == NonSpace(s)
    ensures r != s <==> HasNumberHead(s, 2) || HasNumberHead(s, 1)
    ensures HasNumberHead(s, 2) ==> r == InsertSpace(s, 3)
    ensures !HasNumberHead(s, 2) && HasNumberHead(s, 1) ==> r == InsertSpace(s, 2)
  {
    if |s| >= 4 && IsDigit(s[0]) && IsDigit(s[1]) && IsSep(s[2]) && !IsSpace(s[3]) then InsertSpace(s, 3)
    else if |s| >= 3 && IsDigit(s[0]) && IsSep(s[1]) && !IsSpace(s[2]) then InsertSpace(s, 2)
    else s
  }

  /** How many digits `\d{1,2}` takes at the start of `s`. */
  function LeadingDigits(s: string): (d: nat)
    ensures d <= 2 && d <= |s|
    ensures forall i :: 0 <= i < d ==> IsDigit(s[i])
  {
    var n := Run(s, Digit);
    if n >= 2 then 2 else n
  }

  /** `^(\d{1,2})\s+(\.|:)([^\s])` -> `\1\2 \3`: the whitespace between the
      number and its separator is removed and one space follows the separator.
      `\s+` is greedy, and a shorter run would leave whitespace where the
      separator must be, so the run is the longest one. */
  function CloseLeadingNumberGap(s: string): (r: string)
    ensures NonSpace(r) == NonSpace(s)
  {
    var d := LeadingDigits(s);
    var after := s[d..];
    var w := Run(after, Space);
    if d >= 1 && w >= 1 && w + 1 < |after| && IsSep(after[w]) && !IsSpace(after[w + 1]) then
      ClosedGapKeepsText(s[..d], after, w);
      assert s == s[..d] + after;
      s[..d] + [after[w]] + " " + after[w + 1..]
    else s
  }

  lemma ClosedGapKeepsText(head: string, after: string, w: nat)
    requires w < |after|
    requires forall i :: 0 <= i < w ==> IsSpace(after[i])
    ensures NonSpace(head + [after[w]] + " " + after[w + 1..]) == NonSpace(head + after)
  {
    var gap := after[..w];
    assert after == gap + [after[w]] + after[w + 1..];
    GapRemovalKeepsText(head, gap, after[w], after[w + 1..]);
    assert head + after == head + gap + [after[w]] + after[w + 1..];
  }

  /** Dropping a whitespace gap and inserting a space after the next
      character keeps the non-whitespace text. */
  lemma GapRemovalKeepsText(head: string, gap: string, c: char, rest: string)
    requires forall i :: 0 <= i < |gap| ==> IsSpace(gap[i])
    ensures NonSpace(head + [c] + " " + rest) == NonSpace(head + gap + [c] + rest)
  {
    var tail := [c] + rest;
    calc {
      NonSpace(head + [c] + " " + rest);
      == { NonSpaceInsertSpace(head + [c], rest); }
      NonSpace(head + [c] + rest);
      == { assert head + [c] + rest == head + tail; NonSpaceAppend(head, tail); }
      NonSpace(head) + NonSpace(tail);
      == { NonSpaceOfSpaces(gap); NonSpaceAppend(head, gap); }
      NonSpace(head + gap) + NonSpace(tail);
      == { NonSpaceAppend(head + gap, tail); assert head + gap + [c] + rest == (head + gap) + tail; }
      NonSpace(head + gap + [c] + rest);
    }
  }

  /** The leading run that `^([IVXLCDM]{1,10})(\.|:)([^\s])` (case-insensitive)
      can match: the longest run of numeral letters, if it has 1 to 10 letters
      and is followed by a separator and a non-space. Backtracking to a
      shorter run would leave a numeral letter where the separator must be. */
  predicate HasRomanHead(s: string) {
    var n := Run(s, RomanLetter);
    1 <= n <= 10 && n + 1 < |s| && IsSep(s[n]) && !IsSpace(s[n + 1])
  }

  /** The `roman_replacer` rule: a space after the separator only when the
      run is a valid numeral; otherwise the match is put back unchanged. */
  function SpaceAfterLeadingRoman(s: string): (r: string)
    ensures r != s <==> HasRomanHead(s) && Roman.IsValidRomanNumeral(s[..Run(s, RomanLetter)])
    ensures r != s ==> r == InsertSpace(s, Run(s, RomanLetter) + 1)
    ensures NonSpace(r) == NonSpace(s)
  {
    var n := Run(s, RomanLetter);
    if HasRomanHead(s) && Roman.IsValidRomanNumeral(s[..n]) then InsertSpace(s, n + 1) else s
  }

  /** `^([a-zA-Z])(\.|:)([^\s])` -> `\1\2 \3` */
  function SpaceAfterLeadingLetter(s: string): (r: string)
    ensures NonSpace(r) == NonSpace(s)
    ensures r != s <==> |s| >= 3 && IsLetter(s[0]) && IsSep(s[1]) && !IsSpace(s[2])
  {
    if |s| >= 3 && IsLetter(s[0]) && IsSep(s[1]) && !IsSpace(s[2]) then InsertSpace(s, 2) else s
  }

  /** `^(\([0-9a-zA-Z]+\))([^\s])` -> `\1 \2` */
  function SpaceAfterLeadingParen(s: string): (r: string)
    ensures NonSpace(r) == NonSpace(s)
    ensures r != s <==> HasParenHead(s)
    ensures r != s ==> r == InsertSpace(s, Run(s[1..], Alnum) + 2)
  {
    if HasParenHead(s) then InsertSpace(s, Run(s[1..], Alnum) + 2) else s
  }

  /** `s` starts with `(`, a non-empty alphanumeric run, `)` and a non-space. */
  predicate HasParenHead(s: string) {
    |s| >= 1 && s[0] == '(' &&
    var n := Run(s[1..], Alnum);
    n >= 1 && n + 2 < |s| && s[n + 1] == ')' && !IsSpace(s[n + 2])
  }

  /** Having read a digit run that ends at `i`, extends over further
      `.digits` groups: returns the end of the longest `\d+(\.\d+)*` prefix
      and the position of its last dot (`last` when no group follows). */
  function DottedRun(s: string, i: nat, last: int): (res: (nat, int))
    requires i <= |s|
    ensures i <= res.0 <= |s|
    ensures res.1 == last || (i <= res.1 < res.0 && s[res.1] == '.')
    ensures res.0 < |s| && s[res.0] == '.' ==> res.0 + 1 == |s| || !IsDigit(s[res.0 + 1])
    decreases |s| - i
  {
    if i + 1 < |s| && s[i] == '.' && IsDigit(s[i + 1]) then
      DottedRun(s, i + 1 + Run(s[i + 1..], Digit), i)
    else (i, last)
  }

  /** `^(\d+(?:\.\d+)*\.)([^\s])` -> `\1 \2`. With the longest prefix
      `d0.d1. ... .dk` followed by `c`: the greedy star first tries all `k`
      groups, which succeeds when `c` is a dot followed by a non-space; it
      then backs off one group, which always succeeds (the dot before `dk`
      is followed by a digit) when `k >= 1`. */
  function SpaceAfterLeadingSection(s: string): (r: string)
    ensures NonSpace(r) == NonSpace(s)
    ensures r == s || |r| == |s| + 1
  {
    var d0 := Run(s, Digit);
    if d0 == 0 then s
    else
      var (p, last) := DottedRun(s, d0, -1);
      if p + 1 < |s| && s[p] == '.' && !IsSpace(s[p + 1]) then InsertSpace(s, p + 1)
      else if last >= 0 then InsertSpace(s, last + 1)
      else s
  }

  // ---------------------------------------------------------------------
  // The unanchored rules (src/process.py:72-81)
  // ---------------------------------------------------------------------

  datatype GlobalRule =
    | ParenThenLetter          // `(\([^)]+\))([a-zA-Z])` -> `\1 \2`
    | AlnumThenParen           // `([a-zA-Z0-9])\(` -> `\1 (`
    | CommaBetweenAlnums       // `([a-zA-Z0-9]),([a-zA-Z0-9])` -> `\1, \2`
    | DotBeforeDigit           // `([a-zA-Z])\.(\d)` -> `\1. \2`
    | DotBeforeCapital         // `([a-z])\.([A-Z])` -> `\1. \2`
    | LetterThenBracket        // `([a-zA-Z])\[` -> `\1 [`
    | BracketThenLetter        // `\]([a-zA-Z])` -> `] \1`
    | ColonBetweenLetters      // `([a-zA-Z]):([a-zA-Z])` -> `\1: \2`
    | SemicolonBetweenLetters  // `([a-zA-Z]);([a-zA-Z])` -> `\1; \2`
    | HyphenBetweenWords       // `([a-zA-Z]{3,})-([a-zA-Z]{3,})` -> `\1 - \2`

  /** The rules in the order the source applies them. */
  const GlobalRules: seq<GlobalRule> := [
    ParenThenLetter, AlnumThenParen, CommaBetweenAlnums, DotBeforeDigit, DotBeforeCapital,
    LetterThenBracket, BracketThenLetter, ColonBetweenLetters, SemicolonBetweenLetters, HyphenBetweenWords
  ]

  /** A match ending before `end`, to be replaced by `repl`. */
  datatype Hit = Hit(end: nat, repl: string)

  /** A hit is sound at `i` when it covers a non-empty stretch from `i` and
      its replacement has the same non-whitespace text as that stretch. */
  predicate SoundHit(s: string, i: nat, h: Hit) {
    i < h.end <= |s| && NonSpace(h.repl) == NonSpace(s[i..h.end]) && |h.repl| >= h.end - i
  }

  /** A two-character match rewritten with a space between its characters. */
  function SpaceInPair(s: string, i: nat): (h: Hit)
    requires i + 1 < |s|
    ensures h.end == i + 2 && h.repl == [s[i], ' ', s[i + 1]]
    ensures SoundHit(s, i, h)
  {
    assert s[i..i + 2] == [s[i]] + [s[i + 1]];
    NonSpaceInsertSpace([s[i]], [s[i + 1]]);
    Hit(i + 2, [s[i], ' ', s[i + 1]])
  }

  /** A three-character match rewritten with a space before its last character. */
  function SpaceInTriple(s: string, i: nat): (h: Hit)
    requires i + 2 < |s|
    ensures h.end == i + 3 && h.repl == [s[i], s[i + 1], ' ', s[i + 2]]
    ensures SoundHit(s, i, h)
  {
    assert s[i..i + 3] == [s[i], s[i + 1]] + [s[i + 2]];
    assert [s[i], s[i + 1], ' ', s[i + 2]] == [s[i], s[i + 1]] + " " + [s[i + 2]];
    NonSpaceInsertSpace([s[i], s[i + 1]], [s[i + 2]]);
    Hit(i + 3, [s[i], s[i + 1], ' ', s[i + 2]])
  }

  /** `x m y` with `x` in `a`, literal `m`, `y` in `b`, rewritten to `x m y` with a space after `m`. */
  function TripleAt(s: string, i: nat, a: Class, m: char, b: Class): (h: Option<Hit>)
    requires i < |s|
    ensures h.Some? <==> i + 2 < |s| && InClass(s[i], a) && s[i + 1] == m && InClass(s[i + 2], b)
    ensures h.Some? ==> h.value.repl == [s[i], m, ' ', s[i + 2]] && SoundHit(s, i, h.value)
  {
    if i + 2 < |s| && InClass(s[i], a) && s[i + 1] == m && InClass(s[i + 2], b) then
      Some(SpaceInTriple(s, i))
    else None
  }

  /** `(\([^)]+\))([a-zA-Z])`: `[^)]+` is greedy and stops only at `)`, so
      the group closes at the first `)` after the opening one. */
  function ParenThenLetterAt(s: string, i: nat): (h: Option<Hit>)
    requires i < |s|
    ensures h.Some? ==> SoundHit(s, i, h.value)
  {
    if s[i] == '(' then
      var q := i + 1 + Run(s[i + 1..], NotCloseParen);
      if q > i + 1 && q + 1 < |s| && IsLetter(s[q + 1]) then
        assert s[i..q + 2] == s[i..q + 1] + [s[q + 1]];
        NonSpaceInsertSpace(s[i..q + 1], [s[q + 1]]);
        Some(Hit(q + 2, s[i..q + 1] + " " + [s[q + 1]]))
      else None
    else None
  }

  /** `([a-zA-Z]{3,})-([a-zA-Z]{3,})` -> `\1 - \2`: both runs are greedy, and
      a shorter first run would leave a letter where `-` must be. */
  function HyphenAt(s: string, i: nat): (h: Option<Hit>)
    requires i < |s|
    ensures h.Some? ==> SoundHit(s, i, h.value)
  {
    var n := Run(s[i..], Letter);
    if n >= 3 && i + n < |s| && s[i + n] == '-' then
      var m := Run(s[i + n + 1..], Letter);
      if m >= 3 then
        var left := s[i..i + n];
        var right := s[i + n + 1..i + n + 1 + m];
        HyphenKeepsText(left, right);
        assert s[i..i + n + 1 + m] == left + "-" + right;
        Some(Hit(i + n + 1 + m, left + " - " + right))
      else None
    else None
  }

  lemma HyphenKeepsText(left: string, right: string)
    ensures NonSpace(left + " - " + right) == NonSpace(left + "-" + right)
  {
    NonSpaceInsertSpace(left, "- " + right);
    NonSpaceInsertSpace(left + "-", right);
    assert left + " - " + right == left + " " + ("- " + right);
    assert left + ("- " + right) == (left + "-") + " " + right;
  }

  /** Whether the rule's pattern matches starting exactly at position `i`,
      and what the match is replaced by. */
  function MatchAt(rule: GlobalRule, s: string, i: nat): (h: Option<Hit>)
    requires i < |s|
    ensures h.Some? ==> SoundHit(s, i, h.value)
  {
    match rule
    case ParenThenLetter => ParenThenLetterAt(s, i)
    case AlnumThenParen =>
      if i + 1 < |s| && IsAlnum(s[i]) && s[i + 1] == '(' then Some(SpaceInPair(s, i)) else None
    case CommaBetweenAlnums => TripleAt(s, i, Alnum, ',', Alnum)
    case DotBeforeDigit => TripleAt(s, i, Letter, '.', Digit)
    case DotBeforeCapital =>
      if i + 2 < |s| && IsLower(s[i]) && s[i + 1] == '.' && IsUpper(s[i + 2]) then Some(SpaceInTriple(s, i)) else None
    case LetterThenBracket =>
      if i + 1 < |s| && IsLetter(s[i]) && s[i + 1] == '[' then Some(SpaceInPair(s, i)) else None
    case BracketThenLetter =>
      if i + 1 < |s| && s[i] == ']' && IsLetter(s[i + 1]) then Some(SpaceInPair(s, i)) else None
    case ColonBetweenLetters => TripleAt(s, i, Letter, ':', Letter)
    case SemicolonBetweenLetters => TripleAt(s, i, Letter, ';', Letter)
    case HyphenBetweenWords => HyphenAt(s, i)
  }

  /** `re.sub` from position `i`: at each position either the pattern
      matches there and its replacement is emitted, scanning on after the
      match, or the character is copied and the scan moves one on. */
  function SubstituteFrom(rule: GlobalRule, s: string, i: nat): (r: string)
    requires i <= |s|
    ensures NonSpace(r) == NonSpace(s[i..])
    ensures |r| >= |s| - i
    decreases |s| - i
  {
    if i == |s| then []
    else
      var m := MatchAt(rule, s, i);
      if m.Some? then
        var rest := SubstituteFrom(rule, s, m.value.end);
        SplitKeepsText(m.value.repl, rest, s, i, m.value.end);
        m.value.repl + rest
      else
        var rest := SubstituteFrom(rule, s, i + 1);
        assert s[i..i + 1] == [s[i]];
        SplitKeepsText([s[i]], rest, s, i, i + 1);
        [s[i]] + rest
  }

  lemma SplitKeepsText(head: string, rest: string, s: string, i: nat, e: nat)
    requires i < e <= |s|
    requires NonSpace(head) == NonSpace(s[i..e])
    requires NonSpace(rest) == NonSpace(s[e..])
    ensures NonSpace(head + rest) == NonSpace(s[i..])
  {
    assert s[i..] == s[i..e] + s[e..];
    NonSpaceAppend(head, rest);
    NonSpaceAppend(s[i..e], s[e..]);
  }

  /** `re.sub(pattern, replacement, s)` for an unanchored rule. */
  function Substitute(rule: GlobalRule, s: string): (r: string)
    ensures NonSpace(r) == NonSpace(s)
    ensures |r| >= |s|
  {
    assert s[0..] == s;
    SubstituteFrom(rule, s, 0)
  }

  /** The unanchored rules applied one after the other. */
  function SubstituteAll(rules: seq<GlobalRule>, s: string): (r: string)
    ensures NonSpace(r) == NonSpace(s)
    ensures |r| >= |s|
  {
    if |rules| == 0 then s else SubstituteAll(rules[1..], Substitute(rules[0], s))
  }

  /** `not text or not text.strip()`: empty or only whitespace. */
  predicate IsBlank(s: string) {
    forall i :: 0 <= i < |s| ==> IsSpace(s[i])
  }

  /** `fix_text_spacing(text)`: blank text is returned as it is; otherwise
      the sixteen rules run in source order. The rewrite never adds, drops
      or reorders a non-whitespace character. */
  function FixTextSpacing(text: string): (r: string)
    ensures IsBlank(text) ==> r == text
    ensures NonSpace(r) == NonSpace(text)
  {
    if IsBlank(text) then text
    else
      var t := SpaceAfterLeadingNumber(text);
      var t := CloseLeadingNumberGap(t);
      var t := SpaceAfterLeadingRoman(t);
      var t := SpaceAfterLeadingLetter(t);
      var t := SpaceAfterLeadingParen(t);
      var t := SpaceAfterLeadingSection(t);
      SubstituteAll(GlobalRules, t)
  }

  lemma InsertSpaceOfSplit(a: string, b: string)
    ensures InsertSpace(a + b, |a|) == a + " " + b
  {
    assert (a + b)[..|a|] == a && (a + b)[|a|..] == b;
  }

  /** The comma rule resumes after each match, so in `x,y,z` the `y` taken
      by the first match cannot start a second one: one pass leaves a comma
      glued that the same rule still matches, so the rewrite is not
      idempotent. */
  lemma CommaRuleNotIdempotent(x: char, y: char, z: char)
    requires IsAlnum(x) && IsAlnum(y) && IsAlnum(z)
    ensures Substitute(CommaBetweenAlnums, [x, ',', y, ',', z]) == [x, ',', ' ', y, ',', z]
    ensures MatchAt(CommaBetweenAlnums, [x, ',', ' ', y, ',', z], 3).Some?
  {
    CommaFirstPass(x, y, z);
  }

  lemma CommaFirstPass(x: char, y: char, z: char)
    requires IsAlnum(x) && IsAlnum(y) && IsAlnum(z)
    ensures Substitute(CommaBetweenAlnums, [x, ',', y, ',', z]) == [x, ',', ' ', y, ',', z]
  {
    var s := [x, ',', y, ',', z];
    assert SubstituteFrom(CommaBetweenAlnums, s, 5) == [];
    assert MatchAt(CommaBetweenAlnums, s, 4).None?;
    assert SubstituteFrom(CommaBetweenAlnums, s, 4) == [z];
    assert MatchAt(CommaBetweenAlnums, s, 3).None?;
    assert SubstituteFrom(CommaBetweenAlnums, s, 3) == [',', z];
    assert MatchAt(CommaBetweenAlnums, s, 0) == Some(Hit(3, [x, ',', ' ', y]));
  }

  lemma IIIIHead(s: string)
    requires |s| > 4 && s[0] == 'I' && s[1] == 'I' && s[2] == 'I' && s[3] == 'I' && s[4] == '.'
    ensures Run(s, RomanLetter) == 4
  {
    assert forall i :: 0 <= i < 4 ==> InClass(s[i], RomanLetter);
    assert !InClass(s[4], RomanLetter);
    RunOfPrefix(s, 4, RomanLetter);
  }

  /** A run of exactly one character. */
  lemma RunOfOne(s: string, k: Class)
    requires |s| > 0 && InClass(s[0], k)
    requires |s| == 1 || !InClass(s[1], k)
    ensures Run(s, k) == 1
  {
    assert |s[1..]| == 0 || s[1..][0] == s[1];
  }

  /** The run is exactly the first `n` characters when they are in the
      class and the next one is not. */
  lemma {:induction false} RunOfPrefix(s: string, n: nat, k: Class)
    requires n <= |s|
    requires forall i :: 0 <= i < n ==> InClass(s[i], k)
    requires n == |s| || !InClass(s[n], k)
    ensures Run(s, k) == n
  {
    if n > 0 {
      RunOfPrefix(s[1..], n - 1, k);
    }
  }

  /** A section number ending in a dot gets its space after that dot. */
  lemma SectionEndingInDot(rest: string)
    requires |rest| > 0 && !IsSpace(rest[0]) && !IsDigit(rest[0])
    ensures SpaceAfterLeadingSection("1.2." + rest) == "1.2. " + rest
  {
    var s := "1.2." + rest;
    assert s[0] == '1' && s[1] == '.' && s[2] == '2' && s[3] == '.' && s[4] == rest[0];
    RunOfOne(s, Digit);
    RunOfOne(s[2..], Digit);
    assert DottedRun(s, 3, 1) == (3, 1);
    assert DottedRun(s, 1, -1) == (3, 1);
    InsertSpaceOfSplit("1.2.", rest);
  }

  /** Without a final dot the greedy group gives back its last `.digits`,
      and the space goes after the dot before them. */
  lemma SectionWithoutFinalDot(rest: string)
    requires |rest| == 0 || (!IsDigit(rest[0]) && rest[0] != '.')
    ensures SpaceAfterLeadingSection("1.2" + rest) == "1. 2" + rest
  {
    var s := "1.2" + rest;
    assert s[0] == '1' && s[1] == '.' && s[2] == '2';
    assert |s| == 3 || s[3] == rest[0];
    RunOfOne(s, Digit);
    RunOfOne(s[2..], Digit);
    assert DottedRun(s, 3, 1) == (3, 1);
    assert DottedRun(s, 1, -1) == (3, 1);
    InsertSpaceOfSplit("1.", "2" + rest);
    assert "1." + ("2" + rest) == s;
  }

  /** A valid numeral gets its space after the separator. */
  lemma RomanValidHead(rest: string)
    requires |rest| > 0 && !IsSpace(rest[0])
    ensures SpaceAfterLeadingRoman("IV." + rest) == "IV. " + rest
  {
    var s := "IV." + rest;
    assert s[0] == 'I' && s[1] == 'V' && s[2] == '.' && s[3] == rest[0];
    IvHead(s);
    assert s[..2] == "IV";
    Roman.AcceptUpperIv();
    InsertSpaceOfSplit("IV.", rest);
  }

  lemma IvHead(s: string)
    requires |s| > 3 && s[0] == 'I' && s[1] == 'V' && s[2] == '.' && !IsSpace(s[3])
    ensures Run(s, RomanLetter) == 2 && HasRomanHead(s)
  {
    assert InClass(s[0], RomanLetter) && InClass(s[1], RomanLetter) && !InClass(s[2], RomanLetter);
    RunOfPrefix(s, 2, RomanLetter);
  }

  /** An invalid run of numeral letters is left as it is. */
  lemma RomanInvalidHead(rest: string)
    ensures SpaceAfterLeadingRoman("IIII." + rest) == "IIII." + rest
  {
    var s := "IIII." + rest;
    assert s[0] == 'I' && s[1] == 'I' && s[2] == 'I' && s[3] == 'I' && s[4] == '.';
    IIIIHead(s);
    assert s[..4] == "IIII";
    Roman.RejectedSamples();
  }
}

=== FILE: upload_page.dfy ===
/** The upload page (src/frontend/src/pages/Upload/Upload.jsx) as a state
    machine over its five pieces of React state, plus the calls still
    awaited: how many `processFile` calls are, and the names of the
    `downloadFile` calls that are. Events are the user's actions the
    rendered page offers and the settling of those calls; the network's
    answers are parameters. */
module UploadPage {
  import opened Common
  import FileUpload
  import FetchApi
  import Server
  import Pipeline

  datatype Status = Idle | Processing | Completed | Failed

  /** `file`, `uploadProgress`, `status`, `result`, `error`, the number
      of processing requests in flight, and the file names of the
      download requests in flight, in the order they were made. */
  datatype Page = Page(
    file: Option<FileUpload.File>, progress: int, status: Status,
    result: Option<Server.Reply>, error: Option<string>, pending: nat,
    downloads: seq<string>)

  const Initial: Page := Page(None, 0, Idle, None, None, 0, [])

  /** `disabled={status === 'processing'}` on the picker. */
  predicate PickerDisabled(p: Page) {
    p.status == Processing
  }

  datatype Event =
    | Pick(files: Option<seq<FileUpload.File>>)
    | Drop(files: Option<seq<FileUpload.File>>)
    | Process
    | Settle(answer: FetchApi.Answer<Server.Reply>)
    | Download
    | DownloadSettle(index: nat, download: FetchApi.Answer<seq<bv8>>)
    | Reset

  /** The events the page can receive in a state: the hidden input only
      while the picker is enabled, a drop at any time, each button only
      where it is rendered, and each settling only while its request is
      awaited. */
  predicate Enabled(p: Page, e: Event) {
    match e
    case Pick(_) => !PickerDisabled(p)
    case Drop(_) => true
    case Process => p.file.Some? && p.status == Idle
    case Settle(_) => p.pending > 0
    case Download => p.status == Completed && p.result.Some?
    case DownloadSettle(i, _) => i < |p.downloads|
    case Reset => (p.file.Some? && p.status == Idle) || (p.status == Completed && p.result.Some?) || p.status == Failed
  }

  /** `handleFileSelect(selectedFile)`: a new file starts over. */
  function SelectFile(p: Page, f: FileUpload.File): (r: Page)
    ensures r.file == Some(f) && r.status == Idle && r.result.None? && r.error.None? && r.progress == 0
    ensures r.pending == p.pending && r.downloads == p.downloads
  {
    p.(file := Some(f), error := None, status := Idle, result := None, progress := 0)
  }

  /** The page after a picker selection (`onFileSelect` called or not). */
  function Selected(p: Page, s: FileUpload.Selection): (r: Page)
    ensures s.selected.None? ==> r == p
    ensures s.selected.Some? ==> r == SelectFile(p, s.selected.value)
  {
    if s.selected.Some? then SelectFile(p, s.selected.value) else p
  }

  /** `handleProcess()` up to the `await`: nothing without a file;
      otherwise one more request is awaited. */
  function BeginProcess(p: Page): (r: Page)
    ensures p.file.None? ==> r == p
    ensures p.file.Some? ==> r == p.(status := Processing, error := None, progress := 0, pending := p.pending + 1)
  {
    if p.file.None? then p else p.(status := Processing, error := None, progress := 0, pending := p.pending + 1)
  }

  /** `handleProcess()` after the `await`: the reply and `completed`, or
      the thrown message and `error`; the final progress report lands
      first. Any one of the awaited requests may be the one settling. */
  function FinishProcess(p: Page, answer: FetchApi.Answer<Server.Reply>): (r: Page)
    requires p.pending > 0
    ensures r.pending == p.pending - 1 && r.file == p.file && r.downloads == p.downloads
    ensures var res := FetchApi.ProcessFile(answer, true).0;
      (res.Ok? ==> r.status == Completed && r.result == Some(res.value) && r.error == p.error && r.progress == 100)
      && (res.Err? ==> r.status == Failed && r.error == Some(res.error) && r.result == p.result && r.progress == p.progress)
  {
    var (res, reports) := FetchApi.ProcessFile(answer, true);
    var p' := if |reports| > 0 then p.(progress := reports[|reports| - 1]) else p;
    match res
    case Ok(reply) => p'.(result := Some(reply), status := Completed, pending := p.pending - 1)
    case Err(m) => p'.(error := Some(m), status := Failed, pending := p.pending - 1)
  }

  /** The name `handleDownload` asks for: the text after the last `/` of
      `download_url`; nothing without a result or with an empty URL. */
  function DownloadName(p: Page): (r: Option<string>)
    ensures r.Some? <==> p.result.Some? && p.result.value.downloadUrl != ""
    ensures r.Some? ==> '/' !in r.value && EndsWith(p.result.value.downloadUrl, r.value)
  {
    if p.result.None? || p.result.value.downloadUrl == "" then None
    else Some(LastSegment(p.result.value.downloadUrl, '/'))
  }

  /** `handleDownload()` up to the `await`: the request for the name is
      made; nothing without a name. */
  function BeginDownload(p: Page): (r: Page)
    ensures DownloadName(p).None? ==> r == p
    ensures DownloadName(p).Some? ==> r == p.(downloads := p.downloads + [DownloadName(p).value])
  {
    match DownloadName(p)
    case None => p
    case Some(name) => p.(downloads := p.downloads + [name])
  }

  /** `handleDownload()` after the `await` of the `i`-th request in
      flight, on whatever page is shown by then: the file is saved under
      the name that request asked for, or the thrown message becomes
      `error`. Nothing else changes. */
  function FinishDownload(p: Page, i: nat, answer: FetchApi.Answer<seq<bv8>>): (r: (Page, Option<(string, seq<bv8>)>))
    requires i < |p.downloads|
    ensures r.0 == p.(downloads := p.downloads[..i] + p.downloads[i + 1..], error := r.0.error)
    ensures r.1.Some? <==> answer.Success? && answer.body.Json?
    ensures r.1.Some? ==> r.1.value == (p.downloads[i], answer.body.value) && r.0.error == p.error
    ensures r.1.None? ==> r.0.error == Some(FetchApi.DownloadFile(p.downloads[i], answer).error)
  {
    var rest := p.downloads[..i] + p.downloads[i + 1..];
    match FetchApi.DownloadFile(p.downloads[i], answer)
    case Ok(saved) => (p.(downloads := rest), Some(saved))
    case Err(m) => (p.(downloads := rest, error := Some(m)), None)
  }

  /** `handleDownload()` with nothing happening during its `await`: the
      file saved, if any; a failure only sets `error`. */
  function HandleDownload(p: Page, answer: FetchApi.Answer<seq<bv8>>): (r: (Page, Option<(string, seq<bv8>)>))
    ensures DownloadName(p).None? ==> r == (p, None)
    ensures r.1.Some? ==> DownloadName(p).Some? && r.1.value.0 == DownloadName(p).value && r.0 == p
    ensures r.0 == p || r.0 == p.(error := r.0.error)
    ensures DownloadName(p).Some? && answer.Success? && answer.body.Json? ==>
      r == (p, Some((DownloadName(p).value, answer.body.value)))
    ensures DownloadName(p).Some? && !(answer.Success? && answer.body.Json?) ==>
      r.1.None? && r.0 == p.(error := Some(FetchApi.DownloadFile(DownloadName(p).value, answer).error))
    ensures DownloadName(p).Some? && answer.Failure? ==> r.0.error == Some(FetchApi.DownloadRejected)
  {
    match DownloadName(p)
    case None => (p, None)
    case Some(name) =>
      match FetchApi.DownloadFile(name, answer)
      case Ok(saved) => (p, Some(saved))
      case Err(m) => (p.(error := Some(m)), None)
  }

  /** `handleReset()`: back to the initial page; awaited requests are
      still awaited. */
  function HandleReset(p: Page): (r: Page)
    ensures r == Initial.(pending := p.pending, downloads := p.downloads)
  {
    Page(None, 0, Idle, None, None, p.pending, p.downloads)
  }

  /** A click on the download button whose request settles before
      anything else happens is `HandleDownload`. */
  lemma HandleDownloadIsBeginThenFinish(p: Page, answer: FetchApi.Answer<seq<bv8>>)
    requires DownloadName(p).Some?
    ensures FinishDownload(BeginDownload(p), |p.downloads|, answer) == HandleDownload(p, answer)
  {
    var q := BeginDownload(p);
    assert q.downloads[..|p.downloads|] + q.downloads[|p.downloads| + 1..] == p.downloads;
  }

  /** One event, and the file saved by a download. `guarded` chooses the
      picker's drop handler: `FileUpload.HandleDropGuarded` when true,
      `FileUpload.HandleDrop` as written when false. */
  function Step(p: Page, e: Event, guarded: bool): (r: (Page, Option<(string, seq<bv8>)>))
    ensures !e.DownloadSettle? ==> r.1.None?
    ensures e.Reset? ==> r.0 == HandleReset(p)
    ensures e.Process? ==> r.0 == BeginProcess(p)
  {
    match e
    case Pick(files) => (Selected(p, FileUpload.HandleFileSelect(files)), None)
    case Drop(files) =>
      var s := if guarded then FileUpload.HandleDropGuarded(PickerDisabled(p), files)
               else FileUpload.HandleDrop(PickerDisabled(p), files);
      (Selected(p, s), None)
    case Process => (BeginProcess(p), None)
    case Settle(answer) => if p.pending > 0 then (FinishProcess(p, answer), None) else (p, None)
    case Download => (BeginDownload(p), None)
    case DownloadSettle(i, answer) =>
      if i < |p.downloads| then FinishDownload(p, i, answer) else (p, None)
    case Reset => (HandleReset(p), None)
  }

  /** What the page's states have in common: one processing request is
      awaited while `processing` is shown and none otherwise, and then a file is
      chosen and there is no result; `idle` has no result; `completed`
      has a result; `error` has a message and no result. `error` is only
      rendered under `error`; a download that fails late can set it in
      any status. */
  predicate Consistent(p: Page) {
    && p.pending == (if p.status == Processing then 1 else 0)
    && (p.status == Processing ==> p.file.Some? && p.result.None?)
    && (p.status == Idle ==> p.result.None?)
    && (p.status == Completed ==> p.result.Some?)
    && (p.status == Failed ==> p.error.Some? && p.result.None?)
  }

  /** With the guarded drop, every event the page offers keeps it
      consistent. */
  lemma StepConsistent(p: Page, e: Event)
    requires Consistent(p) && Enabled(p, e)
    ensures Consistent(Step(p, e, true).0)
  {
    match e
    case Drop(files) =>
      if PickerDisabled(p) {
        assert FileUpload.HandleDropGuarded(true, files).selected.None?;
      }
    case Settle(answer) =>
      assert p.status == Processing;
    case _ =>
  }

  /** A download still awaited when "Process Another File" is pressed
      fails onto the fresh page: it is `idle`, yet `error` holds the
      download's message (unrendered until a later processing clears
      it). */
  lemma DownloadFailureAfterReset(p: Page, status: int)
    requires Consistent(p) && p.status == Completed && DownloadName(p).Some?
    ensures var clicked := Step(p, Download, true).0;
      var reset := Step(clicked, Reset, true).0;
      var failed := Step(reset, DownloadSettle(|p.downloads|, FetchApi.Failure(status, FetchApi.Json(FetchApi.ErrorBody(None)))), true).0;
      && Enabled(p, Download) && Enabled(clicked, Reset)
      && Enabled(reset, DownloadSettle(|p.downloads|, FetchApi.Failure(status, FetchApi.Json(FetchApi.ErrorBody(None)))))
      && failed.status == Idle && failed.file.None? && failed.error == Some(FetchApi.DownloadRejected)
      && Consistent(failed)
  {
  }

  lemma InitialConsistent()
    ensures Consistent(Initial)
  {
  }

  /** As written, a drop during processing starts the page over while the
      request is still awaited, and its answer then shows a result for the
      file that was replaced: the page claims `completed` for a file that
      was never processed. */
  lemma DropDuringProcessing(first: FileUpload.File, second: FileUpload.File, reply: Server.Reply)
    requires FileUpload.ValidateFile(second).None?
    ensures var busy := BeginProcess(SelectFile(Initial, first));
      var dropped := Step(busy, Drop(Some([second])), false).0;
      var settled := Step(dropped, Settle(FetchApi.Success(200, FetchApi.Json(reply))), false).0;
      && Enabled(busy, Drop(Some([second])))
      && !Consistent(dropped)
      && Enabled(dropped, Settle(FetchApi.Success(200, FetchApi.Json(reply))))
      && settled.status == Completed && settled.file == Some(second) && settled.result == Some(reply)
    ensures var busy := BeginProcess(SelectFile(Initial, first));
      Step(busy, Drop(Some([second])), true).0 == busy
  {
  }

  /** A failed download sets `error` but keeps `completed`, and the page
      renders `error` only under `error`: the message is never shown. */
  lemma DownloadFailureUnseen(p: Page, status: int)
    requires Consistent(p) && p.status == Completed && DownloadName(p).Some?
    ensures var r := HandleDownload(p, FetchApi.Failure(status, FetchApi.Json(FetchApi.ErrorBody(None)))).0;
      r.status == Completed && r.error == Some(FetchApi.DownloadRejected) && Consistent(r)
  {
  }

  /** End to end: after the backend processes an upload of a name without
      `/`, the download button asks for exactly the output file the
      backend wrote. */
  lemma DownloadAsksForOutput(p: Page, fs: set<string>, filename: string)
    requires p.status == Processing && p.pending > 0
    requires '/' !in filename && Pipeline.IsSupportedName(filename)
    ensures var done := FinishProcess(p, FetchApi.FromServer(Server.ProcessUpload(fs, filename, Server.Processed).0));
      && done.status == Completed
      && DownloadName(done) == Some(Server.OutputName(filename))
      && Server.Download(Server.ProcessUpload(fs, filename, Server.Processed).1, DownloadName(done).value).Ok?
  {
    Server.DownloadAfterUpload(fs, filename);
  }

  /** As written, a drop during processing shows `idle` again, so the
      process button is back while the first request is awaited: a second
      request starts, and both answers land on the page in turn. A
      success followed by a failure leaves `error` showing with the
      first reply still held. */
  lemma SecondProcessingCall(first: FileUpload.File, second: FileUpload.File, reply: Server.Reply, status: int)
    requires FileUpload.ValidateFile(second).None?
    ensures var busy := BeginProcess(SelectFile(Initial, first));
      var dropped := Step(busy, Drop(Some([second])), false).0;
      var twice := Step(dropped, Process, false).0;
      var one := Step(twice, Settle(FetchApi.Success(200, FetchApi.Json(reply))), false).0;
      var both := Step(one, Settle(FetchApi.Failure(status, FetchApi.Json(FetchApi.ErrorBody(None)))), false).0;
      && Enabled(dropped, Process) && twice.pending == 2
      && one.status == Completed && one.result == Some(reply)
      && Enabled(one, Settle(FetchApi.Failure(status, FetchApi.Json(FetchApi.ErrorBody(None)))))
      && both.pending == 0 && both.status == Failed && both.result == Some(reply) && !Consistent(both)
  {
  }
}

=== FILE: user_menu.dfy ===
/** The signed-in user's menu (src/frontend/src/components/User/User.jsx):
    the dropdown, the change-password and change-email dialogs, and
    logout. As in `ForgotPassword`, validators and service calls are
    parameters given as how the call ended. */
module UserMenu {
  import opened Common
  import Http
  import AuthService

  datatype Fields = Fields(oldPassword: string, newPassword: string, confirmPassword: string, newEmail: string)

  const EmptyFields: Fields := Fields("", "", "", "")

  datatype Field = OldPasswordField | NewPasswordField | ConfirmPasswordField | NewEmailField

  /** `isDropdownOpen`, `showChangePassword`, `showChangeEmail`,
      `formData`, `errors`, `loading`, `successMessage`. */
  datatype Menu = Menu(
    dropdownOpen: bool, showChangePassword: bool, showChangeEmail: bool,
    fields: Fields, errors: seq<string>, loading: bool, success: string)

  const Initial: Menu := Menu(false, false, false, EmptyFields, [], false, "")
  const PasswordChanged: string := "Đổi mật khẩu thành công!"
  const EmailChanged: string := "Đổi email thành công!"

  function SetField(f: Fields, field: Field, value: string): Fields {
    match field
    case OldPasswordField => f.(oldPassword := value)
    case NewPasswordField => f.(newPassword := value)
    case ConfirmPasswordField => f.(confirmPassword := value)
    case NewEmailField => f.(newEmail := value)
  }

  function GetField(f: Fields, field: Field): string {
    match field
    case OldPasswordField => f.oldPassword
    case NewPasswordField => f.newPassword
    case ConfirmPasswordField => f.confirmPassword
    case NewEmailField => f.newEmail
  }

  /** `handleInputChange` */
  function InputChange(m: Menu, field: Field, value: string): (r: Menu)
    ensures GetField(r.fields, field) == value
    ensures forall g :: g != field ==> GetField(r.fields, g) == GetField(m.fields, g)
    ensures r.errors == [] && r.success == "" && r.loading == m.loading
    ensures r.showChangePassword == m.showChangePassword && r.showChangeEmail == m.showChangeEmail
  {
    m.(fields := SetField(m.fields, field, value), errors := [], success := "")
  }

  /** What both submit handlers do before validating. */
  function Submitting(m: Menu): Menu {
    m.(loading := true, errors := [], success := "")
  }

  /** `handleChangePassword`: on success the server's message (or a fixed
      one) is shown, the dialog closes and the three password fields are
      cleared; the new e-mail field is kept. The second result is the
      pair of passwords sent, if a request was made. */
  function ChangePassword(m: Menu, validation: Call<seq<string>>, request: Call<Option<string>>): (r: (Menu, Option<(string, string)>))
    ensures validation.Throws? ==> r == (Submitting(m), None)
    ensures validation.Returns? ==> !r.0.loading
    ensures r.1.Some? <==> validation == Returns([])
    ensures r.1.Some? ==> r.1.value == (m.fields.oldPassword, m.fields.newPassword)
    ensures validation.Returns? && validation.value != [] ==>
      r.0.errors == validation.value && r.0.fields == m.fields && r.0.showChangePassword == m.showChangePassword
    ensures validation == Returns([]) && request.Returns? ==>
      && r.0.success == OptOrElse(request.value, PasswordChanged)
      && !r.0.showChangePassword
      && r.0.fields == EmptyFields.(newEmail := m.fields.newEmail)
    ensures validation == Returns([]) && request.Throws? ==>
      r.0.errors == [request.message] && r.0.fields == m.fields && r.0.showChangePassword == m.showChangePassword
  {
    match validation
    case Throws(_) => (Submitting(m), None)
    case Returns(errs) =>
      if |errs| > 0 then (Submitting(m).(errors := errs, loading := false), None)
      else
        var sent := Some((m.fields.oldPassword, m.fields.newPassword));
        match request
        case Returns(message) =>
          var cleared := m.fields.(oldPassword := "", newPassword := "", confirmPassword := "");
          (Submitting(m).(success := OptOrElse(message, PasswordChanged), showChangePassword := false,
                          fields := cleared, loading := false), sent)
        case Throws(msg) => (Submitting(m).(errors := [msg], loading := false), sent)
  }

  /** `handleChangeEmail`: a success shows the server's message (or a
      fixed one), closes the dialog and clears the new e-mail field; the
      page reload that follows is left out. A failure shows the thrown
      message. The second result is the address sent, if any. */
  function ChangeEmail(m: Menu, validation: Call<seq<string>>, request: Call<Option<string>>): (r: (Menu, Option<string>))
    ensures validation.Throws? ==> r == (Submitting(m), None)
    ensures validation.Returns? ==> !r.0.loading
    ensures r.1.Some? <==> validation == Returns([])
    ensures r.1.Some? ==> r.1.value == m.fields.newEmail
    ensures validation.Returns? && validation.value != [] ==>
      r.0.errors == validation.value && r.0.fields == m.fields && r.0.showChangeEmail == m.showChangeEmail
    ensures validation == Returns([]) && request.Returns? ==>
      && r.0.success == OptOrElse(request.value, EmailChanged)
      && !r.0.showChangeEmail
      && r.0.fields == m.fields.(newEmail := "")
    ensures validation == Returns([]) && request.Throws? ==>
      r.0.errors == [request.message] && r.0.fields == m.fields && r.0.showChangeEmail == m.showChangeEmail
  {
    match validation
    case Throws(_) => (Submitting(m), None)
    case Returns(errs) =>
      if |errs| > 0 then (Submitting(m).(errors := errs, loading := false), None)
      else
        match request
        case Returns(message) =>
          (Submitting(m).(success := OptOrElse(message, EmailChanged), showChangeEmail := false,
                          fields := m.fields.(newEmail := ""), loading := false), Some(m.fields.newEmail))
        case Throws(msg) => (Submitting(m).(errors := [msg], loading := false), Some(m.fields.newEmail))
  }

  /** `resetForms`: both dialogs closed, fields and messages cleared;
      `loading` and the dropdown are left as they were. */
  function ResetForms(m: Menu): (r: Menu)
    ensures r == Initial.(dropdownOpen := m.dropdownOpen, loading := m.loading)
  {
    m.(showChangePassword := false, showChangeEmail := false, fields := EmptyFields, errors := [], success := "")
  }

  /** `handleLogout`: everything closed and cleared, and the session
      removed from the storage. */
  function Logout(m: Menu, store: Http.Store): (r: (Menu, Http.Store))
    ensures r.0 == Initial.(loading := m.loading)
    ensures !AuthService.IsAuthenticated(r.1) && AuthService.GetUser(r.1).None?
    ensures r.1 == AuthService.Logout(store)
  {
    (ResetForms(m).(dropdownOpen := false), AuthService.Logout(store))
  }

  datatype Event =
    | Edit(field: Field, value: string)
    | ToggleDropdown
    | ClickOutside
    | OpenChangePassword
    | OpenChangeEmail
    | SubmitPassword(passwordValidation: Call<seq<string>>, passwordRequest: Call<Option<string>>)
    | SubmitEmail(emailValidation: Call<seq<string>>, emailRequest: Call<Option<string>>)
    | CloseDialogs
    | SuccessExpired

  /** The inputs and submit buttons of an open dialog are disabled while
      loading (the e-mail dialog has a single editable input); the menu
      entries need the dropdown open; the `×` buttons, the overlays and a
      mouse-down outside the dropdown are always available. */
  predicate Enabled(m: Menu, e: Event) {
    match e
    case Edit(field, _) =>
      !m.loading && (if field == NewEmailField then m.showChangeEmail else m.showChangePassword)
    case ToggleDropdown => true
    case ClickOutside => true
    case OpenChangePassword => m.dropdownOpen
    case OpenChangeEmail => m.dropdownOpen
    case SubmitPassword(_, _) => m.showChangePassword && !m.loading
    case SubmitEmail(_, _) => m.showChangeEmail && !m.loading
    case CloseDialogs => m.showChangePassword || m.showChangeEmail
    case SuccessExpired => m.success != ""
  }

  function Step(m: Menu, e: Event): Menu {
    match e
    case Edit(field, value) => InputChange(m, field, value)
    case ToggleDropdown => m.(dropdownOpen := !m.dropdownOpen)
    case ClickOutside => m.(dropdownOpen := false)
    case OpenChangePassword => m.(showChangePassword := true, dropdownOpen := false)
    case OpenChangeEmail => m.(showChangeEmail := true, dropdownOpen := false)
    case SubmitPassword(v, q) => ChangePassword(m, v, q).0
    case SubmitEmail(v, q) => ChangeEmail(m, v, q).0
    case CloseDialogs => ResetForms(m)
    case SuccessExpired => m.(success := "")
  }

  /** Errors and a success message are never shown together. */
  predicate Consistent(m: Menu) {
    m.errors != [] ==> m.success == ""
  }

  /** Every event the menu offers keeps it consistent. */
  lemma StepConsistent(m: Menu, e: Event)
    requires Consistent(m) && Enabled(m, e)
    ensures Consistent(Step(m, e))
  {
  }

  /** A validator that throws leaves the menu loading, and no event the
      menu offers clears `loading` again: every later dialog opens with
      its inputs and submit button disabled. */
  lemma ThrowingValidatorDisablesForGood(m: Menu, e: Event, q: Call<Option<string>>, msg: string)
    ensures ChangePassword(m, Throws(msg), q).0.loading && ChangeEmail(m, Throws(msg), q).0.loading
    ensures m.loading && Enabled(m, e) ==> Step(m, e).loading
  {
  }

  /** A successful password change followed by a successful e-mail
      change leaves every draft field empty and both dialogs closed. (The
      other order is not a run of one menu: a successful e-mail change
      reloads the page.) */
  lemma BothChangesClearAllDrafts(m: Menu, q: Call<Option<string>>, q': Call<Option<string>>)
    requires q.Returns? && q'.Returns?
    ensures var after := ChangeEmail(ChangePassword(m, Returns([]), q).0, Returns([]), q').0;
      after.fields == EmptyFields && !after.showChangePassword && !after.showChangeEmail
  {
  }
}
